=== FILE: README.md ===
# django_advanced_logging, modelled in Dafny

A model of the logging pipeline of the Django package `advanced_logging`, with
proofs about it. It covers:

- the asynchronous PostgreSQL sink: a bounded drop-oldest buffer, the writer
  loop as one step at a time, batch writes against a database oracle, and the
  14-column row;
- the environment tagger and the sensitive-data masker;
- the coloured and JSON formatters;
- the `LoggerManager` registry and its logger setup;
- the package's global manager and its environment-variable configuration;
- the request and integration middlewares;
- the once-only `ready()` of the Django application;
- the stored row of the `ApplicationLog` model.

One module per source file:

- `wrappers.dfy` (module `Wrappers`): `Option` and `Result`
- `text.dfy` (module `Text`): the `str` operations the library calls (`lower`, `strip`, `split`, `in`, `str(int)`, `int(str)`)
- `json.dfy` (module `Json`): insertion-ordered dictionaries, `json.dumps` and `json.loads`, with the round trip proved
- `records.dfy` (module `Records`): `datetime.isoformat` and the `LogRecord` the filters and formatters rewrite
- `filters.dfy` (module `Filters`): `core/filters.py`
- `formatters.dfy` (module `Formatters`): `core/formatters.py`, and the `%(attr)s` rendering of `logging.Formatter`
- `handlers.dfy` (module `Handlers`): `core/handlers.py`
- `logger.dfy` (module `Logging`): `core/logger.py`, and the `logging.getLogger` table
- `utils.dfy` (module `Utils`): `utils.py`
- `middleware.dfy` (module `Middleware`): `middleware.py`
- `apps.dfy` (module `Apps`): `apps.py`
- `models.dfy` (module `Models`): `models.py`
- `masking_examples.dfy` (modules `MaskingTexts` and `MaskingExamples`): the masker followed key by key on the messages of `tests/test_filters.py`

State the source changes in place is modelled with classes:
`PostgreSQLHandler`, `LogRecord`, the two filters, `ColoredFormatter`,
`LoggerManager`, `ManagerRegistry`, the `logging` logger table, the global
`LoggingState`, the middleware's request and lazy settings cache, and
`AppConfig`. The rest is datatypes and functions.

Inputs and oracles:

- The process environment and Django's settings are map parameters.
- Whether a database connection or an insert succeeds is a boolean oracle
  parameter (`connectOk`, `insertOk`).
- Clock readings, the host name and a handler's formatted message are
  parameters.

Behaviour of the code that the model keeps as written:

- **Errors in `ready()`** (`apps.py:41-67`). The PostgreSQL settings are
  derived from Django's database at lines 41-44, before the `try` that
  starts at line 49. Only errors of `initialize_logging` and of the startup
  message are caught and printed (lines 65-67). A malformed `PORT`,
  `LOG_DB_PORT`, `LOG_BUFFER_SIZE` or `LOG_BATCH_SIZE` makes `int()` raise
  during the derivation, and that error leaves `ready()`: the `Raised`
  outcome.
- **Emitting after `close()`** (`core/handlers.py:307-317`). `emit` still
  queues a record after `close()`; it is not rejected.
- **Shutdown** (`core/handlers.py:326-339`). `close()` writes only the
  writer's partial batch. Records still in the buffer stay there, and
  `connected` is not reset.
- **First connection** (`core/handlers.py:168-178`). When the first
  connection fails, the writer thread is never started. Records then only
  accumulate in the buffer, and the counters stay at zero
  (`UnreachableDatabase`).
- **Coloured formatter on error** (`core/formatters.py:51-62`). When the
  standard formatter raises, the coloured formatter leaves the coloured
  level name on the record, because there is no `finally`.

A buffer size of zero or less makes the queue unbounded, as it does for
`queue.Queue`. This is modelled rather than excluded.

## Model

| member | source | states |
|---|---|---|
| Text.Lower | advanced_logging/core/filters.py:105 | `lower()` on ASCII letters: keeps the length and maps each upper-case ASCII letter to its lower case, leaving every other character as it is |
| Text.Upper | advanced_logging/core/logger.py:54 | `upper()` on ASCII letters: keeps the length and maps each lower-case ASCII letter to its upper case, leaving every other character as it is |
| Text.Strip | advanced_logging/middleware.py:129 | the result is empty or starts and ends with a non-space, and a text without spaces is kept as it is |
| Text.StripSlice | advanced_logging/middleware.py:129 | `strip()` keeps the slice that starts after the leading whitespace and is followed by nothing but whitespace |
| Text.Split | advanced_logging/middleware.py:129 | at least one piece, none of them containing the separator |
| Text.Join | advanced_logging/core/handlers.py:65-72 | `sep.join(parts)` starts with the first piece, followed by the separator when there are more, and is the piece itself when there is one |
| Text.JoinSplit | advanced_logging/core/handlers.py:65-72 | joining the pieces of a split with the separator gives back the text |
| Text.SplitJoin | advanced_logging/core/handlers.py:65-72 | splitting a join of separator-free pieces gives back the pieces |
| Text.RemoveAbsent | advanced_logging/middleware.py:319 | `replace(sub, '')` leaves a text that does not contain `sub` unchanged |
| Text.RemoveLeading | advanced_logging/middleware.py:319 | `replace` removes a leading occurrence and goes on after it |
| Text.Take | advanced_logging/models.py:161 | `s[:n]` is the prefix of length `min(n, len(s))` |
| Text.IntToString | advanced_logging/core/handlers.py:67 | `str(i)`: non-empty, a minus sign exactly for a negative number, and decimal digits after it |
| Text.ParseInt | advanced_logging/utils.py:128 | `int(s)` succeeds exactly when the stripped text is ASCII digits with an optional sign; the value is the digits' value, negated after `-` |
| Text.IntRoundTrip | advanced_logging/utils.py:128 | `int(str(i)) == i` for every integer |
| Json.Get | advanced_logging/middleware.py:336-340 | `d.get(k)` is present exactly when `k` is a key, and then it is that key's value |
| Json.SetGet | advanced_logging/core/formatters.py:99 | after `d[k] = v`, `k` reads `v` and every other key reads as before |
| Json.SetKeys | advanced_logging/core/formatters.py:107 | `d[k] = v` adds exactly `k` to the keys |
| Json.SetNew | advanced_logging/middleware.py:319-321 | a new key is appended after the existing members |
| Json.SetKeepsOrder | advanced_logging/core/formatters.py:99 | assignment never moves an existing member |
| Json.UpdateGet | advanced_logging/core/formatters.py:103 | after `d.update(e)`, a key of `e` reads as in `e` and any other key as in `d` |
| Json.UpdateKeys | advanced_logging/core/formatters.py:103 | `d.update(e)` has exactly the keys of `d` and `e` |
| Json.UpdateKeepsOrder | advanced_logging/core/formatters.py:103 | `update` never moves a member of `d` |
| Json.UpdateWellFormed | advanced_logging/core/formatters.py:103 | `update` keeps keys distinct and values well formed |
| Json.SetInPlace | advanced_logging/core/formatters.py:103-107 | assigning to an existing key keeps every member's position |
| Json.UpdateDistinct | advanced_logging/middleware.py:254-260 | merging (`**request_info`) with new keys appends them after the existing members |
| Json.IntValueRoundTrip | advanced_logging/core/handlers.py:302 | a written integer reads back as an integer value, with the rest of the text left unread |
| Json.EscapeStringRoundTrip | advanced_logging/core/formatters.py:109 | the escaped body of any string, closing quote included, reads back as the string |
| Json.ArrayRoundTrip | advanced_logging/core/handlers.py:302 | a written list of well-formed values reads back as that list |
| Json.ObjectRoundTrip | advanced_logging/core/handlers.py:302 | a written dictionary with distinct keys and well-formed values reads back as that dictionary, in member order |
| Json.StringRoundTrip | advanced_logging/core/formatters.py:109 | `json.loads` reads back any string `json.dumps` writes, in both escaping modes |
| Json.NumberRoundTrip | advanced_logging/core/formatters.py:109 | a written integer reads back as itself |
| Json.ValueRoundTrip | advanced_logging/core/handlers.py:302 | every well-formed value, nested arrays and objects included, reads back as itself with any legal continuation left unread |
| Json.DumpParse | advanced_logging/core/handlers.py:302 | `json.loads(json.dumps(v)) == v`, objects keeping their member order |
| Json.Dump | advanced_logging/core/formatters.py:109 | `json.dumps` of a dictionary is braced text that `json.loads` reads back as that dictionary when its keys are distinct and its values well formed |
| Json.Parse | advanced_logging/middleware.py:334 | what `json.loads` returns is well formed: every object, at any depth, has distinct keys |
| Json.ReadMembers | advanced_logging/middleware.py:334 | reading members into a dictionary keeps each key once, in the order of its first occurrence, with the value of its last occurrence |
| Json.ParseObjectText | advanced_logging/middleware.py:334 | `json.loads` of an object text gives the dictionary whose keys are the text's keys in first-occurrence order, each with the value written last for it |
| Json.UpdateValuesWellFormed | advanced_logging/core/formatters.py:103 | `update` with well-formed values keeps a well-formed dictionary |
| Records.PadField | advanced_logging/core/formatters.py:88 | a zero-padded field has exactly its width and reads back as the number |
| Records.IsoFormat | advanced_logging/core/formatters.py:88 | `isoformat` is 19 characters, or 26 with non-zero microseconds: the date, the separator, the time, then a dot and six digits reading back as the microseconds |
| Records.AscTime | advanced_logging/core/logger.py:230-235 | `%(asctime)s` with `datefmt='%Y-%m-%d %H:%M:%S'` is the 19 characters of date, space and time |
| Records.DatePartFields | advanced_logging/core/formatters.py:88 | the date columns read back as year, month and day |
| Records.TimePartFields | advanced_logging/core/formatters.py:88 | the time columns read back as hour, minute and second |
| Records.IsoFormatHasT | advanced_logging/core/formatters.py:88 | the default `isoformat()` contains `T` |
| Filters.EnvironmentFilter.constructor | advanced_logging/core/filters.py:36 | the filter keeps the label it is given |
| Filters.EnvironmentFilter.Filter | advanced_logging/core/filters.py:38-49 | every record passes and carries the configured environment |
| Filters.SensitiveDataFilter.constructor | advanced_logging/core/filters.py:83-92 | the patterns are the defaults followed by the extra ones; none or an empty list leaves the defaults |
| Filters.SensitiveDataFilter.MaskSensitiveData | advanced_logging/core/filters.py:114-129 | the loop applies every key's substitution in list order |
| Filters.SensitiveDataFilter.Filter | advanced_logging/core/filters.py:94-112 | every record passes; the message is masked when it is non-empty and some pattern occurs in its lower-cased text, and is left exactly as it was otherwise |
| Filters.AfterGroup | advanced_logging/core/filters.py:126 | a match of the expression leaves a non-empty value starting with a value character |
| Filters.PairGroup | advanced_logging/core/filters.py:126-127 | the expression matches `key`, optional quote, spaces, `:` or `=`, spaces and optional quote in any letter case, and the value follows |
| Filters.MaskPair | advanced_logging/core/filters.py:124-127 | a match keeps the key and separator, replaces the longest run of value characters with `***MASKED***`, and masking continues after it |
| Filters.KeyAt | advanced_logging/core/filters.py:126-127 | the expression's key matches at the start exactly when the lower-cased text starts with the lower-cased key |
| Filters.Masked | advanced_logging/core/filters.py:126-127 | one `re.sub`: a text in which the key does not occur, ASCII case aside, comes back unchanged |
| Filters.MaskAll | advanced_logging/core/filters.py:124-129 | the whole loop: keys none of which occurs, ASCII case aside, leave the text unchanged |
| Filters.MaskAllSkip | advanced_logging/core/filters.py:124-129 | keys at the front of the list that leave the text as it is are passed over |
| Filters.PlainPair | advanced_logging/core/filters.py:126-127 | `key=value` with nothing around it becomes `key=***MASKED***` |
| Filters.MaskAllPair | advanced_logging/core/filters.py:124-129 | a `key=value` pair of the `j`-th key becomes `key=***MASKED***` when every earlier key leaves it as it is and no later key occurs in the result |
| Filters.KeyInsideWord | advanced_logging/core/filters.py:126-127 | a key that begins a longer word and is followed there by a letter of the value group does not match at the start of that word's pair |
| Filters.MaskedPrefix | advanced_logging/core/filters.py:126-127 | a prefix where no match can start is kept and the rest is masked on its own |
| Filters.MaskedAfterSpace | advanced_logging/core/filters.py:126-127 | words before a space in which the key does not occur are kept; a key without a space cannot match across it |
| Filters.MaskAllAfterSpace | advanced_logging/core/filters.py:124-129 | the same for the whole list of keys |
| Filters.AfterGroupSound | advanced_logging/core/filters.py:126 | when the expression matches, the text is the key, a separator the expression accepts, and the value |
| Filters.SeparatorSound | advanced_logging/core/filters.py:126 | what the expression skips between key and value is an optional quote, spaces, `:` or `=`, spaces and an optional quote |
| Filters.MaskAllEmpty | advanced_logging/core/filters.py:124-129 | the empty text stays empty |
| Filters.SkipIsHarmless | advanced_logging/core/filters.py:104-110 | under ASCII case folding and with lower-case patterns: whenever the pre-check skips masking, masking would have changed nothing |
| Filters.Triggers | advanced_logging/core/filters.py:104-110 | the pre-check passes only for a non-empty message in whose lower-cased text some pattern occurs, and that pattern has no upper-case letter |
| Filters.OccursInLower | advanced_logging/core/filters.py:105-108 | a pattern found in a lower-cased text has no upper-case letter |
| MaskingExamples.LoginMessageMasked | tests/test_filters.py:79-96 | the filter with the default keys turns `User login with password=secret123` into `User login with password=***MASKED***` |
| MaskingExamples.ApiTokenMasked | tests/test_filters.py:98-115 | `API call with token=abc123xyz` becomes `API call with token=***MASKED***` |
| MaskingExamples.TokenPairMasked | advanced_logging/core/filters.py:124-129 | `token=abc123xyz` on its own is masked by `token` alone |
| MaskingExamples.TwoSecretsMasked | advanced_logging/core/filters.py:124-129 | `password=secret and token=abc123` has both values masked, each by its own key |
| MaskingExamples.LoginPairsMasked | tests/test_filters.py:217-235 | `Login with password=secret and token=abc123` becomes `Login with password=***MASKED*** and token=***MASKED***`, so `secret` is left only inside `password` |
| MaskingExamples.DefaultKeyPair | advanced_logging/core/filters.py:124-129 | for each of the thirteen default keys, `key=value` becomes `key=***MASKED***`, whatever the value made of value characters in which no key occurs |
| MaskingExamples.AuthorizationPair | advanced_logging/core/filters.py:124-129 | `authorization=value` is masked although `auth`, tried first, is found at its start |
| MaskingExamples.OtherKeyPair | advanced_logging/core/filters.py:124-129 | the same for every other default key, none of which occurs in another |
| MaskingExamples.KeysApart | advanced_logging/core/filters.py:67-81 | no default key occurs, case aside, in another one, except `auth` in `authorization` |
| MaskingExamples.KeyNotInMask | advanced_logging/core/filters.py:67-81 | no default key occurs in `***MASKED***` |
| MaskingExamples.DefaultsAfterSpace | advanced_logging/core/filters.py:67-81 | words in which no default key occurs, put before a space, are kept in front of the masked rest |
| Formatters.Render | advanced_logging/core/logger.py:229-244 | a `%(attr)s` template renders exactly when every attribute it names is present |
| Formatters.BaseFormat | advanced_logging/core/formatters.py:59 | `logging.Formatter.format` succeeds exactly when the template renders; its text starts with the rendering, is the rendering when there is no exception or its traceback is empty, and otherwise ends with the traceback after at most one added newline |
| Formatters.FormatStartsWithLevel | advanced_logging/core/formatters.py:59 | a formatted record whose template opens with the level name opens with that name |
| Formatters.ColorCodesDistinct | advanced_logging/core/formatters.py:32-38 | the five level colours are pairwise different |
| Formatters.LevelsFormatDifferently | advanced_logging/core/formatters.py:51-62 | two different levels give two different coloured outputs |
| Formatters.ColoredFormatter.constructor | advanced_logging/core/logger.py:233-236 | the formatter keeps its template |
| Formatters.ColoredFormatter.Format | advanced_logging/core/formatters.py:41-62 | the output is the standard format with the level name wrapped in its colour and the reset code (unchanged for a name without a colour); after a successful call the record's level name is what it was before |
| Formatters.FixedGet | advanced_logging/core/formatters.py:87-95 | the seven fixed keys hold the clock reading, level, logger, message, module, function and line |
| Formatters.FixedKeysOf | advanced_logging/core/formatters.py:87-95 | the fixed map has exactly the seven distinct keys, in order |
| Formatters.LogDataGet | advanced_logging/core/formatters.py:87-107 | `environment` wins over everything, an extra field over the exception and the fixed fields, and `exception` is present when the record has one |
| Formatters.LogDataKeys | advanced_logging/core/formatters.py:87-107 | the keys are the seven fixed ones, `exception` when the record has one, every extra field, and `environment` when set |
| Formatters.LogData | advanced_logging/core/formatters.py:87-107 | the seven fixed keys open the dictionary in their order, whatever the extra fields overwrite |
| Formatters.JsonFormat | advanced_logging/core/formatters.py:77-109 | the JSON line reads back with `json.loads` as the field dictionary whenever the extra fields are a dictionary |
| Formatters.LogDataWellFormed | advanced_logging/core/formatters.py:87-107 | the field dictionary has distinct keys and well-formed values |
| Formatters.TimestampIsIso | advanced_logging/core/formatters.py:88 | unless an extra field replaces it, `timestamp` is the ISO 8601 text of the clock reading, with `T` |
| Handlers.DefaultPgConfig | advanced_logging/core/handlers.py:45-54 | the default host, port 5432, database, user, password, table, schema, SSL mode, buffer 1000 and batch 10 |
| Handlers.Settings | advanced_logging/core/handlers.py:65-72 | six settings, named `host`, `port`, `dbname`, `user`, `password`, `sslmode` in that order, each as `name=` |
| Handlers.ConnectionString | advanced_logging/core/handlers.py:57-72 | the string starts with `host=` and the host, followed by a space; when no value holds a space, it splits back into the six settings in order |
| Handlers.IntTextHasNoSpace | advanced_logging/core/handlers.py:67 | a port's text holds no space |
| Handlers.PrepareRecord | advanced_logging/core/handlers.py:262-305 | every one of the 14 columns: time, level, logger, formatted message, module, function, line, thread id and name, process id and host from the record; the traceback (formatted with a formatter, `repr` without) exactly when the record has an exception; extra data exactly when the extra fields are present and non-empty; the environment, `unknown` when none was set |
| Handlers.ExtraDataRoundTrip | advanced_logging/core/handlers.py:283-302 | the extra data text reads back as the record's extra fields, in order |
| Handlers.Last | advanced_logging/core/handlers.py:307-317 | keeps `min(n, len)` elements |
| Handlers.Enqueue | advanced_logging/core/handlers.py:307-317 | the record is last; an unbounded buffer appends it, and a buffer within capacity keeps the last `capacity` of the old contents and the record |
| Handlers.EnqueueAll | advanced_logging/core/handlers.py:307-317 | a bounded buffer never exceeds its capacity, and an unbounded one keeps every record |
| Handlers.LastTwice | advanced_logging/core/handlers.py:307-317 | trimming to the last `n` before appending loses nothing the final trim keeps |
| Handlers.EnqueueAllKeepsLast | advanced_logging/core/handlers.py:307-317 | after any sequence of emits, a bounded buffer holds the last `capacity` records in emission order |
| Handlers.EnqueueAllUnbounded | advanced_logging/core/handlers.py:133 | an unbounded buffer keeps every record |
| Handlers.WriteOutcome | advanced_logging/core/handlers.py:224-260 | an empty batch changes nothing; otherwise written plus failed grows by the batch size, a success (after any reconnect) counts it written and leaves the handler connected, and a failure counts it failed and disconnects |
| Handlers.PostgreSQLHandler.constructor | advanced_logging/core/handlers.py:123-178 | empty buffer and batch, zero counters; connected and running exactly when the first connection succeeds; the invariant holds |
| Handlers.PostgreSQLHandler.Emit | advanced_logging/core/handlers.py:307-317 | the record goes in at the back, a full buffer drops its oldest, and the invariant (capacity, no record lost or counted twice) is kept |
| Handlers.PostgreSQLHandler.WriteBatch | advanced_logging/core/handlers.py:224-260 | the flag and counters change as `WriteOutcome` says |
| Handlers.PostgreSQLHandler.WriterStep | advanced_logging/core/handlers.py:202-222 | while running, at most one record is pulled, and the batch is written and reset only once it reaches the batch size, so a timeout never writes a partial batch; once stopped, the leftover batch is written once and the thread ends |
| Handlers.PostgreSQLHandler.Close | advanced_logging/core/handlers.py:326-339 | the loop stops, a running writer writes its partial batch once, and buffered records stay unwritten |
| Handlers.PostgreSQLHandler.GetStatistics | advanced_logging/core/handlers.py:341-353 | reports the counters, buffer length and connection flag, and changes nothing |
| Handlers.UnreachableDatabase | advanced_logging/core/handlers.py:168-178 | with the first connection failing, a capacity of 2 and three emits: 0 written, 0 failed, 2 queued, even after `close()` |
| Logging.FromString | advanced_logging/core/logger.py:43-54 | the five level names in any case give 10 to 50, and anything else gives INFO |
| Logging.FromStringIgnoresCase | advanced_logging/core/logger.py:54 | the level does not depend on the case of the text |
| Logging.FromStringNames | advanced_logging/core/logger.py:37-54 | each level name, upper or lower case, gives its value |
| Logging.DefaultConfig | advanced_logging/core/logger.py:97-108 | the dataclass defaults |
| Logging.PostInit | advanced_logging/core/logger.py:110-114 | a level given by name becomes `from_string` of it, and nothing else changes |
| Logging.ConsoleFormatter | advanced_logging/core/logger.py:216-247 | coloured exactly in development without JSON, JSON exactly when asked for, plain otherwise, each with its template |
| Logging.FileFormatter | advanced_logging/core/logger.py:275-283 | JSON exactly when asked for, never coloured, otherwise the file template |
| Logging.ColoredTemplateRenders | advanced_logging/core/logger.py:229-232 | the coloured template renders for every record |
| Logging.ConsoleTemplateNeedsEnvironment | advanced_logging/core/logger.py:240-243 | the plain console template renders exactly when the record was tagged with an environment |
| Logging.FileTemplateNeedsEnvironment | advanced_logging/core/logger.py:278-282 | the same for the file template |
| Logging.SetupConfig | advanced_logging/core/logger.py:256-257 | building the file handler sets the directory to `logs` only when none was given |
| Logging.RootHandlers | advanced_logging/core/logger.py:194-205 | the console handler at the configured level with `ConsoleFormatter`, then the file handler with the directory (`logs` when none), `<name>.log`, rotation, size limit, backup count, level and `FileFormatter`, then the extra handlers in order, each only when configured |
| Logging.AttachedFilters | advanced_logging/core/logger.py:207-211 | the masker is attached exactly when masking is on, and the environment tagger always, last |
| Logging.LoggerObj.constructor | advanced_logging/core/logger.py:190 | a new logger has level 0, no handlers, no filters, and propagates |
| Logging.LoggingTree.GetLogger | advanced_logging/core/logger.py:306 | `logging.getLogger` returns the same object for the same name, and a fresh one for a new name |
| Logging.ChildName | advanced_logging/core/logger.py:303 | `name.child` for a non-empty child, otherwise the manager's own name |
| Logging.ChildNamesDistinct | advanced_logging/core/logger.py:303 | different children get different names, none of them the manager's |
| Logging.LoggerManager.constructor | advanced_logging/core/logger.py:167-214 | the logger named by the configuration gets its level, exactly the configured handlers, the new filters after its old ones, and no propagation |
| Logging.LoggerManager.GetLogger | advanced_logging/core/logger.py:288-309 | returns the cached logger for the full name, or caches the process-wide one; repeated calls return the same object |
| Logging.KeysCollide | advanced_logging/core/logger.py:159 | `("a_b", "c")` and `("a", "b_c")` share a key |
| Logging.KeyInjective | advanced_logging/core/logger.py:159 | the key determines name and environment when the names hold no underscore |
| Logging.ManagerRegistry.constructor | advanced_logging/core/logger.py:147 | the registry starts empty |
| Logging.ManagerRegistry.Create | advanced_logging/core/logger.py:149-181 | a registered key returns its instance, which keeps its first configuration and touches nothing; a new key registers and sets up a fresh instance |
| Logging.ManagerRegistry.ResetInstances | advanced_logging/core/logger.py:437-442 | the registry is emptied |
| Logging.CollidingKeysShareManager | advanced_logging/core/logger.py:159-165 | two colliding configurations get one manager, which keeps the first environment |
| Logging.SharedNameStacksFilters | advanced_logging/core/logger.py:190-211 | two managers of one name in two environments stack their filters on one logger, the later tagger last |
| Utils.Getenv | advanced_logging/utils.py:113 | `os.getenv(key, default)` |
| Utils.EnvInt | advanced_logging/utils.py:128 | the variable read by `int()`, or the default when unset |
| Utils.EnvIntReads | advanced_logging/utils.py:128 | reading the default's text with `int()` agrees with `EnvInt` |
| Utils.FlagIgnoresCase | advanced_logging/utils.py:117-119 | `true` in any case turns a flag on |
| Utils.EnvConfig | advanced_logging/utils.py:105-120 | name, level, environment, directory and the three flags from their variables, with the stated defaults, and everything else as `LogConfig`'s defaults |
| Utils.EmptyEnvConfig | advanced_logging/utils.py:112-120 | with no variables: `app`, INFO, development, console on, file and JSON off |
| Utils.EnvPgConfig | advanced_logging/utils.py:126-136 | the database settings from their variables; an error exactly when `LOG_DB_PORT` is not an integer |
| Utils.EnvPortDefault | advanced_logging/utils.py:128 | without `LOG_DB_PORT` the port is 5432 |
| Utils.KwargsConfig | advanced_logging/utils.py:50-60 | each of the twelve fields from its keyword when passed, `LogConfig`'s default otherwise; a level given by name is converted by `from_string`, a numeric one kept, and no level gives INFO |
| Utils.KwargsSink | advanced_logging/utils.py:53-67 | a sink is added exactly when `postgres_enabled` is true and `postgres_config` is passed and not a false value, with exactly those settings |
| Utils.LoggingState.constructor | advanced_logging/utils.py:19 | no manager is stored |
| Utils.LoggingState.Install | advanced_logging/utils.py:62-73 | the manager for the configuration's key is stored; a new one has the sink appended at the configuration's level when one is asked for |
| Utils.LoggingState.InitializeFromEnv | advanced_logging/utils.py:76-142 | fails exactly when the database is asked for with a malformed port, changing nothing; otherwise stores the key's manager, built from the environment |
| Utils.LoggingState.InitializeLogging | advanced_logging/utils.py:22-73 | a configuration is used as given; keywords build one, with a sink only when enabled and configured; with neither, it delegates to the environment; on success the manager returned is the one registered under the settings' key |
| Utils.LoggingState.EnsureManager | advanced_logging/utils.py:169-170 | a stored manager is kept and nothing changes; otherwise it fails exactly when `EnvFails(env)`, and on success stores the registered manager for the key of `EnvConfig(env)`, a fresh one built from that configuration and `EnvSink(env)` when the key was new |
| Utils.LoggingState.GetLogger | advanced_logging/utils.py:145-172 | fails exactly when no manager is stored and `EnvFails(env)`; otherwise the stored manager, or the one for the key of `EnvConfig(env)`, returns its cached logger named `ChildName(name)` |
| Utils.LoggingState.StoredLogger | advanced_logging/utils.py:172 | the stored manager's logger for the name |
| Utils.LoggingState.GetLoggerManager | advanced_logging/utils.py:175-187 | the stored manager, or none, with nothing changed |
| Utils.LoggingState.ResetLogging | advanced_logging/utils.py:190-201 | no manager is stored and the registry is empty |
| Middleware.ClientIp | advanced_logging/middleware.py:124-132 | a non-empty forwarded header gives its first comma-separated hop, stripped, with no comma and no outer whitespace; otherwise `REMOTE_ADDR`, otherwise the empty text |
| Middleware.ClientIpFirstHop | advanced_logging/middleware.py:357-365 | a proxy chain gives the client, whatever `REMOTE_ADDR` says |
| Middleware.IsIntegrationEndpoint | advanced_logging/middleware.py:228-230 | true exactly when the path starts with some monitored prefix |
| Middleware.IntegrationType | advanced_logging/middleware.py:232-237 | the type of the first matching prefix in table order, `unknown` when none matches |
| Middleware.GetIntegrationType | advanced_logging/middleware.py:232-237 | the early-return loop computes `IntegrationType` |
| Middleware.DefaultTypeErp | advanced_logging/middleware.py:178-189 | paths under `/api/erp/` are `erp` |
| Middleware.DefaultTypeWebhook | advanced_logging/middleware.py:178-189 | paths under `/webhook/` are `webhook` |
| Middleware.DefaultTypePayment | advanced_logging/middleware.py:178-189 | paths under `/api/payment/` are `payment_processor` |
| Middleware.DefaultTypeShipping | advanced_logging/middleware.py:178-189 | paths under `/api/shipping/` are `shipping_provider` |
| Middleware.DefaultIntegrationsUnknown | advanced_logging/middleware.py:163-189 | paths under `/api/integrations/` are monitored but typed `unknown` |
| Middleware.DefaultNotMonitored | advanced_logging/middleware.py:163-175 | paths under `/app/` are not monitored |
| Middleware.GetLogLevel | advanced_logging/middleware.py:348-355 | `info` exactly below 400, `warning` exactly for 400-499, `error` exactly from 500 |
| Middleware.ResponseLevel | advanced_logging/middleware.py:83 | `info` exactly below 400, `warning` exactly from 400 |
| Middleware.LevelsOfStatus | advanced_logging/middleware.py:83 | both name logging levels; the two agree below 500, and the general middleware logs server errors as warnings |
| Middleware.LevelMonotone | advanced_logging/middleware.py:348-355 | the integration level never decreases as the status grows |
| Middleware.KeyOf | advanced_logging/middleware.py:319 | `HTTP_<NAME>` is logged under the lower-cased name |
| Middleware.RelevantKeys | advanced_logging/middleware.py:306-321 | the five headers are logged as `x_webhook_id`, `x_request_id`, `x_correlation_id`, `authorization` and `x_api_key` |
| Middleware.FiveKeysDistinct | advanced_logging/middleware.py:314-321 | five headers under five different keys do not collide |
| Middleware.RelevantKeysDistinct | advanced_logging/middleware.py:306-321 | no header overwrites another |
| Middleware.SensitiveHeaders | advanced_logging/middleware.py:318 | only the authorization and API-key headers are masked |
| Middleware.RequestInfo | advanced_logging/middleware.py:314-321 | the keys are exactly those of the present, non-empty headers |
| Middleware.RequestInfoShape | advanced_logging/middleware.py:314-321 | with distinct header keys, no key is logged twice |
| Middleware.RequestInfoEntries | advanced_logging/middleware.py:314-321 | each header's entry is its value, masked for a credential, or absent when the header is absent or empty |
| Middleware.ExtractRequestInfo | advanced_logging/middleware.py:301-323 | the loop builds the map: tracing identifiers copied, credentials as `***`, absent or empty headers left out, nothing else |
| Middleware.RelevantInfoKeys | advanced_logging/middleware.py:301-323 | the map's keys are distinct and among the five |
| Middleware.RelevantInfoValues | advanced_logging/middleware.py:301-323 | each of the five keys holds the copied or masked value |
| Middleware.FirstPresent | advanced_logging/middleware.py:336-339 | the value of the first key present, and absent exactly when none is |
| Middleware.ExtractErrorContext | advanced_logging/middleware.py:325-346 | no or empty body gives `{}`; a body `Json.Parse` rejects gives its first 200 characters; a JSON object gives `error`, else `message`, else `detail`, else `''`, and `code` else `''`; other JSON gives `{}` |
| Middleware.ErrorContextOfDump | advanced_logging/middleware.py:334-340 | a body written by `json.dumps` of a dictionary reports that dictionary's message and code |
| Middleware.ErrorAndCode | advanced_logging/middleware.py:336-340 | `{"error": e, "code": c}` reports `e` and `c` |
| Middleware.Request.constructor | advanced_logging/middleware.py:52-54 | a request starts without start time or integration attributes |
| Middleware.LogRequest | advanced_logging/middleware.py:52-71 | stamps the start time and logs at `info` with method, path, user, client address, user agent and content type |
| Middleware.ResponseFieldsContent | advanced_logging/middleware.py:90-97 | the response fields hold method, path, status code and user, once each |
| Middleware.LogResponse | advanced_logging/middleware.py:73-101 | the response comes back unchanged; only a stamped request is logged, at `ResponseLevel` |
| Middleware.IntegrationMiddleware.constructor | advanced_logging/middleware.py:191-195 | both caches start empty |
| Middleware.IntegrationMiddleware.MonitoredPaths | advanced_logging/middleware.py:204-214 | the setting or the default, read once and kept |
| Middleware.IntegrationMiddleware.IntegrationTypes | advanced_logging/middleware.py:216-226 | the setting or the default, read once and kept |
| Middleware.IntegrationMiddleware.ProcessRequest | advanced_logging/middleware.py:239-264 | a non-integration path is left alone and not logged; otherwise the request is stamped with time and type and logged with the headers merged into its fields |
| Middleware.IntegrationMiddleware.ProcessResponse | advanced_logging/middleware.py:266-299 | the response comes back unchanged; an unstamped request is not logged; otherwise it is logged at `GetLogLevel` with the error context merged for status 400 and above |
| Middleware.RequestEventBase | advanced_logging/middleware.py:254-260 | the header keys never hide `integration_type` or `ip` |
| Middleware.RequestEventHeaders | advanced_logging/middleware.py:254-260 | the merged fields carry the request identifier as it is and the API key masked |
| Middleware.ResponseEventStatus | advanced_logging/middleware.py:279-295 | the status code is never hidden, and a success carries no error fields |
| Middleware.ResponseEventError | advanced_logging/middleware.py:279-295 | a failed response with a JSON object body is logged with that object's message and code |
| Apps.DefaultSettings | advanced_logging/apps.py:69-89 | name, level, environment, console, file, JSON and database flag from their variables, the defaults following `DEBUG` |
| Apps.DefaultsFollowDebug | advanced_logging/apps.py:69-89 | with no variables set: `django_app`, DEBUG, development and text when `DEBUG`; INFO, production and JSON otherwise; no database |
| Apps.DjangoPgConfig | advanced_logging/apps.py:91-118 | nothing unless the engine names PostgreSQL or PostGIS; otherwise each field from the database, then its variable, then a default, schema `public`, and an error exactly when the port, buffer or batch size is not an integer |
| Apps.OtherEngineDerivesNothing | advanced_logging/apps.py:103-105 | an engine without `p` (SQLite, MySQL, Oracle) derives nothing |
| Apps.PostgresEngine | advanced_logging/apps.py:104 | any engine path containing `postgresql` counts |
| Apps.DjangoSizesDefault | advanced_logging/apps.py:109-116 | without the size variables: buffer 1000, batch 10, and the port read as `initialize_from_env` reads it |
| Apps.DjangoAgreesWithEnv | advanced_logging/apps.py:107-116 | for a database entry naming only its engine, the derivation equals the environment's settings, error included |
| Apps.DjangoSinkWritesModelTable | advanced_logging/apps.py:113 | the derived sink writes to the model's table |
| Apps.DefaultSinkMissesModelTable | advanced_logging/core/handlers.py:50 | the handler's default table is not the model's |
| Apps.Resolved | advanced_logging/apps.py:41-44 | keywords with the database disabled or with settings given pass unchanged; otherwise a derivation error escapes, and a successful derivation changes at most `postgres_config` |
| Apps.ResolvedAttachesDjangoDatabase | advanced_logging/apps.py:40-44 | enabled, not given and derived: the sink gets exactly the derived settings |
| Apps.ResolvedKeepsExplicit | advanced_logging/apps.py:41 | disabled or given settings pass through unchanged |
| Apps.StartupRecord | advanced_logging/apps.py:55-64 | the message, with environment (`unknown` when absent), `DEBUG` and the database flag, each once |
| Apps.AppSettings | advanced_logging/apps.py:34-38 | the setting when defined, otherwise the default |
| Apps.Start | advanced_logging/apps.py:49-67 | a setup error is reported and the stored manager kept; otherwise the stored manager is the one for the settings' key and the application's logger is its child `advanced_logging` |
| Apps.Launch | advanced_logging/apps.py:52-67 | once setup succeeded, the application's logger is the child `advanced_logging` of the manager stored for the settings' key, and the startup record is built |
| Apps.Setup | advanced_logging/apps.py:33-67 | a derivation error escapes with nothing changed; otherwise what `Start` leaves |
| Apps.AppConfig.constructor | advanced_logging/apps.py:15-20 | not yet initialized |
| Apps.AppConfig.Ready | advanced_logging/apps.py:22-67 | a second call returns at once with nothing changed; the first marks the instance and runs `Setup` |
| Models.ChoicesAreLevelNames | advanced_logging/models.py:36-42 | the five choices are the level names, in severity order |
| Models.IsError | advanced_logging/models.py:163-166 | exactly ERROR or CRITICAL |
| Models.IsErrorAtSeverity | advanced_logging/models.py:163-166 | for a valid level, `is_error` holds exactly at severity ERROR and above |
| Models.HasException | advanced_logging/models.py:168-171 | exactly a non-null, non-empty traceback |
| Models.ToString | advanced_logging/models.py:160-161 | the text is `[`, the level, `] `, the timestamp as `str()` writes it, ` - ` and the first 50 characters of the message; so it starts with `[level] ` and ends with those characters |
| Models.ToStringIgnoresTail | advanced_logging/models.py:161 | nothing after the first 50 characters changes the text |
| Models.ToStringShowsShortMessage | advanced_logging/models.py:161 | a message of at most 50 characters is shown whole |
| Models.ToStringLevel | advanced_logging/models.py:161 | the level reads back from between the brackets |
| Models.SinkInsertRejected | advanced_logging/core/handlers.py:234-241 | the sink's `INSERT` names 14 columns and not `created_at`, which the model's table requires (models.py:143-147), so the table refuses it |
| Models.ModelTableBatchFails | advanced_logging/core/handlers.py:233-260 | as written, every non-empty batch written to the model's table fails: the handler disconnects and counts the batch as failed |
| Models.CorrectedInsertAccepted | advanced_logging/models.py:143-147 | the intended insert, the sink's columns followed by `created_at`, is accepted, and a batch over a live connection is counted as written |
| Models.FromRow | advanced_logging/models.py:44-147 | every one of the 15 fields of the intended insert: the 14 columns the sink names, each in its field (nullable ones present), the extra data text stored as `jsonb` (its parse with object keys reordered, or null when it does not parse), and `created_at` as the insertion time given |
| Models.StoredRecord | advanced_logging/models.py:44-171 | a stored record reads back with its time, level, logger, formatted message, host and environment (`unknown` when unset); `has_exception` holds exactly when it had a non-empty traceback, and `is_error` exactly at ERROR or CRITICAL |
| Models.StoredExtraFields | advanced_logging/models.py:120-125 | the extra data is null exactly when there were no extra fields; otherwise it reads back as an object with the same keys, each holding the `jsonb` form of its value |
| Models.JsonbObject | advanced_logging/models.py:119-125 | a `jsonb` object keeps exactly the keys it was given, once each and sorted shorter first then bytewise, each holding the `jsonb` form of its value |
| Models.JsonbReorders | advanced_logging/models.py:119-125 | `{"user_id": 1, "ip": "x"}` is stored as `{"ip": "x", "user_id": 1}`: the order of the extra fields is not kept |
| Models.StandardLevelStored | advanced_logging/models.py:50-56 | a record at a standard level is stored with a level the column accepts |

## Left out

- Threads. The writer is a daemon thread that runs alongside `emit`. `WriterStep` is one loop iteration, called in sequence. `Close` stops the loop and runs the final write directly, with no `join(timeout=10)` and no races between producers and the writer.
- The database driver. Probing for `psycopg`, `connect`, `executemany`, `commit`, `rollback` and closing the connection are the `connectOk` and `insertOk` oracles. A missing driver ends like a failed first connection: the writer is not started.
- `PostgreSQLHandler.flush`, which blocks forever in `queue.join()` because `task_done()` is never called.
- The `flush_interval` pull timeout is not a duration: an empty buffer at a pull stands for it. The `except` in the writer loop only prints.
- `PostgreSQLConfig.from_django_settings` (handlers.py:74-97): no modelled operation calls it.
- Handlers.PrepareRecord: the time is a `DateTime` value rather than `datetime.fromtimestamp`. The host name and the formatted message are parameters.
- `logging` internals, as opaque:
  - `%`-interpolation of record arguments: records carry none, so `getMessage()` is `msg`;
  - a handler's own level;
  - calling a logger's filters only for records logged on that logger.
  - the root logger's names: `logging.getLogger("")` and `logging.getLogger("root")` both return the root logger, whose records are named `root`. `Logging.LoggingTree.GetLogger` gives every name its own logger, so with `LOG_NAME=""` records are named `""` here.
  - Events the middlewares and `ready()` log are returned, not written.
- The regular-expression engine. Patterns are literal keys; an extra pattern holding regular-expression syntax is not interpreted.
- Text.Lower: folds ASCII letters only. Python's `str.lower()` also folds other letters: `'Σ'` becomes `'σ'`, the Kelvin sign `'\u212a'` becomes `'k'`, and `'\u0130'` becomes two characters. The model leaves every non-ASCII character as it is.
- Text.Upper: ASCII letters only. Python upper-cases the dotless `'ı'` to `'I'` and the long `'ſ'` to `'S'`, and `'ß'` to the two characters `'SS'`; the model keeps them as they are.
- Logging.FromString: with ASCII-only `upper()`, `"crıtıcal"` (dotless i) gives INFO here, while the source gives CRITICAL.
- Filters.KeyAt: compares under ASCII case folding. `re.IGNORECASE` on a `str` pattern folds Unicode case, so the source's `token` key also matches `to\u212aen` (Kelvin sign) and its `secret` key matches `ſecret`; the model does not.
- Filters.Triggers: the pre-check lower-cases ASCII only, so a message whose only key is written with the Kelvin sign or `ſ` does not pass it here, while it does in the source.
- Filters.SensitiveDataFilter.Filter: `record.msg` is text. The source also accepts a message of another type: it reads it through `str(record.msg)` and, after masking, replaces it with the masked string (advanced_logging/core/filters.py:103-109). A non-text message is not modelled.
- Filters.Masked: no match through non-ASCII case folding: `paſſword=x` and `to\u212aen=abc` stay as they are here, while the source's `re.sub` masks them.
- Filters.MaskAll: the same restriction, for every key of the list.
- MaskingExamples.DefaultKeyPair: covers only values in which no default key occurs, case aside; a value such as `mytoken1` or `x=secret` is not covered, because an earlier key of the list may then be found inside the pair.
- Filters.SkipIsHarmless: holds under the model's ASCII case folding only. It is false of the source for `"credentıal=x"` or `"paſſword=x"`: `lower()` keeps `ı` and `ſ`, so the pre-check skips the message, while `re.IGNORECASE` matches `ı` for `i` and `ſ` for `s` and would mask it.
- Text.ParseInt: reads ASCII digits with an optional sign between whitespace (the Unicode class `str.strip()` uses). Python's `int()` also accepts underscores between digits (`"5_432"`) and non-ASCII decimal digits; the model rejects those texts.
- Utils.EnvPgConfig: for that reason a `LOG_DB_PORT` of `"5_432"` is an error here, while the source reads port 5432. `Apps.DjangoPgConfig` reads `PORT`, `LOG_BUFFER_SIZE` and `LOG_BATCH_SIZE` the same way.
- Utils.KwargsConfig: a keyword passed explicitly as `None` (`name=None`, `level=None`, …) is not modelled. `LogConfig` would store the `None`; the model has each keyword either absent or a value. Only `postgres_config`'s false values (`None`, `{}`) are modelled, as `Falsy`.
- Utils.KwargsSink: `postgres_config` is a full set of settings. A partial dictionary, which `PostgreSQLConfig(**postgres_config)` completes with its defaults, and one with unknown keys, which raises `TypeError`, are not modelled.
- Json.Parse: JSON numbers are integers; a fraction or an exponent is not read. So `Middleware.ExtractErrorContext` treats a body such as `{"error": 1.5}` as non-JSON text and reports its first 200 characters as `error_message`, where the source reports `1.5`. Likewise the model rejects the escape of a lone surrogate (`"\ud800"`) and the constants `NaN`, `Infinity` and `-Infinity`, which `json.loads` accepts.
- Formatters.JsonFormat: `default=str` for non-JSON values, and floats, are not modelled. Values are JSON with integer numbers.
- Console and file streams: directory creation, rotating files and stdout are handler descriptions only.
- The lazy `logger` properties of both middlewares.
- Middleware.LogResponse: leaves out the ` - Duration: …s` suffix and the `duration_seconds` field. Both come from `time.time()` and floats.
- Middleware.IntegrationMiddleware.ProcessResponse: leaves out the duration text and field for the same reason.
- `LoggingMiddleware.process_exception`: it only logs an exception with its traceback.
- The decorators `log_function_call` and `log_execution`. They wrap arbitrary callables and time them.
- The `LoggerManager` methods `log_exception`, `add_handler`, `create_from_dict` and `create_from_env`. None of them is part of the modelled flow.
- Apps.DjangoPgConfig: does not model `flush_interval` or `float(LOG_FLUSH_INTERVAL)`. A malformed `LOG_FLUSH_INTERVAL`, which raises out of `ready()`, is not an error here.
- Apps.DjangoPgConfig: the database `PORT` setting is text. An integer `PORT`, which Django also allows, is not distinguished.
- Apps.DjangoPgConfig: the `int()` defaults are read through `EnvInt`, which `EnvIntReads` shows agrees with reading the default text.
- Apps.Setup: unknown keys in `ADVANCED_LOGGING` are not modelled. `LogConfig(**kwargs)` rejects them with a `TypeError`, but the keyword record holds only known fields.
- Apps.Resolved: returns a new value. The source assigns into the `ADVANCED_LOGGING` dictionary, and that mutation is visible to other holders of the dictionary.
- Apps.Start: the error printed to standard error is the `Reported` outcome. The only setup error modelled is the environment's malformed port; others, such as filesystem errors, are not.
- Models.FromRow: reads back the intended insert, whose `createdAt` is the insertion time. The sink's insert as written leaves `created_at` out, and the model's table gives it no default, so the insert is expected to fail (see "Findings"). The handler's `insertOk` oracle is not tied to the table it writes to.
- Models.ToString: a time-zone-aware timestamp would add its UTC offset; the model writes the naive form.
- `ApplicationLog`'s `Meta` ordering, indexes, verbose names and help texts, the admin, migrations, the management command and the package re-exports.
- Print-based error reporting elsewhere (the handler and writer `print`s).

## Findings

| source | as written | input that shows it | evidently intended | confidence | as-written member | corrected member |
|---|---|---|---|---|---|---|
| advanced_logging/core/handlers.py:234-241 | the `INSERT` names 14 columns and leaves out `created_at`, which models.py:143-147 declares not null with `auto_now_add`; Django fills that field in `save()` and gives the column no database default | any non-empty batch written to `advanced_logging_applicationlog`, the table the settings derived from Django choose (apps.py:113) | `created_at` set to the insertion time, either named in the `INSERT` or given a database default | not executed; it rests on the migration creating the column without a default | Models.ModelTableBatchFails | Models.CorrectedInsertAccepted |

=== FILE: apps.dfy ===
/** The Django application `advanced_logging`: when Django starts it,
    `ready()` sets up the package once, from the `ADVANCED_LOGGING`
    setting or from a default built out of `DEBUG` and the environment,
    attaching the project's own PostgreSQL database as the log sink when
    asked to. Django's settings are parameters: the setting as keyword
    arguments (absent when not defined), `DEBUG`, and the `default` entry
    of `DATABASES` as a map of strings (empty when there is none). */
module Apps {

  import opened Wrappers
  import opened Text
  import Json
  import opened Handlers
  import opened Logging
  import opened Utils
  import Models

  /** The name of the application, and of the logger the start-up message
      is written to. */
  const AppName: string := "advanced_logging"

  /** `_get_default_config()`: the logger `django_app`; DEBUG and
      development when `DEBUG` is on, INFO, production and JSON lines when
      it is off; console on, file and database off, each overridable by
      its variable. */
  function DefaultSettings(debug: bool, env: Env): (k: Kwargs)
    ensures k.name == Some(Getenv(env, "LOG_NAME", "django_app"))
    ensures k.level == Some(Named(Getenv(env, "LOG_LEVEL", if debug then "DEBUG" else "INFO")))
    ensures k.environment == Some(Getenv(env, "LOG_ENVIRONMENT", if debug then Development else Production))
    ensures k.consoleOutput == Some(Flag(env, "LOG_CONSOLE", "true"))
    ensures k.fileOutput == Some(Flag(env, "LOG_FILE", "false"))
    ensures k.jsonFormat == Some(Flag(env, "LOG_JSON", if debug then "false" else "true"))
    ensures k.postgresEnabled == Some(Flag(env, "POSTGRES_ENABLED", "false"))
    ensures k.logDir.None? && k.rotateLogs.None? && k.maxBytes.None? && k.backupCount.None?
    ensures k.maskSensitive.None? && k.extraHandlers.None? && k.postgresConfig.None?
    ensures !NoKwargs(k)
  {
    Kwargs(
      name := Some(Getenv(env, "LOG_NAME", "django_app")),
      level := Some(Named(Getenv(env, "LOG_LEVEL", if debug then "DEBUG" else "INFO"))),
      environment := Some(Getenv(env, "LOG_ENVIRONMENT", if debug then Development else Production)),
      logDir := None, consoleOutput := Some(Flag(env, "LOG_CONSOLE", "true")),
      fileOutput := Some(Flag(env, "LOG_FILE", "false")), rotateLogs := None, maxBytes := None,
      backupCount := None, jsonFormat := Some(Flag(env, "LOG_JSON", if debug then "false" else "true")),
      maskSensitive := None, extraHandlers := None, postgresConfig := None,
      postgresEnabled := Some(Flag(env, "POSTGRES_ENABLED", "false")))
  }

  /** The variables the default settings read. */
  predicate NoOverrides(env: Env) {
    "LOG_NAME" !in env && "LOG_LEVEL" !in env && "LOG_ENVIRONMENT" !in env && "LOG_CONSOLE" !in env
    && "LOG_FILE" !in env && "LOG_JSON" !in env && "POSTGRES_ENABLED" !in env
  }

  /** With none of its variables set, the default makes the logger
      `django_app` at DEBUG in development with plain text when `DEBUG` is
      on, and at INFO in production with JSON lines when it is off; console
      on, file off, no database. */
  lemma DefaultsFollowDebug(debug: bool, env: Env)
    requires NoOverrides(env)
    ensures var c := KwargsConfig(DefaultSettings(debug, env));
      c.name == "django_app" && c.level == Numeric(if debug then Debug else Info)
      && c.environment == (if debug then Development else Production)
      && c.jsonFormat == !debug && c.consoleOutput && !c.fileOutput
    ensures !WantsSink(DefaultSettings(debug, env))
  {
    var k := DefaultSettings(debug, env);
    assert Lower("true") == "true";
    assert Lower("false") != "true" by {
      assert Lower("false")[0] == 'f';
    }
    if debug {
      FromStringNames(0);
    } else {
      FromStringNames(1);
    }
  }

  /** The ENGINE of a PostgreSQL (or PostGIS) database. */
  predicate IsPostgres(engine: string) {
    Occurs("postgresql", engine) || Occurs("postgis", engine)
  }

  /** The port: the database's PORT when it is non-empty, else
      `LOG_DB_PORT`, else 5432, read by `int()`. */
  function DjangoPort(db: Env, env: Env): Option<int> {
    if "PORT" in db && db["PORT"] != [] then ParseInt(db["PORT"]) else EnvInt(env, "LOG_DB_PORT", 5432)
  }

  /** `_get_postgres_config_from_django()`: nothing for an engine that is
      not PostgreSQL; otherwise the database's own host, name, user and
      password (each falling back to its variable, then a default), a port,
      buffer and batch size read with `int()` — the error it raises when
      one is not a number — the table from `LOG_DB_TABLE`, and schema
      `public`. A `dict.get` with a default on the database entry is the
      same lookup as `Getenv`. */
  function DjangoPgConfig(db: Env, env: Env): (r: Result<Option<PgConfig>>)
    ensures !IsPostgres(Getenv(db, "ENGINE", "")) ==> r == Ok(None)
    ensures IsPostgres(Getenv(db, "ENGINE", "")) ==>
      (r.Err? <==> DjangoPort(db, env).None?
                   || EnvInt(env, "LOG_BUFFER_SIZE", 1000).None?
                   || EnvInt(env, "LOG_BATCH_SIZE", 10).None?)
    ensures r.Ok? && r.value.Some? ==>
      var c := r.value.value;
      IsPostgres(Getenv(db, "ENGINE", ""))
      && c.host == Getenv(db, "HOST", Getenv(env, "LOG_DB_HOST", "localhost"))
      && c.port == DjangoPort(db, env).value
      && c.database == Getenv(db, "NAME", Getenv(env, "LOG_DB_NAME", "django_db"))
      && c.user == Getenv(db, "USER", Getenv(env, "LOG_DB_USER", "postgres"))
      && c.password == Getenv(db, "PASSWORD", Getenv(env, "LOG_DB_PASSWORD", ""))
      && c.tableName == Getenv(env, "LOG_DB_TABLE", "advanced_logging_applicationlog")
      && c.schema == "public" && c.sslMode == DefaultPgConfig().sslMode
      && c.bufferSize == EnvInt(env, "LOG_BUFFER_SIZE", 1000).value
      && c.batchSize == EnvInt(env, "LOG_BATCH_SIZE", 10).value
  {
    if !IsPostgres(Getenv(db, "ENGINE", "")) then Ok(None)
    else
      var port := DjangoPort(db, env);
      var buffer := EnvInt(env, "LOG_BUFFER_SIZE", 1000);
      var batch := EnvInt(env, "LOG_BATCH_SIZE", 10);
      if port.None? || buffer.None? || batch.None? then Err("invalid literal for int() with base 10")
      else
        Ok(Some(DefaultPgConfig().(
          host := Getenv(db, "HOST", Getenv(env, "LOG_DB_HOST", "localhost")),
          port := port.value,
          database := Getenv(db, "NAME", Getenv(env, "LOG_DB_NAME", "django_db")),
          user := Getenv(db, "USER", Getenv(env, "LOG_DB_USER", "postgres")),
          password := Getenv(db, "PASSWORD", Getenv(env, "LOG_DB_PASSWORD", "")),
          tableName := Getenv(env, "LOG_DB_TABLE", "advanced_logging_applicationlog"),
          schema := "public",
          bufferSize := buffer.value,
          batchSize := batch.value)))
  }

  /** An engine whose name has no `p` — SQLite, MySQL, Oracle — is never
      taken for PostgreSQL. */
  lemma OtherEngineDerivesNothing(db: Env, env: Env)
    requires 'p' !in Getenv(db, "ENGINE", "")
    ensures DjangoPgConfig(db, env) == Ok(None)
  {
    MissingChar("postgresql", Getenv(db, "ENGINE", ""), 'p');
    MissingChar("postgis", Getenv(db, "ENGINE", ""), 'p');
  }

  /** Any engine path naming `postgresql` is taken for PostgreSQL. */
  lemma PostgresEngine(db: Env, pre: string, post: string)
    requires "ENGINE" in db && db["ENGINE"] == pre + "postgresql" + post
    ensures IsPostgres(Getenv(db, "ENGINE", ""))
  {
    OccursAfter(pre, "postgresql", post);
  }

  /** For a PostgreSQL database without a port, and no size variables,
      the derivation succeeds or fails exactly as `initialize_from_env`'s
      does on the port, buffering 1000 records and writing 10 at a time. */
  lemma DjangoSizesDefault(db: Env, env: Env)
    requires IsPostgres(Getenv(db, "ENGINE", ""))
    requires "PORT" !in db && "LOG_BUFFER_SIZE" !in env && "LOG_BATCH_SIZE" !in env
    ensures DjangoPgConfig(db, env).Err? <==> EnvPgConfig(env).Err?
    ensures DjangoPgConfig(db, env).Ok? ==>
      var c := DjangoPgConfig(db, env).value;
      c.Some? && c.value.bufferSize == 1000 && c.value.batchSize == 10
      && c.value.port == EnvPgConfig(env).value.port
  {
  }

  /** When the database entry names nothing but its engine and
      `LOG_DB_NAME` is set, the derivation gives the very settings
      `initialize_from_env` reads (its error included): only the default
      database name differs between the two. */
  lemma DjangoAgreesWithEnv(db: Env, env: Env)
    requires IsPostgres(Getenv(db, "ENGINE", ""))
    requires "HOST" !in db && "PORT" !in db && "NAME" !in db && "USER" !in db && "PASSWORD" !in db
    requires "LOG_DB_NAME" in env && "LOG_BUFFER_SIZE" !in env && "LOG_BATCH_SIZE" !in env
    ensures DjangoPgConfig(db, env) ==
      match EnvPgConfig(env)
      case Err(e) => Err(e)
      case Ok(c) => Ok(Some(c))
  {
  }

  /** Unless `LOG_DB_TABLE` says otherwise, the settings derived from
      Django write to the model's own table, which refuses the sink's
      insert as written (`Models.ModelTableBatchFails`). */
  lemma DjangoSinkWritesModelTable(db: Env, env: Env)
    requires "LOG_DB_TABLE" !in env
    requires DjangoPgConfig(db, env).Ok? && DjangoPgConfig(db, env).value.Some?
    ensures DjangoPgConfig(db, env).value.value.tableName == Models.Table
  {
  }

  /** The sink's own default table is not the model's: rows written with
      the default settings are not seen by the model. */
  lemma DefaultSinkMissesModelTable()
    ensures DefaultPgConfig().tableName != Models.Table
  {
    assert DefaultPgConfig().tableName[0] == 'a' && DefaultPgConfig().tableName[1] == 'p';
    assert Models.Table[1] == 'd';
  }

  /** The auto-configuration step of `ready()`: the database settings
      derived from Django are added when the database is asked for and none
      were given, and when the derivation finds a PostgreSQL database; an
      `int()` error in it escapes. */
  function Resolved(k: Kwargs, db: Env, env: Env): (r: Result<Kwargs>)
    ensures !k.postgresEnabled.GetOr(false) || PgGiven(k) ==> r == Ok(k)
    ensures r.Err? <==> k.postgresEnabled.GetOr(false) && !PgGiven(k) && DjangoPgConfig(db, env).Err?
    ensures r.Ok? ==> r.value.(postgresConfig := k.postgresConfig) == k
  {
    if k.postgresEnabled.GetOr(false) && !PgGiven(k) then
      match DjangoPgConfig(db, env)
      case Err(e) => Err(e)
      case Ok(None) => Ok(k)
      case Ok(Some(c)) => Ok(k.(postgresConfig := Some(Settings(c))))
    else Ok(k)
  }

  /** With the database asked for, none given and a PostgreSQL database
      configured in Django, `initialize_logging` attaches a sink for
      exactly the derived settings. */
  lemma ResolvedAttachesDjangoDatabase(k: Kwargs, db: Env, env: Env)
    requires k.postgresEnabled == Some(true) && !PgGiven(k)
    requires DjangoPgConfig(db, env).Ok? && DjangoPgConfig(db, env).value.Some?
    ensures Resolved(k, db, env).Ok?
    ensures var r := Resolved(k, db, env).value;
      WantsSink(r) && KwargsSink(r) == DjangoPgConfig(db, env).value
  {
    var d := DjangoPgConfig(db, env);
    assert Resolved(k, db, env) == Ok(k.(postgresConfig := Some(Settings(d.value.value))));
  }

  /** Settings that turn the database off, or that give their own
      database settings, are passed on as they are. */
  lemma ResolvedKeepsExplicit(k: Kwargs, db: Env, env: Env)
    requires k.postgresEnabled != Some(true) || PgGiven(k)
    ensures Resolved(k, db, env) == Ok(k)
  {
  }

  /** The message `ready()` logs once set up, with the fields it adds. */
  datatype Startup = Startup(message: string, fields: Json.Object)

  /** The start-up message: the configured environment (`unknown` when the
      settings give none), `DEBUG` and the database flag. */
  function StartupRecord(k: Kwargs, debug: bool): (s: Startup)
    ensures s.message == "Advanced Logging inicializado"
    ensures Json.DistinctKeys(s.fields) && Json.Keys(s.fields) == {"environment", "debug", "postgres_enabled"}
    ensures Json.Get(s.fields, "environment") == Some(Json.Str(k.environment.GetOr("unknown")))
    ensures Json.Get(s.fields, "debug") == Some(Json.Bool(debug))
    ensures Json.Get(s.fields, "postgres_enabled") == Some(Json.Bool(k.postgresEnabled.GetOr(false)))
  {
    var fields := [Json.Member("environment", Json.Str(k.environment.GetOr("unknown"))),
                   Json.Member("debug", Json.Bool(debug)),
                   Json.Member("postgres_enabled", Json.Bool(k.postgresEnabled.GetOr(false)))];
    assert fields[1].key[0] == 'd' && fields[2].key[0] == 'p' && fields[0].key[0] == 'e';
    Startup("Advanced Logging inicializado", fields)
  }

  /** How a call to `ready()` ends: nothing done on a second call; an
      error escaping from the database derivation; an error from setup,
      caught and reported on standard error; or the manager set up and the
      start-up message to log on the application's logger. */
  datatype Outcome =
    | AlreadyInitialized
    | Raised(error: string)
    | Reported(error: string)
    | Started(manager: LoggerManager, logger: LoggerObj, startup: Startup)

  /** The settings `ready()` uses: `ADVANCED_LOGGING`, or the default. */
  function AppSettings(setting: Option<Kwargs>, debug: bool, env: Env): (k: Kwargs)
    ensures setting.Some? ==> k == setting.value
    ensures setting.None? ==> k == DefaultSettings(debug, env)
  {
    setting.GetOr(DefaultSettings(debug, env))
  }

  /** How the `try` block of `ready()` left things for the settings `k`:
      setup failed exactly when there were no settings at all and the
      environment asks for a database with a malformed port; otherwise the
      stored manager is the one registered for the settings' key, the
      logger is its child `advanced_logging`, and the start-up message
      describes the settings. The key is that of the settings' name and
      environment, or, with no settings at all, of those the environment
      variables give. */
  ghost predicate Launched(out: Outcome, k: Kwargs, debug: bool, env: Env, state: LoggingState)
    reads state, state.registry, if out.Started? then {out.manager} else {}
  {
    (out.Started? || out.Reported?)
    && (out.Reported? <==> NoKwargs(k) && EnvFails(env))
    && (out.Started? ==>
          var n := ChildName(out.manager.config.name, Some(AppName));
          out.startup == StartupRecord(k, debug) && state.manager == Some(out.manager)
          && out.logger.name == n && n in out.manager.loggers && out.manager.loggers[n] == out.logger
          && SettingsKey(k, env) in state.registry.instances
          && state.registry.instances[SettingsKey(k, env)] == out.manager)
  }

  /** What `Setup` leaves, given the resolved settings and the manager
      and the instances before it: the resolution error raised with
      nothing started, or what `Start` leaves. */
  ghost predicate SetUp(out: Outcome, resolved: Result<Kwargs>, debug: bool, env: Env, state: LoggingState,
                        manager: Option<LoggerManager>, instances: map<string, LoggerManager>)
    reads state, state.registry, if out.Started? then {out.manager} else {}
  {
    (resolved.Err? ==>
       out == Raised(resolved.error) && state.manager == manager && state.registry.instances == instances)
    && (resolved.Ok? ==> Launched(out, resolved.value, debug, env, state) && (out.Reported? ==> state.manager == manager))
  }

  /** The `try` block of `ready()`: `initialize_logging(**settings)`,
      then the application's logger from the manager it stored; an error
      from setup is caught and reported. */
  method Start(k: Kwargs, debug: bool, env: Env, state: LoggingState, connectOk: bool) returns (out: Outcome)
    requires state.Valid()
    modifies state`manager, state.registry`instances, state.registry.tree`loggers
    modifies state.registry.tree.loggers.Values, state.registry.instances.Values
    ensures state.Valid() && Launched(out, k, debug, env, state)
    ensures out.Reported? ==> state.manager == old(state.manager)
    ensures out.Started? && !NoKwargs(k) ==>
      var c := KwargsConfig(k);
      Key(c.name, c.environment) !in old(state.registry.instances) ==>
        fresh(out.manager) && BuiltFrom(out.manager.config, c, KwargsSink(k))
  {
    var init := state.InitializeLogging(None, k, env, connectOk);
    if init.Err? {
      return Reported(init.error);
    }
    out := Launch(init.value, k, debug, env, state);
  }

  /** The end of the `try` block once `initialize_logging` has stored the
      manager `m`: `get_logger` finds it, and the start-up message is
      ready to log. */
  method Launch(m: LoggerManager, k: Kwargs, debug: bool, env: Env, state: LoggingState) returns (out: Outcome)
    requires state.Valid() && state.manager == Some(m) && !(NoKwargs(k) && EnvFails(env))
    requires SettingsKey(k, env) in state.registry.instances && state.registry.instances[SettingsKey(k, env)] == m
    modifies m`loggers, state.registry.tree`loggers
    ensures state.Valid() && out.Started? && out.manager == m && Launched(out, k, debug, env, state)
  {
    var logger := state.StoredLogger(Some(AppName));
    out := Started(m, logger, StartupRecord(k, debug));
  }

  /** The body of `ready()` after its guard: the settings, the database
      derived from Django when asked for (its `int()` error escaping), and
      the `try` block. */
  method Setup(setting: Option<Kwargs>, debug: bool, db: Env, env: Env, state: LoggingState, connectOk: bool)
    returns (out: Outcome)
    requires state.Valid()
    modifies state`manager, state.registry`instances, state.registry.tree`loggers
    modifies state.registry.tree.loggers.Values, state.registry.instances.Values
    ensures state.Valid()
    ensures SetUp(out, Resolved(AppSettings(setting, debug, env), db, env), debug, env, state,
                  old(state.manager), old(state.registry.instances))
  {
    var resolved := Resolved(AppSettings(setting, debug, env), db, env);
    if resolved.Err? {
      return Raised(resolved.error);
    }
    out := Start(resolved.value, debug, env, state, connectOk);
  }

  /** `AdvancedLoggingConfig`. */
  class AppConfig {
    /** Whether `ready()` has run on this instance. */
    var initialized: bool

    constructor ()
      ensures !initialized
    {
      initialized := false;
    }

    /** `ready()`: does nothing on an instance that has run it before;
        otherwise marks the instance and runs `Setup`. */
    method Ready(setting: Option<Kwargs>, debug: bool, db: Env, env: Env, state: LoggingState, connectOk: bool)
      returns (out: Outcome)
      requires state.Valid()
      modifies this`initialized, state`manager, state.registry`instances, state.registry.tree`loggers
      modifies state.registry.tree.loggers.Values, state.registry.instances.Values
      ensures initialized && state.Valid()
      ensures old(initialized) ==>
        out.AlreadyInitialized? && state.manager == old(state.manager)
        && state.registry.instances == old(state.registry.instances)
        && state.registry.tree.loggers == old(state.registry.tree.loggers)
      ensures !old(initialized) ==>
        SetUp(out, Resolved(AppSettings(setting, debug, env), db, env), debug, env, state,
              old(state.manager), old(state.registry.instances))
    {
      if initialized {
        return AlreadyInitialized;
      }
      initialized := true;
      out := Setup(setting, debug, db, env, state, connectOk);
    }
  }
}

=== FILE: filters.dfy ===
/** The two logger filters: one tags every record with the environment,
    the other rewrites `key=value` pairs whose key names a secret so that
    the value reads `***MASKED***`.

    The masker's rule is the regular expression
    `(KEY['"]?\s*[:=]\s*['"]?)([^'",\s}]+)`, matched case-insensitively and
    replaced by its first group followed by `***MASKED***`. `Masked` is
    that substitution written as a scanner: at each position it tries the
    match, and either keeps the matched prefix and drops the value, or keeps
    one character and moves on. */
module Filters {

  import opened Wrappers
  import opened Text
  import opened Records

  const MaskText: string := "***MASKED***"

  /** The keys masked by every sensitive-data filter, in the order they are
      applied. */
  const DefaultPatterns: seq<string> := [
    "password", "passwd", "pwd", "token", "secret", "api_key", "apikey",
    "access_key", "private_key", "credential", "auth", "bearer", "authorization"
  ]

  predicate IsQuote(c: char) { c == '\'' || c == '"' }

  /** A character of the value group `[^'",\s}]`. */
  predicate IsValueChar(c: char) {
    !IsQuote(c) && c != ',' && !IsSpace(c) && c != '}'
  }

  /** `s` begins with the key `p`, letters compared without case: the
      lower-cased text starts with the lower-cased key. */
  function KeyAt(s: string, p: string): (r: bool)
    ensures r <==> StartsWith(Lower(s), Lower(p))
  {
    if |p| <= |s| then
      LowerSlices(s, |p|);
      Lower(s[..|p|]) == Lower(p)
    else false
  }

  function DropSpaces(t: string): (r: string)
    ensures |r| <= |t|
    decreases |t|
  {
    if t != [] && IsSpace(t[0]) then DropSpaces(t[1..]) else t
  }

  function DropQuote(t: string): (r: string)
    ensures |r| <= |t|
  {
    if t != [] && IsQuote(t[0]) then t[1..] else t
  }

  /** What follows the longest run of value characters at the start. */
  function DropValue(t: string): (r: string)
    ensures |r| <= |t|
    ensures t != [] && IsValueChar(t[0]) ==> |r| < |t|
    decreases |t|
  {
    if t != [] && IsValueChar(t[0]) then DropValue(t[1..]) else t
  }

  /** When the expression matches at the start of `s`, the text after its
      first group, which begins with the value; `None` when it does not
      match there. Backtracking never finds another match: the value cannot
      begin with a quote or a space. */
  function AfterGroup(s: string, p: string): (r: Option<string>)
    ensures r.Some? ==> |r.value| < |s| && r.value != [] && IsValueChar(r.value[0])
  {
    if !KeyAt(s, p) then None
    else
      var t := DropSpaces(DropQuote(s[|p|..]));
      if t != [] && (t[0] == ':' || t[0] == '=') then
        var u := DropQuote(DropSpaces(t[1..]));
        if u != [] && IsValueChar(u[0]) then Some(u) else None
      else None
  }

  /** `re.sub(regex, r"\1***MASKED***", s, flags=re.IGNORECASE)` for the
      key `p`: matches are found left to right and never overlap; a match
      keeps its first group and has its value replaced. A text in which the
      key does not occur, case aside, is left as it is. */
  function Masked(s: string, p: string): (r: string)
    ensures !Occurs(Lower(p), Lower(s)) ==> r == s
    decreases |s|
  {
    if s == [] then []
    else
      NoKeyStep(s, p);
      match AfterGroup(s, p)
      case Some(u) => s[..|s| - |u|] + MaskText + Masked(DropValue(u), p)
      case None => [s[0]] + Masked(s[1..], p)
  }

  /** Where the key does not occur, the expression does not match at the
      start, and the key does not occur after the first character. */
  lemma NoKeyStep(s: string, p: string)
    requires s != []
    ensures !Occurs(Lower(p), Lower(s)) ==> !KeyAt(s, p) && !Occurs(Lower(p), Lower(s[1..]))
  {
    LowerSlices(s, 1);
    OccursStep(Lower(p), Lower(s));
  }

  /** Each key in turn, every one applied to the text the previous one
      produced. Keys none of which occurs leave the text unchanged. */
  function MaskAll(s: string, patterns: seq<string>): (r: string)
    ensures (forall i :: 0 <= i < |patterns| ==> !Occurs(Lower(patterns[i]), Lower(s))) ==> r == s
    decreases |patterns|
  {
    if patterns == [] then s
    else
      assert forall i :: 0 <= i < |patterns[1..]| ==> patterns[1..][i] == patterns[i + 1];
      MaskAll(Masked(s, patterns[0]), patterns[1..])
  }

  /** The pre-check of the filter: the message is not empty and some key
      occurs, as written, in the lower-cased message. Only a key without
      upper-case letters can pass it. */
  function Triggers(msg: string, patterns: seq<string>): (r: bool)
    ensures r ==> msg != [] && exists i :: 0 <= i < |patterns| && Lower(patterns[i]) == patterns[i] && Occurs(patterns[i], Lower(msg))
  {
    if msg != [] && exists i :: 0 <= i < |patterns| && Occurs(patterns[i], Lower(msg)) then
      var i :| 0 <= i < |patterns| && Occurs(patterns[i], Lower(msg));
      OccursInLower(patterns[i], msg);
      true
    else false
  }

  /** What occurs in a lower-cased text has no upper-case letter. */
  lemma OccursInLower(k: string, s: string)
    requires Occurs(k, Lower(s))
    ensures Lower(k) == k
  {
    var i :| 0 <= i <= |Lower(s)| && StartsWith(Lower(s)[i..], k);
    forall j | 0 <= j < |k| ensures Lower(k)[j] == k[j] {
      assert k[j] == Lower(s)[i + j] == ToLowerChar(s[i + j]);
    }
  }

  predicate AllSpaces(w: string)
    decreases |w|
  {
    w == [] || (IsSpace(w[0]) && AllSpaces(w[1..]))
  }

  predicate AllValueChars(v: string)
    decreases |v|
  {
    v == [] || (IsValueChar(v[0]) && AllValueChars(v[1..]))
  }

  /** The separator forms the expression accepts between a key and its
      value: an optional quote, spaces, `:` or `=`, spaces, an optional
      quote. */
  predicate IsSeparator(q1: string, w1: string, c: char, w2: string, q2: string) {
    |q1| <= 1 && |q2| <= 1
    && (forall i :: 0 <= i < |q1| ==> IsQuote(q1[i]))
    && (forall i :: 0 <= i < |q2| ==> IsQuote(q2[i]))
    && AllSpaces(w1) && AllSpaces(w2)
    && (c == ':' || c == '=')
  }

  lemma {:induction false} DropSpacesOver(w: string, more: string)
    requires AllSpaces(w)
    requires more == [] || !IsSpace(more[0])
    ensures DropSpaces(w + more) == more
    decreases |w|
  {
    if w != [] {
      assert (w + more)[1..] == w[1..] + more;
      DropSpacesOver(w[1..], more);
    } else {
      assert w + more == more;
    }
  }

  lemma {:induction false} DropValueOver(v: string, more: string)
    requires AllValueChars(v)
    requires more == [] || !IsValueChar(more[0])
    ensures DropValue(v + more) == more
    decreases |v|
  {
    if v != [] {
      assert (v + more)[1..] == v[1..] + more;
      DropValueOver(v[1..], more);
    } else {
      assert v + more == more;
    }
  }

  /** Past the key: the optional quote and the spaces lead to the `:` or
      `=`. */
  lemma BeforeSeparator(q1: string, w1: string, c: char, tail: string)
    requires |q1| <= 1 && (forall i :: 0 <= i < |q1| ==> IsQuote(q1[i]))
    requires AllSpaces(w1)
    requires c == ':' || c == '='
    ensures DropSpaces(DropQuote(q1 + (w1 + ([c] + tail)))) == [c] + tail
  {
    var t := w1 + ([c] + tail);
    if q1 == [] {
      assert q1 + t == t;
      assert t[0] == if w1 == [] then c else w1[0];
    } else {
      assert (q1 + t)[1..] == t;
    }
    DropSpacesOver(w1, [c] + tail);
  }

  /** Past the `:` or `=`: the spaces and the optional quote lead to the
      value. */
  lemma AfterSeparator(w2: string, q2: string, vr: string)
    requires |q2| <= 1 && (forall i :: 0 <= i < |q2| ==> IsQuote(q2[i]))
    requires AllSpaces(w2)
    requires vr != [] && IsValueChar(vr[0])
    ensures DropQuote(DropSpaces(w2 + (q2 + vr))) == vr
  {
    var more := q2 + vr;
    assert more[0] == if q2 == [] then vr[0] else q2[0];
    DropSpacesOver(w2, more);
    if q2 == [] {
      assert more == vr;
    } else {
      assert more[1..] == vr;
    }
  }

  /** Where the expression meets `key + separator + value + rest`, its
      first group is the key and the separator. */
  lemma PairGroup(p: string, key: string, q1: string, w1: string, c: char,
                  w2: string, q2: string, vr: string)
    requires Lower(key) == Lower(p) && |key| == |p|
    requires IsSeparator(q1, w1, c, w2, q2)
    requires vr != [] && IsValueChar(vr[0])
    ensures AfterGroup(key + (q1 + (w1 + ([c] + (w2 + (q2 + vr))))), p) == Some(vr)
  {
    var tail := w2 + (q2 + vr);
    var s := key + (q1 + (w1 + ([c] + tail)));
    assert s[..|p|] == key;
    assert s[|p|..] == q1 + (w1 + ([c] + tail));
    BeforeSeparator(q1, w1, c, tail);
    assert ([c] + tail)[1..] == tail;
    AfterSeparator(w2, q2, vr);
  }

  lemma Assoc(a: string, b: string, c: string)
    ensures (a + b) + c == a + (b + c)
  {
  }

  /** The masker keeps a key and its separator, whatever the case of the
      key's letters, replaces the longest run of value characters after them
      with `***MASKED***`, and goes on with the rest of the text. */
  lemma MaskPair(p: string, key: string, q1: string, w1: string, c: char,
                 w2: string, q2: string, v: string, rest: string)
    requires Lower(key) == Lower(p) && |key| == |p|
    requires IsSeparator(q1, w1, c, w2, q2)
    requires v != [] && AllValueChars(v)
    requires rest == [] || !IsValueChar(rest[0])
    ensures var pre := key + (q1 + (w1 + ([c] + (w2 + q2))));
      Masked(pre + (v + rest), p) == pre + MaskText + Masked(rest, p)
  {
    var vr := v + rest;
    var x4 := w2 + q2;
    var x3 := [c] + x4;
    var x2 := w1 + x3;
    var x1 := q1 + x2;
    var pre := key + x1;
    Assoc(w2, q2, vr);
    Assoc([c], x4, vr);
    Assoc(w1, x3, vr);
    Assoc(q1, x2, vr);
    Assoc(key, x1, vr);
    PairGroup(p, key, q1, w1, c, w2, q2, vr);
    DropValueOver(v, rest);
    assert (pre + vr)[..|pre + vr| - |vr|] == pre;
  }

  /** A text made of value characters only is a value run. */
  lemma {:induction false} ValueRun(v: string)
    requires forall i :: 0 <= i < |v| ==> IsValueChar(v[i])
    ensures AllValueChars(v)
    decreases |v|
  {
    if v != [] {
      ValueRun(v[1..]);
    }
  }

  lemma LowerSlices(s: string, n: nat)
    requires n <= |s|
    ensures Lower(s[..n]) == Lower(s)[..n]
    ensures s != [] ==> Lower(s[1..]) == Lower(s)[1..]
  {
  }

  lemma {:induction false} MaskAllEmpty(patterns: seq<string>)
    ensures MaskAll([], patterns) == []
    decreases |patterns|
  {
    if patterns != [] {
      MaskAllEmpty(patterns[1..]);
    }
  }

  /** Keys at the front of the list that leave the text as it is (those
      that do not occur, among others) are passed over. */
  lemma {:induction false} MaskAllSkip(s: string, patterns: seq<string>, j: nat)
    requires j <= |patterns|
    requires forall i :: 0 <= i < j ==> Masked(s, patterns[i]) == s
    ensures MaskAll(s, patterns) == MaskAll(s, patterns[j..])
    decreases j
  {
    if j > 0 {
      assert Masked(s, patterns[0]) == s;
      MaskAllSkip(s, patterns[1..], j - 1);
      assert patterns[1..][j - 1..] == patterns[j..];
    }
  }

  /** `key=value`, with nothing around it, is masked by its own key. */
  lemma PlainPair(k: string, v: string)
    requires v != [] && AllValueChars(v)
    ensures Masked(k + "=" + v, k) == k + "=" + MaskText
  {
    var pre := k + "=";
    assert pre == k + ([] + ([] + (['='] + ([] + []))));
    assert pre + (v + []) == k + "=" + v;
    MaskPair(k, k, [], [], '=', [], [], v, []);
  }

  /** A `key=value` pair whose key is the `j`-th of the list comes out as
      `key=***MASKED***`, provided every earlier key leaves the pair as it
      is and no later key occurs in the masked pair. */
  lemma MaskAllPair(patterns: seq<string>, j: nat, v: string)
    requires j < |patterns| && patterns[j] != []
    requires v != [] && AllValueChars(v)
    requires forall i :: 0 <= i < j ==> Masked(patterns[j] + "=" + v, patterns[i]) == patterns[j] + "=" + v
    requires forall i :: j < i < |patterns| ==>
      !Occurs(Lower(patterns[i]), Lower(patterns[j] + "=" + MaskText))
    ensures MaskAll(patterns[j] + "=" + v, patterns) == patterns[j] + "=" + MaskText
  {
    var k := patterns[j];
    var out := k + "=" + MaskText;
    MaskAllSkip(k + "=" + v, patterns, j);
    PlainPair(k, v);
    var rest := patterns[j + 1..];
    forall i | 0 <= i < |rest|
      ensures !Occurs(Lower(rest[i]), Lower(out))
    {
      assert rest[i] == patterns[j + 1 + i];
    }
  }

  /** A key that begins a longer word, and is followed in it by a value
      character other than `:` and `=`, does not match at the start of that
      word's pair; where it occurs nowhere after the first character, the
      pair is left as it is. */
  lemma KeyInsideWord(w: string, p: string, v: string)
    requires p != [] && |p| < |w| && w[..|p|] == p
    requires IsValueChar(w[|p|]) && w[|p|] != ':' && w[|p|] != '='
    requires !Occurs(Lower(p), Lower(w[1..] + "=" + v))
    ensures Masked(w + "=" + v, p) == w + "=" + v
  {
    var x := w + "=" + v;
    assert x[|p|..][0] == w[|p|];
    assert AfterGroup(x, p).None?;
    assert x[1..] == w[1..] + "=" + v;
    assert [x[0]] + x[1..] == x;
  }

  /** A key that occurs at the start of a prefix of a text occurs in the
      text's lower-case form. */
  lemma PrefixKey(x: string, y: string, p: string)
    requires |y| <= |x| && y == x[..|y|] && |p| <= |y|
    requires KeyAt(x, p)
    ensures Occurs(Lower(p), Lower(y))
  {
    assert x[..|p|] == y[..|p|];
    assert Lower(y)[0..] == Lower(y);
  }

  /** When no key occurs in `pre + Take(s, |p| - 1)`, none starts the text
      and none occurs in what follows the first character. */
  lemma NoKeyAtStart(pre: string, s: string, p: string)
    requires p != [] && pre != []
    requires !Occurs(Lower(p), Lower(pre + Take(s, |p| - 1)))
    ensures !KeyAt(pre + s, p)
    ensures !Occurs(Lower(p), Lower(pre[1..] + Take(s, |p| - 1)))
  {
    var x := pre + s;
    var y := pre + Take(s, |p| - 1);
    assert y == x[..|y|];
    if KeyAt(x, p) {
      PrefixKey(x, y, p);
    }
    assert y[1..] == pre[1..] + Take(s, |p| - 1);
    LowerSlices(y, 1);
    OccursStep(Lower(p), Lower(y));
  }

  /** A prefix in which no match can start, not even one running on into
      the rest of the text, is kept as it is and the rest is masked on its
      own. */
  lemma {:induction false} MaskedPrefix(pre: string, s: string, p: string)
    requires p != []
    requires !Occurs(Lower(p), Lower(pre + Take(s, |p| - 1)))
    ensures Masked(pre + s, p) == pre + Masked(s, p)
    decreases |pre|
  {
    if pre == [] {
      assert pre + s == s;
    } else {
      var x := pre + s;
      NoKeyAtStart(pre, s, p);
      MaskedPrefix(pre[1..], s, p);
      MaskedSkip(x, p);
      ConsTail(pre, s, Masked(s, p));
    }
  }

  /** Words before a space in which the key does not occur are kept as
      they are: a key without a space cannot match across the space, so
      only what follows it is masked. */
  lemma MaskedAfterSpace(a: string, s: string, p: string)
    requires p != [] && ' ' !in p
    requires !Occurs(Lower(p), Lower(a))
    ensures Masked(a + " " + s, p) == a + " " + Masked(s, p)
  {
    var t := Take(s, |p| - 1);
    assert !Occurs(Lower(p), Lower(t));
    NotInLower(p, ' ');
    LowerAppend(a + " ", t);
    LowerAppend(a, " ");
    assert Lower(" ") == [' '];
    OccursAcross(Lower(p), Lower(a), ' ', Lower(t));
    MaskedPrefix(a + " ", s, p);
  }

  /** The same for a list of keys, none of which occurs in the words
      before the space. */
  lemma {:induction false} MaskAllAfterSpace(a: string, s: string, patterns: seq<string>)
    requires forall k :: k in patterns ==> k != [] && ' ' !in k && !Occurs(Lower(k), Lower(a))
    ensures MaskAll(a + " " + s, patterns) == a + " " + MaskAll(s, patterns)
    decreases |patterns|
  {
    if patterns != [] {
      assert patterns[0] in patterns;
      MaskedAfterSpace(a, s, patterns[0]);
      assert forall k :: k in patterns[1..] ==> k in patterns;
      MaskAllAfterSpace(a, Masked(s, patterns[0]), patterns[1..]);
    }
  }

  /** Where nothing matches, the first character is kept and the scan
      moves on. */
  lemma MaskedSkip(x: string, p: string)
    requires x != [] && !KeyAt(x, p)
    ensures Masked(x, p) == [x[0]] + Masked(x[1..], p)
  {
  }

  lemma ConsTail(pre: string, s: string, m: string)
    requires pre != []
    ensures (pre + s)[0] == pre[0] && (pre + s)[1..] == pre[1..] + s
    ensures [pre[0]] + (pre[1..] + m) == pre + m
  {
    assert (pre + s)[1..] == pre[1..] + s;
    assert [pre[0]] + (pre[1..] + m) == pre + m;
  }

  /** The white space `DropSpaces` removes. */
  function SpacePart(t: string): (w: string)
    ensures AllSpaces(w) && t == w + DropSpaces(t)
    decreases |t|
  {
    if t != [] && IsSpace(t[0]) then
      var w' := SpacePart(t[1..]);
      var w := [t[0]] + w';
      assert w[0] == t[0] && w[1..] == w';
      assert DropSpaces(t) == DropSpaces(t[1..]);
      assert t == [t[0]] + t[1..];
      assert w + DropSpaces(t) == [t[0]] + (w' + DropSpaces(t[1..]));
      w
    else []
  }

  /** The quote `DropQuote` removes, if any. */
  function QuotePart(t: string): (q: string)
    ensures |q| <= 1 && (forall i :: 0 <= i < |q| ==> IsQuote(q[i])) && t == q + DropQuote(t)
  {
    if t != [] && IsQuote(t[0]) then
      assert t == [t[0]] + t[1..];
      [t[0]]
    else []
  }

  lemma Halves(t: string, n: nat)
    requires n <= |t|
    ensures t == t[..n] + t[n..]
  {
  }

  lemma Substitute(t0: string, q1: string, a: string, w1: string, t: string,
                   c: char, t1: string, w2: string, b: string, q2: string, u: string)
    requires t0 == q1 + a && a == w1 + t && t == [c] + t1
    requires t1 == w2 + b && b == q2 + u
    ensures t0 == q1 + (w1 + ([c] + (w2 + (q2 + u))))
  {
  }

  /** Conversely to `PairGroup`: wherever the expression matches, the text
      is a key equal to `p` case aside, one of the separator forms, and the
      value that follows. */
  lemma AfterGroupSound(s: string, p: string, u: string)
    requires AfterGroup(s, p) == Some(u)
    ensures KeyAt(s, p) && |s[..|p|]| == |p| && Lower(s[..|p|]) == Lower(p)
    ensures exists q1, w1, c, w2, q2 ::
      IsSeparator(q1, w1, c, w2, q2) && s == s[..|p|] + (q1 + (w1 + ([c] + (w2 + (q2 + u)))))
  {
    assert KeyAt(s, p);
    var q1, w1, c, w2, q2 := SeparatorSound(s[|p|..], u);
    Halves(s, |p|);
    assert s == s[..|p|] + (q1 + (w1 + ([c] + (w2 + (q2 + u)))));
  }

  /** What `AfterGroup` skips between the key and the value is one of the
      separator forms. */
  lemma SeparatorSound(t0: string, u: string) returns (q1: string, w1: string, c: char, w2: string, q2: string)
    requires DropSpaces(DropQuote(t0)) != []
    requires DropSpaces(DropQuote(t0))[0] == ':' || DropSpaces(DropQuote(t0))[0] == '='
    requires u == DropQuote(DropSpaces(DropSpaces(DropQuote(t0))[1..]))
    ensures IsSeparator(q1, w1, c, w2, q2) && t0 == q1 + (w1 + ([c] + (w2 + (q2 + u))))
  {
    var a := DropQuote(t0);
    var t := DropSpaces(a);
    q1, w1 := QuotePart(t0), SpacePart(a);
    c := t[0];
    var t1 := t[1..];
    assert t == [c] + t1;
    w2, q2 := ValuePrefix(t1, u);
    Substitute(t0, q1, a, w1, t, c, t1, w2, DropSpaces(t1), q2, u);
  }

  /** Between the separator and the value: spaces, then an optional
      quote. */
  lemma ValuePrefix(t1: string, u: string) returns (w2: string, q2: string)
    requires u == DropQuote(DropSpaces(t1))
    ensures AllSpaces(w2) && t1 == w2 + DropSpaces(t1)
    ensures |q2| <= 1 && (forall i :: 0 <= i < |q2| ==> IsQuote(q2[i])) && DropSpaces(t1) == q2 + u
  {
    w2, q2 := SpacePart(t1), QuotePart(DropSpaces(t1));
  }

  /** The environment tagger: every record it sees gets the configured
      environment label, and every record passes. */
  class EnvironmentFilter {
    const environment: string

    constructor (environment: string)
      ensures this.environment == environment
    {
      this.environment := environment;
    }

    method Filter(record: LogRecord) returns (keep: bool)
      modifies record`environment
      ensures keep
      ensures record.environment == Some(environment)
    {
      record.environment := Some(environment);
      keep := true;
    }
  }

  /** The sensitive-data masker. Extra keys passed at construction are
      added after the defaults for this filter only; `DefaultPatterns`
      itself is a constant. */
  class SensitiveDataFilter {
    var patterns: seq<string>

    /** An absent or empty list of extra keys leaves the defaults. */
    constructor (additional: Option<seq<string>>)
      ensures patterns == DefaultPatterns + additional.GetOr([])
    {
      if additional.Some? && additional.value != [] {
        patterns := DefaultPatterns + additional.value;
      } else {
        patterns := DefaultPatterns;
      }
    }

    /** Every key's substitution in list order. */
    method MaskSensitiveData(text: string) returns (r: string)
      ensures r == MaskAll(text, patterns)
    {
      r := text;
      for i := 0 to |patterns|
        invariant MaskAll(r, patterns[i..]) == MaskAll(text, patterns)
      {
        assert patterns[i..][1..] == patterns[i + 1..];
        r := Masked(r, patterns[i]);
      }
    }

    /** Masks the message when the pre-check finds some key in it and
      otherwise leaves it exactly as it was; every record passes. */
    method Filter(record: LogRecord) returns (keep: bool)
      modifies record`msg
      ensures keep
      ensures record.msg == if Triggers(old(record.msg), patterns)
                            then MaskAll(old(record.msg), patterns) else old(record.msg)
    {
      keep := true;
      if record.msg != [] {
        var message := Lower(record.msg);
        var i := 0;
        while i < |patterns|
          invariant 0 <= i <= |patterns|
          invariant record.msg == old(record.msg)
          invariant forall j :: 0 <= j < i ==> !Occurs(patterns[j], message)
        {
          if Occurs(patterns[i], message) {
            record.msg := MaskSensitiveData(record.msg);
            return;
          }
          i := i + 1;
        }
      }
    }
  }

  /** With lower-case keys the pre-check is only a shortcut: whenever it
      skips the masking, masking would have changed nothing. */
  lemma SkipIsHarmless(msg: string, patterns: seq<string>)
    requires forall i :: 0 <= i < |patterns| ==> Lower(patterns[i]) == patterns[i]
    requires !Triggers(msg, patterns)
    ensures MaskAll(msg, patterns) == msg
  {
    if msg == [] {
      MaskAllEmpty(patterns);
    }
  }
}

=== FILE: formatters.dfy ===
/** The formatters: the standard `%(attr)s` template rendering they build
    on, the coloured console formatter, which wraps the level name in an
    ANSI colour for the duration of one call, and the JSON formatter, which
    builds a field map in a fixed override order and writes it as JSON. */
module Formatters {

  import opened Wrappers
  import opened Text
  import opened Records
  import opened Json

  // ------------------------------------------------------------ templates

  /** One piece of a `%`-style format string: literal text, or a
      `%(attr)s` / `%(attr)d` field. */
  datatype Piece = Lit(text: string) | Attr(name: string)

  type Template = seq<Piece>

  /** The text of a record attribute a template can name; `None` when the
      record has no such attribute (`environment` before an environment
      filter has run). `message` is `getMessage()`, `asctime` the creation
      time in the `%Y-%m-%d %H:%M:%S` date format the library configures. */
  function AttrText(f: Fields, a: string): Option<string> {
    if a == "name" then Some(f.name)
    else if a == "levelname" then Some(f.levelname)
    else if a == "levelno" then Some(IntToString(f.levelno))
    else if a == "message" then Some(f.msg)
    else if a == "module" then Some(f.moduleName)
    else if a == "funcName" then Some(f.funcName)
    else if a == "lineno" then Some(IntToString(f.lineno))
    else if a == "thread" then Some(IntToString(f.thread))
    else if a == "threadName" then Some(f.threadName)
    else if a == "process" then Some(IntToString(f.process))
    else if a == "asctime" then Some(AscTime(f.created))
    else if a == "environment" then f.environment
    else None
  }

  /** Every attribute the template names is present. */
  predicate Renders(t: Template, f: Fields) {
    forall i :: 0 <= i < |t| && t[i].Attr? ==> AttrText(f, t[i].name).Some?
  }

  /** `fmt % record.__dict__`: `None` stands for the `ValueError` the
      standard formatter raises when a named attribute is missing, so
      rendering succeeds exactly when every named attribute is present. */
  function Render(t: Template, f: Fields): (r: Option<string>)
    ensures r.Some? <==> Renders(t, f)
    decreases |t|
  {
    if t == [] then Some("")
    else
      var head := match t[0] case Lit(x) => Some(x) case Attr(a) => AttrText(f, a);
      var tail := Render(t[1..], f);
      RendersCons(t, f);
      if head.Some? && tail.Some? then Some(head.value + tail.value) else None
  }

  /** A template renders when its first piece does and the rest does. */
  lemma RendersCons(t: Template, f: Fields)
    requires t != []
    ensures Renders(t, f) <==> (t[0].Attr? ==> AttrText(f, t[0].name).Some?) && Renders(t[1..], f)
  {
    if Renders(t[1..], f) && (t[0].Attr? ==> AttrText(f, t[0].name).Some?) {
      forall i | 0 <= i < |t| && t[i].Attr? ensures AttrText(f, t[i].name).Some? {
        if i > 0 { assert t[i] == t[1..][i - 1]; }
      }
    }
    if Renders(t, f) {
      forall i | 0 <= i < |t[1..]| && t[1..][i].Attr? ensures AttrText(f, t[1..][i].name).Some? {
        assert t[1..][i] == t[i + 1];
      }
    }
  }

  /** `logging.Formatter.format`: the rendered template, followed, when the
      record carries an exception with a non-empty traceback (`if
      record.exc_text:`), by a newline (unless the text already ends with
      one) and the traceback. */
  function BaseFormat(t: Template, f: Fields): (r: Option<string>)
    ensures r.Some? <==> Renders(t, f)
    ensures r.Some? ==> StartsWith(r.value, Render(t, f).value)
    ensures r.Some? && (f.excInfo.None? || f.excInfo.value.traceback == "") ==> r.value == Render(t, f).value
    ensures r.Some? && f.excInfo.Some? ==>
      var tb := f.excInfo.value.traceback;
      |r.value| >= |tb| && r.value[|r.value| - |tb|..] == tb
      && |r.value| <= |Render(t, f).value| + 1 + |tb|
  {
    match Render(t, f)
    case None => None
    case Some(s) =>
      if f.excInfo.Some? && f.excInfo.value.traceback != "" then
        Some(s + (if s != [] && s[|s| - 1] == '\n' then "" else "\n") + f.excInfo.value.traceback)
      else Some(s)
  }

  /** A successful format of a template that opens with the level name
      opens with the record's level name. */
  lemma FormatStartsWithLevel(t: Template, f: Fields)
    requires t != [] && t[0] == Attr("levelname") && BaseFormat(t, f).Some?
    ensures StartsWith(BaseFormat(t, f).value, f.levelname)
  {
    var s := Render(t, f).value;
    assert s == f.levelname + Render(t[1..], f).value;
    assert s[..|f.levelname|] == f.levelname;
    var out := BaseFormat(t, f).value;
    assert out[..|s|] == s;
    assert out[..|f.levelname|] == s[..|f.levelname|];
  }

  // -------------------------------------------------------- coloured output

  const Reset: string := "\U{1B}[0m"

  /** The ANSI colour codes by level name; the table also has an entry for
      `RESET` itself. */
  const Colors: map<string, string> := map[
    "DEBUG" := "\U{1B}[36m",
    "INFO" := "\U{1B}[32m",
    "WARNING" := "\U{1B}[33m",
    "ERROR" := "\U{1B}[31m",
    "CRITICAL" := "\U{1B}[35m",
    "RESET" := Reset
  ]

  const LevelNames: seq<string> := ["DEBUG", "INFO", "WARNING", "ERROR", "CRITICAL"]

  /** The level name as the coloured formatter shows it: a name in the
      colour table comes wrapped in its colour and the reset code, any
      other name is shown as it is. */
  function Colored(levelname: string): string {
    if levelname in Colors then Colors[levelname] + levelname + Reset else levelname
  }

  /** The five level colours are pairwise different, and they differ in the
      digit at index 3 of the code. */
  lemma ColorCodesDistinct(a: string, b: string)
    requires a in LevelNames && b in LevelNames && a != b
    ensures a in Colors && b in Colors && Colors[a] != Colors[b]
    ensures Colored(a)[3] != Colored(b)[3]
  {
  }

  /** A format that opens with the level name shows two different levels
      differently once each is coloured. */
  lemma LevelsFormatDifferently(t: Template, f: Fields, a: string, b: string)
    requires t != [] && t[0] == Attr("levelname")
    requires a in LevelNames && b in LevelNames && a != b
    requires BaseFormat(t, f.(levelname := Colored(a))).Some?
    requires BaseFormat(t, f.(levelname := Colored(b))).Some?
    ensures BaseFormat(t, f.(levelname := Colored(a))) != BaseFormat(t, f.(levelname := Colored(b)))
  {
    ColorCodesDistinct(a, b);
    FormatStartsWithLevel(t, f.(levelname := Colored(a)));
    FormatStartsWithLevel(t, f.(levelname := Colored(b)));
    var sa := BaseFormat(t, f.(levelname := Colored(a))).value;
    var sb := BaseFormat(t, f.(levelname := Colored(b))).value;
    assert sa[3] == Colored(a)[3];
    assert sb[3] == Colored(b)[3];
  }

  /** The coloured console formatter. */
  class ColoredFormatter {
    const fmt: Template

    constructor (fmt: Template)
      ensures this.fmt == fmt
    {
      this.fmt := fmt;
    }

    /** Formats the record with its level name coloured. The original level
        name is put back when formatting succeeds; when the standard
        formatter raises, the exception leaves the coloured name on the
        record. */
    method Format(record: LogRecord) returns (result: Option<string>)
      modifies record`levelname
      ensures result == BaseFormat(fmt, old(record.View()).(levelname := Colored(old(record.levelname))))
      ensures result.Some? ==> record.levelname == old(record.levelname)
      ensures result.None? ==> record.levelname == Colored(old(record.levelname))
    {
      var levelname := record.levelname;
      if levelname in Colors {
        record.levelname := Colors[levelname] + levelname + Reset;
      }
      result := BaseFormat(fmt, record.View());
      if result.Some? {
        record.levelname := levelname;
      }
    }
  }

  // ------------------------------------------------------------ JSON output

  const FixedKeys: seq<string> := ["timestamp", "level", "logger", "message", "module", "function", "line"]

  /** The seven fields every JSON line has, in order; `now` is the UTC
      clock reading the formatter takes. */
  function FixedMembers(f: Fields, now: DateTime): Object {
    [Member("timestamp", Str(IsoFormat(now, 'T'))),
     Member("level", Str(f.levelname)),
     Member("logger", Str(f.name)),
     Member("message", Str(f.msg)),
     Member("module", Str(f.moduleName)),
     Member("function", Str(f.funcName)),
     Member("line", Int(f.lineno))]
  }

  /** The fixed fields looked up by name. */
  function FixedField(f: Fields, now: DateTime, k: string): Option<Value> {
    if k == "timestamp" then Some(Str(IsoFormat(now, 'T')))
    else if k == "level" then Some(Str(f.levelname))
    else if k == "logger" then Some(Str(f.name))
    else if k == "message" then Some(Str(f.msg))
    else if k == "module" then Some(Str(f.moduleName))
    else if k == "function" then Some(Str(f.funcName))
    else if k == "line" then Some(Int(f.lineno))
    else None
  }

  /** The field map of one JSON line: the fixed fields, then the exception
      text, then every extra field, then the environment, each written over
      what came before. Whatever the extra fields overwrite, the seven
      fixed keys open the line in their order. */
  function LogData(f: Fields, now: DateTime): (o: Object)
    ensures |o| >= 7 && forall i :: 0 <= i < 7 ==> o[i].key == FixedKeys[i]
  {
    var fixed := FixedMembers(f, now);
    FixedKeysOf(f, now);
    var withExc :=
      if f.excInfo.Some? then
        var exc := Str(f.excInfo.value.traceback);
        SetKeepsOrder(fixed, "exception", exc);
        Set(fixed, "exception", exc)
      else fixed;
    var merged :=
      if f.extraFields.Some? then
        UpdateKeepsOrder(withExc, f.extraFields.value);
        Update(withExc, f.extraFields.value)
      else withExc;
    if f.environment.Some? then
      var env := Str(f.environment.value);
      SetKeepsOrder(merged, "environment", env);
      Set(merged, "environment", env)
    else merged
  }

  /** One JSON line, non-ASCII characters written as they are. When the
      extra fields are a Python dictionary, `json.loads` reads the line back
      as the field map. */
  function JsonFormat(f: Fields, now: DateTime): (line: string)
    ensures ExtraIsDict(f) ==> Parse(line) == Some(Obj(LogData(f, now)))
  {
    if ExtraIsDict(f) then
      LogDataWellFormed(f, now);
      Dump(LogData(f, now), false)
    else Dump(LogData(f, now), false)
  }

  /** The extra fields are a Python dictionary. */
  predicate ExtraIsDict(f: Fields) {
    f.extraFields.Some? ==> WellFormed(Obj(f.extraFields.value))
  }

  lemma GetCons(m: Member, o: Object, k: string)
    ensures Get([m] + o, k) == if m.key == k then Some(m.value) else Get(o, k)
  {
    assert ([m] + o)[1..] == o;
  }

  lemma FixedGet(f: Fields, now: DateTime, k: string)
    ensures Get(FixedMembers(f, now), k) == FixedField(f, now, k)
  {
    var o := FixedMembers(f, now);
    var t6 := [o[6]];
    var t5 := [o[5]] + t6;
    var t4 := [o[4]] + t5;
    var t3 := [o[3]] + t4;
    var t2 := [o[2]] + t3;
    var t1 := [o[1]] + t2;
    assert o == [o[0]] + t1;
    assert t6 == [o[6]] + [];
    GetCons(o[0], t1, k);
    if k != "timestamp" {
      GetCons(o[1], t2, k);
      if k != "level" {
        GetCons(o[2], t3, k);
        if k != "logger" {
          GetCons(o[3], t4, k);
          if k != "message" {
            GetCons(o[4], t5, k);
            if k != "module" {
              GetCons(o[5], t6, k);
              if k != "function" {
                GetCons(o[6], [], k);
              }
            }
          }
        }
      }
    }
  }

  lemma FixedKeysOf(f: Fields, now: DateTime)
    ensures Keys(FixedMembers(f, now)) == set k | k in FixedKeys
    ensures WellFormed(Obj(FixedMembers(f, now)))
    ensures forall i :: 0 <= i < 7 ==> FixedMembers(f, now)[i].key == FixedKeys[i]
  {
    var o := FixedMembers(f, now);
    assert forall i :: 0 <= i < 7 ==> o[i].key == FixedKeys[i];
    forall k | k in FixedKeys ensures k in Keys(o) {
      var i :| 0 <= i < 7 && FixedKeys[i] == k;
      assert o[i] in o;
    }
    assert DistinctKeys(o);
  }

  /** What each key of the JSON line holds: the environment wins over
      everything, an extra field wins over the exception and the fixed
      fields, and the exception key is there when the record has one. */
  lemma LogDataGet(f: Fields, now: DateTime, k: string)
    requires ExtraIsDict(f)
    ensures Get(LogData(f, now), k) ==
      if k == "environment" && f.environment.Some? then Some(Str(f.environment.value))
      else if f.extraFields.Some? && k in Keys(f.extraFields.value) then Get(f.extraFields.value, k)
      else if k == "exception" && f.excInfo.Some? then Some(Str(f.excInfo.value.traceback))
      else FixedField(f, now, k)
  {
    var fixed := FixedMembers(f, now);
    FixedGet(f, now, k);
    var withExc := if f.excInfo.Some? then Set(fixed, "exception", Str(f.excInfo.value.traceback)) else fixed;
    if f.excInfo.Some? {
      SetGet(fixed, "exception", Str(f.excInfo.value.traceback), k);
    }
    var merged := if f.extraFields.Some? then Update(withExc, f.extraFields.value) else withExc;
    if f.extraFields.Some? {
      UpdateGet(withExc, f.extraFields.value, k);
    }
    if f.environment.Some? {
      SetGet(merged, "environment", Str(f.environment.value), k);
    }
  }

  /** The keys of the JSON line: always the seven fixed ones, `exception`
      exactly when the record has an exception or an extra field of that
      name, every extra field, and `environment` when the record has one. */
  lemma LogDataKeys(f: Fields, now: DateTime)
    ensures Keys(LogData(f, now)) ==
      (set k | k in FixedKeys)
      + (if f.excInfo.Some? then {"exception"} else {})
      + (if f.extraFields.Some? then Keys(f.extraFields.value) else {})
      + (if f.environment.Some? then {"environment"} else {})
  {
    var fixed := FixedMembers(f, now);
    FixedKeysOf(f, now);
    var withExc := if f.excInfo.Some? then Set(fixed, "exception", Str(f.excInfo.value.traceback)) else fixed;
    if f.excInfo.Some? {
      SetKeys(fixed, "exception", Str(f.excInfo.value.traceback));
    }
    var merged := if f.extraFields.Some? then Update(withExc, f.extraFields.value) else withExc;
    if f.extraFields.Some? {
      UpdateKeys(withExc, f.extraFields.value);
    }
    if f.environment.Some? {
      SetKeys(merged, "environment", Str(f.environment.value));
    }
  }

  /** The field map of a record whose extra fields are a Python dictionary
      is one too: its keys are distinct. */
  lemma LogDataWellFormed(f: Fields, now: DateTime)
    requires ExtraIsDict(f)
    ensures WellFormed(Obj(LogData(f, now)))
  {
    var fixed := FixedMembers(f, now);
    FixedKeysOf(f, now);
    var withExc := if f.excInfo.Some? then Set(fixed, "exception", Str(f.excInfo.value.traceback)) else fixed;
    if f.excInfo.Some? {
      SetWellFormed(fixed, "exception", Str(f.excInfo.value.traceback));
    }
    var merged := if f.extraFields.Some? then Update(withExc, f.extraFields.value) else withExc;
    if f.extraFields.Some? {
      UpdateWellFormed(withExc, f.extraFields.value);
    }
    if f.environment.Some? {
      SetWellFormed(merged, "environment", Str(f.environment.value));
    }
  }

  /** Unless an extra field replaces it, the timestamp is the ISO 8601 text
      of the clock reading, with `T` between date and time. */
  lemma TimestampIsIso(f: Fields, now: DateTime)
    requires ExtraIsDict(f) && now.Valid()
    requires f.extraFields.Some? ==> "timestamp" !in Keys(f.extraFields.value)
    ensures Get(LogData(f, now), "timestamp") == Some(Str(IsoFormat(now, 'T')))
    ensures 'T' in IsoFormat(now, 'T')
  {
    LogDataGet(f, now, "timestamp");
    IsoFormatHasT(now);
  }
}

=== FILE: handlers.dfy ===
/** The PostgreSQL sink. Records are queued without blocking in a bounded
    buffer that drops its oldest record when full; a writer pulls them one
    at a time into a batch and writes a batch once it is full, and once
    more, whatever is left, when the handler shuts down.

    The writer thread is modelled as a step method called in sequence with
    the handler's other methods; the database is an oracle that says, for
    each connection attempt and each insert, whether it succeeds. */
module Handlers {

  import opened Wrappers
  import opened Text
  import opened Records
  import opened Json

  // ---------------------------------------------------------- configuration

  /** The connection and buffering settings; `bufferSize <= 0` means an
      unbounded buffer, as for Python's `queue.Queue`. */
  datatype PgConfig = PgConfig(
    host: string, port: int, database: string, user: string, password: string,
    tableName: string, schema: string, sslMode: string,
    bufferSize: int, batchSize: int)

  function DefaultPgConfig(): (c: PgConfig)
    ensures c.host == "localhost" && c.port == 5432 && c.database == "logs"
    ensures c.user == "postgres" && c.password == "" && c.tableName == "application_logs"
    ensures c.schema == "public" && c.sslMode == "prefer"
    ensures c.bufferSize == 1000 && c.batchSize == 10
  {
    PgConfig("localhost", 5432, "logs", "postgres", "", "application_logs", "public", "prefer", 1000, 10)
  }

  /** The names of the connection settings, in the order they are
      written. */
  const SettingNames: seq<string> := ["host", "port", "dbname", "user", "password", "sslmode"]

  /** The six `key=value` settings of the libpq connection string: each
      named as `SettingNames` lists them. */
  function Settings(c: PgConfig): (parts: seq<string>)
    ensures |parts| == |SettingNames|
    ensures forall k :: 0 <= k < |parts| ==> StartsWith(parts[k], SettingNames[k] + "=")
  {
    ["host=" + c.host, "port=" + IntToString(c.port), "dbname=" + c.database,
     "user=" + c.user, "password=" + c.password, "sslmode=" + c.sslMode]
  }

  lemma IntTextHasNoSpace(i: int)
    ensures ' ' !in IntToString(i)
  {
    var s := IntToString(i);
    var digits := NatToString(if i < 0 then -i else i);
    if i < 0 {
      assert s == "-" + digits;
    }
  }

  /** The libpq connection string: the settings, space-separated, the host
      first. When no setting holds a space, it splits back into the six
      settings, in the order host, port, dbname, user, password, sslmode. */
  function ConnectionString(c: PgConfig): (s: string)
    ensures |s| > 5 + |c.host| && s[..5 + |c.host|] == "host=" + c.host && s[5 + |c.host|] == ' '
    ensures ' ' !in c.host && ' ' !in c.database && ' ' !in c.user && ' ' !in c.password && ' ' !in c.sslMode
      ==> Split(s, ' ') == Settings(c)
  {
    var ps := Settings(c);
    IntTextHasNoSpace(c.port);
    if ' ' !in c.host && ' ' !in c.database && ' ' !in c.user && ' ' !in c.password && ' ' !in c.sslMode then
      assert forall k :: 0 <= k < |ps| ==> ' ' !in ps[k];
      SplitJoin(ps, ' ');
      Join(ps, ' ')
    else
      Join(ps, ' ')
  }

  // ------------------------------------------------------------------- rows

  /** One row of the log table, its fourteen columns in insertion order. */
  datatype Row = Row(
    timestamp: DateTime, level: string, loggerName: string, message: string,
    moduleName: string, funcName: string, lineNumber: int,
    threadId: int, threadName: string, processId: int,
    exception: Option<string>, extraData: Option<string>,
    environment: string, hostname: string)

  /** The row for a record. `formatted` is what the handler's formatter
      makes of the record, `hasFormatter` whether one is set, `hostname` the
      machine's name. The extra fields are written as ASCII-only JSON text,
      and only when there are some. */
  function PrepareRecord(f: Fields, formatted: string, hasFormatter: bool, hostname: string): (row: Row)
    ensures row.timestamp == f.created && row.level == f.levelname && row.loggerName == f.name
    ensures row.message == formatted && row.lineNumber == f.lineno && row.hostname == hostname
    ensures row.moduleName == f.moduleName && row.funcName == f.funcName
    ensures row.threadId == f.thread && row.threadName == f.threadName && row.processId == f.process
    ensures row.exception.Some? <==> f.excInfo.Some?
    ensures f.excInfo.Some? && hasFormatter ==> row.exception.value == f.excInfo.value.traceback
    ensures f.excInfo.Some? && !hasFormatter ==> row.exception.value == f.excInfo.value.repr
    ensures row.extraData.Some? <==> f.extraFields.Some? && f.extraFields.value != []
    ensures f.environment.None? ==> row.environment == "unknown"
    ensures f.environment.Some? ==> row.environment == f.environment.value
  {
    Row(f.created, f.levelname, f.name, formatted, f.moduleName, f.funcName, f.lineno,
        f.thread, f.threadName, f.process,
        if f.excInfo.Some? then Some(if hasFormatter then f.excInfo.value.traceback else f.excInfo.value.repr)
        else None,
        if f.extraFields.Some? && f.extraFields.value != [] then Some(Dump(f.extraFields.value, true))
        else None,
        f.environment.GetOr("unknown"),
        hostname)
  }

  /** The extra data column reads back, with `json.loads`, as the record's
      extra fields, in the same order. */
  lemma ExtraDataRoundTrip(f: Fields, formatted: string, hasFormatter: bool, hostname: string)
    requires f.extraFields.Some? && f.extraFields.value != []
    requires WellFormed(Obj(f.extraFields.value))
    ensures var row := PrepareRecord(f, formatted, hasFormatter, hostname);
      row.extraData.Some? && Parse(row.extraData.value) == Some(Obj(f.extraFields.value))
  {
    DumpParse(Obj(f.extraFields.value), true);
  }

  // ---------------------------------------------------------------- buffer

  /** `put_nowait`, and on `queue.Full` one `get_nowait` followed by
      `put_nowait`: the newest record always goes in at the back, and a full
      buffer gives up its oldest one. */
  function Enqueue(q: seq<Fields>, r: Fields, capacity: int): (s: seq<Fields>)
    ensures |s| >= 1 && s[|s| - 1] == r
    ensures capacity <= 0 ==> s == q + [r]
    ensures capacity > 0 && |q| <= capacity ==> s == Last(q + [r], capacity)
  {
    if capacity > 0 && |q| >= capacity then
      assert (q + [r])[1..] == q[1..] + [r];
      q[1..] + [r]
    else q + [r]
  }

  /** Records emitted one after another: a bounded buffer never outgrows
      its capacity, an unbounded one grows by one per record. */
  function EnqueueAll(q: seq<Fields>, rs: seq<Fields>, capacity: int): (s: seq<Fields>)
    ensures capacity > 0 && |q| <= capacity ==> |s| <= capacity
    ensures capacity <= 0 ==> |s| == |q| + |rs|
    decreases |rs|
  {
    if rs == [] then q else EnqueueAll(Enqueue(q, rs[0], capacity), rs[1..], capacity)
  }

  /** The last `n` elements of `s`, or all of them when there are fewer. */
  function Last(s: seq<Fields>, n: nat): (r: seq<Fields>)
    ensures |r| == if |s| <= n then |s| else n
  {
    if |s| <= n then s else s[|s| - n..]
  }

  lemma LastTwice(x: seq<Fields>, y: seq<Fields>, n: nat)
    ensures Last(Last(x, n) + y, n) == Last(x + y, n)
  {
    if |x| > n {
      var lx := x[|x| - n..];
      assert (x + y)[|x + y| - n..] == (lx + y)[|lx + y| - n..] || |lx + y| <= n;
      if |lx + y| > n {
        assert (lx + y)[|lx + y| - n..] == (x + y)[|x + y| - n..];
      } else {
        assert lx + y == (x + y)[|x + y| - n..];
      }
    }
  }

  /** A buffer with room for `capacity` records, fed one record at a time,
      keeps the most recent `capacity` of everything it was given, oldest
      first. */
  lemma {:induction false} EnqueueAllKeepsLast(q: seq<Fields>, rs: seq<Fields>, capacity: nat)
    requires capacity >= 1 && |q| <= capacity
    ensures EnqueueAll(q, rs, capacity) == Last(q + rs, capacity)
    decreases |rs|
  {
    if rs == [] {
      assert q + rs == q;
    } else {
      assert (q + [rs[0]]) + rs[1..] == q + rs;
      var q' := Enqueue(q, rs[0], capacity);
      assert q' == Last(q + [rs[0]], capacity);
      EnqueueAllKeepsLast(q', rs[1..], capacity);
      LastTwice(q + [rs[0]], rs[1..], capacity);
    }
  }

  /** An unbounded buffer keeps everything. */
  lemma {:induction false} EnqueueAllUnbounded(q: seq<Fields>, rs: seq<Fields>, capacity: int)
    requires capacity <= 0
    ensures EnqueueAll(q, rs, capacity) == q + rs
    decreases |rs|
  {
    if rs != [] {
      EnqueueAllUnbounded(q + [rs[0]], rs[1..], capacity);
      assert (q + [rs[0]]) + rs[1..] == q + rs;
    } else {
      assert q + rs == q;
    }
  }

  // -------------------------------------------------------------- writing

  /** The handler's connection flag and counters. */
  datatype Counters = Counters(connected: bool, written: nat, failed: nat)

  /** What `_write_batch` does to the flag and the counters for a batch of
      `n` records: nothing for an empty batch; otherwise a reconnection
      first when disconnected, then the insert; a failed reconnection or
      insert marks the handler disconnected and counts the batch as
      failed, a successful insert counts it as written. */
  function WriteOutcome(c: Counters, n: nat, connectOk: bool, insertOk: bool): (r: Counters)
    ensures r.written + r.failed == c.written + c.failed + n
    ensures n == 0 ==> r == c
    ensures n > 0 && (c.connected || connectOk) && insertOk ==>
              r.connected && r.written == c.written + n && r.failed == c.failed
    ensures n > 0 && !((c.connected || connectOk) && insertOk) ==>
              !r.connected && r.written == c.written && r.failed == c.failed + n
  {
    if n == 0 then c
    else if !c.connected && !connectOk then Counters(false, c.written, c.failed + n)
    else if insertOk then Counters(true, c.written + n, c.failed)
    else Counters(false, c.written, c.failed + n)
  }

  /** `get_statistics()`. */
  datatype Stats = Stats(logsWritten: nat, logsFailed: nat, queueSize: nat, connected: bool)

  class PostgreSQLHandler {
    const config: PgConfig
    /** The buffer, oldest record first. */
    var queue: seq<Fields>
    /** The writer's batch of pulled records. */
    var batch: seq<Fields>
    var connected: bool
    var running: bool
    /** The writer thread was started and has not yet finished. */
    var writerAlive: bool
    var logsWritten: nat
    var logsFailed: nat
    /** Every record ever emitted, and those the full buffer dropped. */
    ghost var emitted: nat
    ghost var dropped: nat

    function Counts(): Counters
      reads this
    {
      Counters(connected, logsWritten, logsFailed)
    }

    /** The buffer stays within its capacity, the batch stays below the
        batch size, nothing is lost or counted twice: every emitted record
        is buffered, batched, written, failed or dropped. */
    ghost predicate Valid()
      reads this
    {
      (config.bufferSize > 0 ==> |queue| <= config.bufferSize)
      && |batch| < (if config.batchSize >= 1 then config.batchSize else 1)
      && (running ==> writerAlive)
      && (!writerAlive ==> batch == [])
      && emitted == |queue| + |batch| + logsWritten + logsFailed + dropped
    }

    /** A new handler: empty buffer, zero counters. Only when the first
        connection succeeds is the writer started; otherwise the handler
        stays disconnected and nothing will ever write its records. */
    constructor (config: PgConfig, connectOk: bool)
      ensures Valid()
      ensures this.config == config && queue == [] && batch == []
      ensures logsWritten == 0 && logsFailed == 0
      ensures connected == connectOk && running == connectOk && writerAlive == connectOk
    {
      this.config := config;
      queue := [];
      batch := [];
      logsWritten := 0;
      logsFailed := 0;
      emitted := 0;
      dropped := 0;
      connected := connectOk;
      running := connectOk;
      writerAlive := connectOk;
    }

    /** Queues a record without blocking, dropping the oldest one when the
        buffer is full; accepted whether or not the handler is running. */
    method Emit(r: Fields)
      requires Valid()
      modifies this`queue, this`emitted, this`dropped
      ensures Valid()
      ensures queue == Enqueue(old(queue), r, config.bufferSize)
    {
      emitted := emitted + 1;
      if config.bufferSize > 0 && |queue| >= config.bufferSize {
        queue := queue[1..] + [r];
        dropped := dropped + 1;
      } else {
        queue := queue + [r];
      }
    }

    /** `_write_batch(b)` against the database oracle. */
    method WriteBatch(b: seq<Fields>, connectOk: bool, insertOk: bool)
      modifies this`connected, this`logsWritten, this`logsFailed
      ensures Counts() == WriteOutcome(old(Counts()), |b|, connectOk, insertOk)
    {
      if b == [] {
        return;
      }
      if !connected {
        if connectOk {
          connected := true;
        } else {
          connected := false;
          logsFailed := logsFailed + |b|;
          return;
        }
      }
      if insertOk {
        logsWritten := logsWritten + |b|;
      } else {
        connected := false;
        logsFailed := logsFailed + |b|;
      }
    }

    /** One turn of the writer loop. While running: pull the oldest record
        when there is one (an empty buffer is the pull timing out), and
        write and reset the batch only once it holds `batchSize` records, so
        a timeout never writes a partial batch. Once running is false: leave
        the loop, write what is left of the batch, and end the thread. */
    method WriterStep(connectOk: bool, insertOk: bool)
      requires Valid() && writerAlive
      modifies this
      ensures Valid()
      ensures running == old(running)
      ensures old(running) ==>
        var pulled := if old(queue) == [] then [] else [old(queue)[0]];
        var b := old(batch) + pulled;
        writerAlive
        && queue == (if old(queue) == [] then [] else old(queue)[1..])
        && (|b| >= config.batchSize ==>
              batch == [] && Counts() == WriteOutcome(old(Counts()), |b|, connectOk, insertOk))
        && (|b| < config.batchSize ==> batch == b && Counts() == old(Counts()))
      ensures !old(running) ==>
        !writerAlive && batch == [] && queue == old(queue)
        && Counts() == WriteOutcome(old(Counts()), |old(batch)|, connectOk, insertOk)
    {
      if running {
        if queue != [] {
          batch := batch + [queue[0]];
          queue := queue[1..];
        }
        if |batch| >= config.batchSize {
          WriteBatch(batch, connectOk, insertOk);
          batch := [];
        }
      } else {
        WriteBatch(batch, connectOk, insertOk);
        batch := [];
        writerAlive := false;
      }
    }

    /** `close()`: stop the loop and wait for the writer to write what is
        left of its batch. Records still in the buffer stay there unwritten,
        and the connection flag is not reset. */
    method Close(connectOk: bool, insertOk: bool)
      requires Valid()
      modifies this
      ensures Valid()
      ensures !running && !writerAlive && batch == [] && queue == old(queue)
      ensures Counts() == if old(writerAlive)
                          then WriteOutcome(old(Counts()), |old(batch)|, connectOk, insertOk)
                          else old(Counts())
    {
      running := false;
      if writerAlive {
        WriterStep(connectOk, insertOk);
      }
    }

    /** `get_statistics()`: the counters, the buffer length and the
        connection flag, read without changing anything. */
    method GetStatistics() returns (s: Stats)
      ensures s == Stats(logsWritten, logsFailed, |queue|, connected)
    {
      s := Stats(logsWritten, logsFailed, |queue|, connected);
    }
  }

  /** A handler whose database is unreachable from the start, with room for
      two records and batches of ten: three records are emitted, the first
      is dropped, and since the writer never started nothing is written or
      failed, even after `close()`. */
  method UnreachableDatabase(r1: Fields, r2: Fields, r3: Fields) returns (s: Stats)
    ensures s == Stats(0, 0, 2, false)
  {
    var config := DefaultPgConfig().(bufferSize := 2);
    var h := new PostgreSQLHandler(config, false);
    h.Emit(r1);
    h.Emit(r2);
    h.Emit(r3);
    assert h.queue == [r2, r3];
    h.Close(true, true);
    s := h.GetStatistics();
  }
}

=== FILE: json.dfy ===
/** JSON documents as the logging library hands them to Python's
    `json.dumps` (the extra data of a database row, the JSON formatter's
    field map) and reads them with `json.loads` (request bodies). An object
    is kept as its ordered list of members, because a Python `dict`
    remembers insertion order and `json.dumps` writes the members in that
    order. */
module Json {

  import opened Wrappers
  import opened Text

  /** The JSON values of RFC 8259, with integers for numbers. */
  datatype Value =
    | Null
    | Bool(b: bool)
    | Int(i: int)
    | Str(s: string)
    | Arr(items: seq<Value>)
    | Obj(members: seq<Member>)

  datatype Member = Member(key: string, value: Value)

  /** An insertion-ordered dictionary: the members in the order they were
      first inserted. */
  type Object = seq<Member>

  predicate DistinctKeys(o: Object) {
    forall i, j :: 0 <= i < j < |o| ==> o[i].key != o[j].key
  }

  /** What a Python value can be: every object in it has distinct keys. */
  predicate WellFormed(v: Value)
    decreases v
  {
    match v
    case Arr(items) => forall i :: 0 <= i < |items| ==> WellFormed(items[i])
    case Obj(ms) => DistinctKeys(ms) && forall i :: 0 <= i < |ms| ==> WellFormed(ms[i].value)
    case _ => true
  }

  function Keys(o: Object): set<string> {
    set m | m in o :: m.key
  }

  /** `d.get(k)`: the value of the first member named `k`. */
  function Get(o: Object, k: string): (r: Option<Value>)
    ensures r.Some? <==> k in Keys(o)
    ensures r.Some? ==> Member(k, r.value) in o
  {
    if o == [] then None
    else if o[0].key == k then Some(o[0].value)
    else
      assert Keys(o) == {o[0].key} + Keys(o[1..]);
      Get(o[1..], k)
  }

  /** `d[k] = v`: an existing key keeps its position and takes the new value;
      a new key is appended at the end (see `SetGet`, `SetKeys`, `SetNew`,
      `SetInPlace`). */
  function Set(o: Object, k: string, v: Value): Object {
    if o == [] then [Member(k, v)]
    else if o[0].key == k then [Member(k, v)] + o[1..]
    else [o[0]] + Set(o[1..], k, v)
  }

  /** After `d[k] = v`, `d[k]` is `v` and every other key reads as before. */
  lemma {:induction false} SetGet(o: Object, k: string, v: Value, k': string)
    ensures Get(Set(o, k, v), k') == if k' == k then Some(v) else Get(o, k')
    decreases |o|
  {
    if o != [] && o[0].key != k {
      SetGet(o[1..], k, v, k');
      assert Set(o, k, v)[1..] == Set(o[1..], k, v);
    }
  }

  /** `d[k] = v` adds `k` to the keys and nothing else. */
  lemma {:induction false} SetKeys(o: Object, k: string, v: Value)
    ensures Keys(Set(o, k, v)) == Keys(o) + {k}
    decreases |o|
  {
    if o != [] {
      assert Keys(o) == {o[0].key} + Keys(o[1..]);
      if o[0].key == k {
        assert Keys(Set(o, k, v)) == {k} + Keys(o[1..]);
      } else {
        SetKeys(o[1..], k, v);
        var r := Set(o, k, v);
        assert Keys(r) == {o[0].key} + Keys(r[1..]);
      }
    }
  }

  /** A new key goes at the end. */
  lemma {:induction false} SetNew(o: Object, k: string, v: Value)
    requires k !in Keys(o)
    ensures Set(o, k, v) == o + [Member(k, v)]
    decreases |o|
  {
    if o != [] {
      assert o[0] in o;
      assert Keys(o[1..]) <= Keys(o);
      SetNew(o[1..], k, v);
      assert o == [o[0]] + o[1..];
    }
  }

  /** Assigning an existing key changes no member's name or place. */
  lemma {:induction false} SetInPlace(o: Object, k: string, v: Value)
    requires k in Keys(o)
    ensures |Set(o, k, v)| == |o|
    ensures forall i :: 0 <= i < |o| ==> Set(o, k, v)[i].key == o[i].key
    decreases |o|
  {
    assert Keys(o) == {o[0].key} + Keys(o[1..]);
    if o[0].key != k {
      SetInPlace(o[1..], k, v);
      assert Set(o, k, v) == [o[0]] + Set(o[1..], k, v);
    }
  }

  /** `d.update(extra)`: every member of `extra`, in order, through `Set`. */
  function Update(o: Object, extra: Object): Object
    decreases |extra|
  {
    if extra == [] then o else Update(Set(o, extra[0].key, extra[0].value), extra[1..])
  }

  /** Storing members with well-formed values one by one, repeated keys
      included, keeps a dictionary well formed. */
  lemma {:induction false} UpdateValuesWellFormed(o: Object, extra: Object)
    requires WellFormed(Obj(o))
    requires forall i :: 0 <= i < |extra| ==> WellFormed(extra[i].value)
    ensures WellFormed(Obj(Update(o, extra)))
    decreases |extra|
  {
    if extra != [] {
      SetWellFormed(o, extra[0].key, extra[0].value);
      assert forall i :: 0 <= i < |extra[1..]| ==> extra[1..][i] == extra[i + 1];
      UpdateValuesWellFormed(Set(o, extra[0].key, extra[0].value), extra[1..]);
    }
  }

  lemma DistinctTail(o: Object)
    requires o != [] && DistinctKeys(o)
    ensures DistinctKeys(o[1..]) && o[0].key !in Keys(o[1..])
  {
    forall i, j | 0 <= i < j < |o[1..]| ensures o[1..][i].key != o[1..][j].key {
      assert o[1..][i] == o[i + 1] && o[1..][j] == o[j + 1];
    }
    forall m | m in o[1..] ensures m.key != o[0].key {
      var i :| 0 <= i < |o[1..]| && o[1..][i] == m;
      assert o[i + 1] == m;
    }
  }

  /** After `d.update(extra)` a key of `extra` reads as `extra` has it and
      any other key as before. */
  lemma {:induction false} UpdateGet(o: Object, extra: Object, k: string)
    requires DistinctKeys(extra)
    ensures Get(Update(o, extra), k) == if k in Keys(extra) then Get(extra, k) else Get(o, k)
    decreases |extra|
  {
    if extra != [] {
      var o' := Set(o, extra[0].key, extra[0].value);
      assert Keys(extra) == {extra[0].key} + Keys(extra[1..]);
      DistinctTail(extra);
      UpdateGet(o', extra[1..], k);
      SetGet(o, extra[0].key, extra[0].value, k);
    }
  }

  /** `d.update(extra)` adds the keys of `extra` and nothing else. */
  lemma {:induction false} UpdateKeys(o: Object, extra: Object)
    ensures Keys(Update(o, extra)) == Keys(o) + Keys(extra)
    decreases |extra|
  {
    if extra != [] {
      assert Keys(extra) == {extra[0].key} + Keys(extra[1..]);
      SetKeys(o, extra[0].key, extra[0].value);
      UpdateKeys(Set(o, extra[0].key, extra[0].value), extra[1..]);
    }
  }

  /** Storing members with distinct keys one by one keeps them all, in
      order, after the members already there. */
  lemma {:induction false} UpdateDistinct(o: Object, extra: Object)
    requires DistinctKeys(o + extra)
    ensures Update(o, extra) == o + extra
    decreases |extra|
  {
    if extra != [] {
      assert extra[0].key !in Keys(o) by {
        forall m | m in o ensures m.key != extra[0].key {
          var i :| 0 <= i < |o| && o[i] == m;
          assert (o + extra)[i] == m && (o + extra)[|o|] == extra[0];
        }
      }
      SetNew(o, extra[0].key, extra[0].value);
      assert o + extra == (o + [extra[0]]) + extra[1..];
      UpdateDistinct(o + [extra[0]], extra[1..]);
    }
  }

  /** `d[k] = v` keeps a Python dictionary a Python dictionary: keys stay
      distinct and every value stays well formed. */
  lemma {:induction false} SetWellFormed(o: Object, k: string, v: Value)
    requires WellFormed(Obj(o)) && WellFormed(v)
    ensures WellFormed(Obj(Set(o, k, v)))
    decreases |o|
  {
    if o == [] {
    } else if o[0].key == k {
      ReplaceHeadWellFormed(o, k, v);
    } else {
      DistinctTail(o);
      assert WellFormed(Obj(o[1..])) by {
        forall i | 0 <= i < |o[1..]| ensures WellFormed(o[1..][i].value) {
          assert o[1..][i] == o[i + 1];
        }
      }
      SetWellFormed(o[1..], k, v);
      SetKeys(o[1..], k, v);
      ConsWellFormed(o[0], Set(o[1..], k, v));
      assert Set(o, k, v) == [o[0]] + Set(o[1..], k, v);
    }
  }

  lemma ReplaceHeadWellFormed(o: Object, k: string, v: Value)
    requires o != [] && o[0].key == k
    requires WellFormed(Obj(o)) && WellFormed(v)
    ensures WellFormed(Obj([Member(k, v)] + o[1..]))
  {
    var r := [Member(k, v)] + o[1..];
    forall i, j | 0 <= i < j < |r| ensures r[i].key != r[j].key {
      assert r[j] == o[j];
      if i > 0 { assert r[i] == o[i]; }
    }
    forall i | 0 <= i < |r| ensures WellFormed(r[i].value) {
      if i > 0 { assert r[i] == o[i]; }
    }
  }

  lemma ConsWellFormed(m: Member, t: Object)
    requires WellFormed(Obj(t)) && WellFormed(m.value) && m.key !in Keys(t)
    ensures WellFormed(Obj([m] + t))
  {
    var r := [m] + t;
    forall i, j | 0 <= i < j < |r| ensures r[i].key != r[j].key {
      assert r[j] == t[j - 1];
      if i == 0 {
        assert t[j - 1] in t;
      } else {
        assert r[i] == t[i - 1];
      }
    }
    forall i | 0 <= i < |r| ensures WellFormed(r[i].value) {
      if i > 0 { assert r[i] == t[i - 1]; }
    }
  }

  /** `d.update(extra)` with a well-formed `extra` keeps `d` well formed. */
  lemma {:induction false} UpdateWellFormed(o: Object, extra: Object)
    requires WellFormed(Obj(o)) && WellFormed(Obj(extra))
    ensures WellFormed(Obj(Update(o, extra)))
    decreases |extra|
  {
    if extra != [] {
      SetWellFormed(o, extra[0].key, extra[0].value);
      DistinctTail(extra);
      assert WellFormed(Obj(extra[1..])) by {
        forall i | 0 <= i < |extra[1..]| ensures WellFormed(extra[1..][i].value) {
          assert extra[1..][i] == extra[i + 1];
        }
      }
      UpdateWellFormed(Set(o, extra[0].key, extra[0].value), extra[1..]);
    }
  }

  /** Members already in a dictionary keep their places under `d[k] = v`. */
  lemma {:induction false} SetKeepsOrder(o: Object, k: string, v: Value)
    ensures |Set(o, k, v)| >= |o|
    ensures forall i :: 0 <= i < |o| ==> Set(o, k, v)[i].key == o[i].key
    decreases |o|
  {
    if o != [] && o[0].key != k {
      SetKeepsOrder(o[1..], k, v);
      assert Set(o, k, v) == [o[0]] + Set(o[1..], k, v);
    }
  }

  /** Members already in a dictionary keep their places under
      `d.update(extra)`. */
  lemma {:induction false} UpdateKeepsOrder(o: Object, extra: Object)
    ensures |Update(o, extra)| >= |o|
    ensures forall i :: 0 <= i < |o| ==> Update(o, extra)[i].key == o[i].key
    decreases |extra|
  {
    if extra != [] {
      var o' := Set(o, extra[0].key, extra[0].value);
      SetKeepsOrder(o, extra[0].key, extra[0].value);
      UpdateKeepsOrder(o', extra[1..]);
    }
  }

  /** The value of the last member named `k`: what a dictionary built by
      storing `ms` one by one holds for `k`. */
  function LastValue(ms: seq<Member>, k: string): (r: Option<Value>)
    ensures r.Some? <==> k in Keys(ms)
    ensures r.Some? ==> Member(k, r.value) in ms
  {
    if ms == [] then None
    else
      var init, last := ms[..|ms| - 1], ms[|ms| - 1];
      assert ms == init + [last];
      assert Keys(ms) == Keys(init) + {last.key};
      if last.key == k then Some(last.value) else LastValue(init, k)
  }

  /** The keys of `ms` in the order of their first occurrence. */
  function FirstKeys(ms: seq<Member>): seq<string> {
    if ms == [] then []
    else
      var ks := FirstKeys(ms[..|ms| - 1]);
      if ms[|ms| - 1].key in ks then ks else ks + [ms[|ms| - 1].key]
  }

  /** The keys of a dictionary in their order. */
  function KeySeq(o: Object): seq<string> {
    seq(|o|, i requires 0 <= i < |o| => o[i].key)
  }

  lemma KeySeqKeys(o: Object, k: string)
    ensures k in KeySeq(o) <==> k in Keys(o)
  {
    if k in KeySeq(o) {
      var i :| 0 <= i < |o| && KeySeq(o)[i] == k;
      assert o[i] in o;
    }
    if k in Keys(o) {
      var m :| m in o && m.key == k;
      var i :| 0 <= i < |o| && o[i] == m;
      assert KeySeq(o)[i] == k;
    }
  }

  /** Storing one more member is one more `d[k] = v`. */
  lemma {:induction false} UpdateSnoc(o: Object, ms: seq<Member>, m: Member)
    ensures Update(o, ms + [m]) == Set(Update(o, ms), m.key, m.value)
    decreases |ms|
  {
    if ms != [] {
      assert (ms + [m])[1..] == ms[1..] + [m];
      UpdateSnoc(Set(o, ms[0].key, ms[0].value), ms[1..], m);
    }
  }

  lemma {:induction false} FirstKeysIn(ms: seq<Member>, k: string)
    ensures k in FirstKeys(ms) <==> k in Keys(ms)
    decreases |ms|
  {
    if ms != [] {
      var init, last := ms[..|ms| - 1], ms[|ms| - 1];
      assert ms == init + [last];
      assert Keys(ms) == Keys(init) + {last.key};
      FirstKeysIn(init, k);
    }
  }

  /** What storing members one by one into an empty dictionary gives, as
      Python's decoder builds an object: each key once, in the order of its
      first occurrence, holding the value of its last occurrence. */
  lemma {:induction false} ReadMembers(ms: seq<Member>)
    ensures KeySeq(Update([], ms)) == FirstKeys(ms)
    ensures forall k :: Get(Update([], ms), k) == LastValue(ms, k)
    decreases |ms|
  {
    if ms != [] {
      var init, m := ms[..|ms| - 1], ms[|ms| - 1];
      assert ms == init + [m];
      var o := Update([], init);
      UpdateSnoc([], init, m);
      ReadMembers(init);
      forall k
        ensures Get(Update([], ms), k) == LastValue(ms, k)
      {
        SetGet(o, m.key, m.value, k);
      }
      KeySeqKeys(o, m.key);
      FirstKeysIn(init, m.key);
      UpdateKeys([], init);
      if m.key in FirstKeys(init) {
        SetInPlace(o, m.key, m.value);
      } else {
        SetNew(o, m.key, m.value);
      }
    }
  }

  // ---------------------------------------------------------------- output

  function HexDigit(d: nat): (c: char)
    requires d < 16
  {
    if d < 10 then DigitChar(d) else ('a' as int + d - 10) as char
  }

  /** Four lower-case hex digits, as in `'\\u{0:04x}'.format(n)`. */
  function Hex4(n: nat): (s: string)
    requires n < 0x10000
    ensures |s| == 4
  {
    [HexDigit(n / 4096), HexDigit(n / 256 % 16), HexDigit(n / 16 % 16), HexDigit(n % 16)]
  }

  /** How `json.dumps` writes one character of a string. With `asciiOnly`
      (the default `ensure_ascii=True`) everything outside space..tilde is
      escaped, code points above U+FFFF as a UTF-16 surrogate pair; without it
      (`ensure_ascii=False`) only the quote, the backslash and control
      characters are. */
  function EscapeChar(c: char, asciiOnly: bool): (s: string)
    ensures |s| >= 1
  {
    var n := c as int;
    if c == '"' then "\\\""
    else if c == '\\' then "\\\\"
    else if c == '\n' then "\\n"
    else if c == '\r' then "\\r"
    else if c == '\t' then "\\t"
    else if n == 8 then "\\b"
    else if n == 12 then "\\f"
    else if n < 32 then "\\u" + Hex4(n)
    else if asciiOnly && n > 126 then
      if n < 0x10000 then "\\u" + Hex4(n)
      else
        var m := n - 0x10000;
        "\\u" + Hex4(0xD800 + m / 1024) + "\\u" + Hex4(0xDC00 + m % 1024)
    else [c]
  }

  function EscapeString(s: string, asciiOnly: bool): string
    decreases |s|
  {
    if s == [] then [] else EscapeChar(s[0], asciiOnly) + EscapeString(s[1..], asciiOnly)
  }

  function DumpString(s: string, asciiOnly: bool): string {
    "\"" + EscapeString(s, asciiOnly) + "\""
  }

  /** `json.dumps(v, ensure_ascii=asciiOnly)` with the default separators
      `", "` and `": "`. */
  function DumpValue(v: Value, asciiOnly: bool): string
    decreases v
  {
    match v
    case Null => "null"
    case Bool(b) => if b then "true" else "false"
    case Int(i) => IntToString(i)
    case Str(s) => DumpString(s, asciiOnly)
    case Arr(items) => "[" + DumpItems(items, asciiOnly) + "]"
    case Obj(ms) => "{" + DumpMembers(ms, asciiOnly) + "}"
  }

  function DumpItems(items: seq<Value>, asciiOnly: bool): string
    decreases items
  {
    if items == [] then []
    else if |items| == 1 then DumpValue(items[0], asciiOnly)
    else DumpValue(items[0], asciiOnly) + ", " + DumpItems(items[1..], asciiOnly)
  }

  function DumpMember(m: Member, asciiOnly: bool): string
    decreases m
  {
    DumpString(m.key, asciiOnly) + ": " + DumpValue(m.value, asciiOnly)
  }

  function DumpMembers(o: Object, asciiOnly: bool): string
    decreases o
  {
    if o == [] then []
    else if |o| == 1 then DumpMember(o[0], asciiOnly)
    else DumpMember(o[0], asciiOnly) + ", " + DumpMembers(o[1..], asciiOnly)
  }

  /** `json.dumps(d, ensure_ascii=asciiOnly)` for a dictionary: braces
      around the members, and `json.loads` reads a Python dictionary back
      from the text unchanged, member order included. */
  function Dump(o: Object, asciiOnly: bool): (text: string)
    ensures |text| >= 2 && text[0] == '{' && text[|text| - 1] == '}'
    ensures WellFormed(Obj(o)) ==> Parse(text) == Some(Obj(o))
  {
    if WellFormed(Obj(o)) then
      DumpParse(Obj(o), asciiOnly);
      DumpValue(Obj(o), asciiOnly)
    else DumpValue(Obj(o), asciiOnly)
  }

  // ----------------------------------------------------------------- input

  predicate IsWs(c: char) { c == ' ' || c == '\t' || c == '\n' || c == '\r' }

  function SkipWs(s: string): (r: string)
    ensures |r| <= |s|
  {
    if s != [] && IsWs(s[0]) then SkipWs(s[1..]) else s
  }

  predicate IsHex(c: char) { ('0' <= c <= '9') || ('a' <= c <= 'f') || ('A' <= c <= 'F') }

  function HexValue(c: char): (d: nat)
    requires IsHex(c)
    ensures d < 16
  {
    if '0' <= c <= '9' then c as int - '0' as int
    else if 'a' <= c <= 'f' then c as int - 'a' as int + 10
    else c as int - 'A' as int + 10
  }

  /** The four hex digits after `\u`, if they are there. */
  function ParseHex4(s: string): (r: Option<nat>)
    ensures r.Some? ==> |s| >= 4 && r.value < 0x10000
  {
    if |s| >= 4 && IsHex(s[0]) && IsHex(s[1]) && IsHex(s[2]) && IsHex(s[3]) then
      Some(HexValue(s[0]) * 4096 + HexValue(s[1]) * 256 + HexValue(s[2]) * 16 + HexValue(s[3]))
    else None
  }

  predicate IsScalar(n: int) { 0 <= n < 0xD800 || 0xE000 <= n < 0x110000 }

  /** The character named by `\uXXXX` (after the `\u`), joining a surrogate
      pair written as two escapes. A lone surrogate, which a Python string
      can hold but a Unicode scalar value cannot, is refused. */
  function ParseUnicodeEscape(s: string): (r: Option<(char, string)>)
    ensures r.Some? ==> |r.value.1| < |s|
  {
    match ParseHex4(s)
    case None => None
    case Some(hi) =>
      if 0xD800 <= hi < 0xDC00 then
        if |s| >= 6 && s[4] == '\\' && s[5] == 'u' then
          match ParseHex4(s[6..])
          case None => None
          case Some(lo) =>
            if 0xDC00 <= lo < 0xE000 then
              Some((((hi - 0xD800) * 1024 + (lo - 0xDC00) + 0x10000) as char, s[10..]))
            else None
        else None
      else if IsScalar(hi) then Some((hi as char, s[4..]))
      else None
  }

  /** One escape sequence, after its backslash. */
  function ParseEscape(s: string): (r: Option<(char, string)>)
    ensures r.Some? ==> |r.value.1| < |s|
  {
    if s == [] then None
    else if s[0] == '"' then Some(('"', s[1..]))
    else if s[0] == '\\' then Some(('\\', s[1..]))
    else if s[0] == '/' then Some(('/', s[1..]))
    else if s[0] == 'b' then Some((8 as char, s[1..]))
    else if s[0] == 'f' then Some((12 as char, s[1..]))
    else if s[0] == 'n' then Some(('\n', s[1..]))
    else if s[0] == 'r' then Some(('\r', s[1..]))
    else if s[0] == 't' then Some(('\t', s[1..]))
    else if s[0] == 'u' then
      match ParseUnicodeEscape(s[1..])
      case None => None
      case Some((c, rest)) => Some((c, rest))
    else None
  }

  function Prepend(c: char, r: Option<(string, string)>): (p: Option<(string, string)>)
    ensures p.Some? <==> r.Some?
    ensures p.Some? ==> p.value == ([c] + r.value.0, r.value.1)
  {
    match r
    case None => None
    case Some((t, after)) => Some(([c] + t, after))
  }

  /** The rest of a string after its opening quote: its characters and the
      text after the closing quote. Raw control characters are refused, as
      `json.loads` does by default. */
  function ParseStringBody(s: string): (r: Option<(string, string)>)
    ensures r.Some? ==> |r.value.1| < |s|
    decreases |s|
  {
    if s == [] then None
    else if s[0] == '"' then Some(([], s[1..]))
    else if s[0] == '\\' then
      match ParseEscape(s[1..])
      case None => None
      case Some((c, rest)) => Prepend(c, ParseStringBody(rest))
    else if (s[0] as int) < 32 then None
    else Prepend(s[0], ParseStringBody(s[1..]))
  }

  function ParseString(s: string): (r: Option<(string, string)>)
    ensures r.Some? ==> |r.value.1| < |s|
  {
    if s != [] && s[0] == '"' then ParseStringBody(s[1..]) else None
  }

  /** The longest run of digits at the start of `s`. */
  function DigitRun(s: string): (n: nat)
    ensures n <= |s|
    ensures forall i :: 0 <= i < n ==> IsDigit(s[i])
    ensures n == |s| || !IsDigit(s[n])
  {
    if s != [] && IsDigit(s[0]) then 1 + DigitRun(s[1..]) else 0
  }

  /** The unsigned part of a JSON number, `0|[1-9][0-9]*`. A fraction or an
      exponent after it (a Python float) is outside this model. */
  function ParseMagnitude(t: string): (r: Option<(nat, string)>)
    ensures r.Some? ==> |r.value.1| < |t|
  {
    var n := if t != [] && t[0] == '0' then 1 else DigitRun(t);
    if n == 0 then None
    else
      var rest := t[n..];
      if rest != [] && (rest[0] == '.' || rest[0] == 'e' || rest[0] == 'E') then None
      else Some((DigitsValue(t[..n]), rest))
  }

  /** A JSON integer: an optional minus sign and a magnitude. */
  function ParseNumber(s: string): (r: Option<(int, string)>)
    ensures r.Some? ==> |r.value.1| < |s|
  {
    if s != [] && s[0] == '-' then
      match ParseMagnitude(s[1..])
      case None => None
      case Some((m, rest)) => Some((-(m as int), rest))
    else
      match ParseMagnitude(s)
      case None => None
      case Some((m, rest)) => Some((m as int, rest))
  }

  /** One value at the start of `s`, chosen by its first character as
      Python's scanner does. Objects, arrays, members and elements are
      parsed by mutual recursion; every step consumes input. */
  function ParseValue(s: string): (r: Option<(Value, string)>)
    ensures r.Some? ==> |r.value.1| < |s|
    ensures r.Some? ==> WellFormed(r.value.0)
    decreases |s|, 0
  {
    if s == [] then None
    else if s[0] == 'n' then (if StartsWith(s, "null") then Some((Null, s[4..])) else None)
    else if s[0] == 't' then (if StartsWith(s, "true") then Some((Bool(true), s[4..])) else None)
    else if s[0] == 'f' then (if StartsWith(s, "false") then Some((Bool(false), s[5..])) else None)
    else if s[0] == '"' then
      match ParseString(s)
      case None => None
      case Some((t, rest)) => Some((Str(t), rest))
    else if s[0] == '{' then ParseObject(s[1..])
    else if s[0] == '[' then ParseArray(s[1..])
    else
      match ParseNumber(s)
      case None => None
      case Some((i, rest)) => Some((Int(i), rest))
  }

  /** An object after its opening brace. Like Python's decoder, the members
      are collected in order and then stored one by one, so a repeated key
      keeps its first position and its last value. */
  function ParseObject(s: string): (r: Option<(Value, string)>)
    ensures r.Some? ==> |r.value.1| < |s|
    ensures r.Some? ==> WellFormed(r.value.0)
    decreases |s|, 3
  {
    var s1 := SkipWs(s);
    if s1 != [] && s1[0] == '}' then Some((Obj([]), s1[1..]))
    else
      match ParseMembers(s1)
      case None => None
      case Some((ms, rest)) =>
        UpdateValuesWellFormed([], ms);
        Some((Obj(Update([], ms)), rest))
  }

  /** Members from the start of one to the closing brace, in the order they
      are written; no trailing comma. */
  function ParseMembers(s: string): (r: Option<(seq<Member>, string)>)
    ensures r.Some? ==> |r.value.1| < |s|
    ensures r.Some? ==> forall i :: 0 <= i < |r.value.0| ==> WellFormed(r.value.0[i].value)
    decreases |s|, 2
  {
    match ParseMember(s)
    case None => None
    case Some((m, s3)) =>
      var s4 := SkipWs(s3);
      if s4 != [] && s4[0] == ',' then
        match ParseMembers(SkipWs(s4[1..]))
        case None => None
        case Some((ms, rest)) => Some(([m] + ms, rest))
      else if s4 != [] && s4[0] == '}' then Some(([m], s4[1..]))
      else None
  }

  /** `"key"`, optional white space, a colon, optional white space, a value. */
  function ParseMember(s: string): (r: Option<(Member, string)>)
    ensures r.Some? ==> |r.value.1| < |s|
    ensures r.Some? ==> WellFormed(r.value.0.value)
    decreases |s|, 1
  {
    match ParseString(s)
    case None => None
    case Some((k, s1)) =>
      var s2 := SkipWs(s1);
      if s2 == [] || s2[0] != ':' then None
      else
        match ParseValue(SkipWs(s2[1..]))
        case None => None
        case Some((v, s3)) => Some((Member(k, v), s3))
  }

  /** An array after its opening bracket. */
  function ParseArray(s: string): (r: Option<(Value, string)>)
    ensures r.Some? ==> |r.value.1| < |s|
    ensures r.Some? ==> WellFormed(r.value.0)
    decreases |s|, 3
  {
    var s1 := SkipWs(s);
    if s1 != [] && s1[0] == ']' then Some((Arr([]), s1[1..]))
    else
      match ParseElements(s1)
      case None => None
      case Some((items, rest)) => Some((Arr(items), rest))
  }

  /** Elements from the start of one to the closing bracket. */
  function ParseElements(s: string): (r: Option<(seq<Value>, string)>)
    ensures r.Some? ==> |r.value.1| < |s|
    ensures r.Some? ==> forall i :: 0 <= i < |r.value.0| ==> WellFormed(r.value.0[i])
    decreases |s|, 2
  {
    match ParseValue(s)
    case None => None
    case Some((v, s3)) =>
      var s4 := SkipWs(s3);
      if s4 != [] && s4[0] == ',' then
        match ParseElements(SkipWs(s4[1..]))
        case None => None
        case Some((items, rest)) => Some(([v] + items, rest))
      else if s4 != [] && s4[0] == ']' then Some(([v], s4[1..]))
      else None
  }

  /** `json.loads(text)`: one value with optional white space around it;
      `None` for malformed text and for documents outside this model
      (floating-point numbers, lone surrogates). What it reads is a Python
      value: a repeated key in an object keeps one member. */
  function Parse(text: string): (r: Option<Value>)
    ensures r.Some? ==> WellFormed(r.value)
  {
    match ParseValue(SkipWs(text))
    case None => None
    case Some((v, rest)) => if SkipWs(rest) == [] then Some(v) else None
  }

  // ------------------------------------------------------------ round trip

  lemma HexDigitValue(d: nat)
    requires d < 16
    ensures IsHex(HexDigit(d)) && HexValue(HexDigit(d)) == d
  {
  }

  lemma Hex4Sum(n: nat)
    requires n < 0x10000
    ensures (n / 4096) * 4096 + (n / 256 % 16) * 256 + (n / 16 % 16) * 16 + n % 16 == n
  {
    var q1, q2, q3 := n / 16, n / 256, n / 4096;
    assert n == q1 * 16 + n % 16;
    assert q2 == q1 / 16 && q1 == q2 * 16 + q1 % 16;
    assert q3 == q2 / 16 && q2 == q3 * 16 + q2 % 16;
  }

  lemma Hex4Prefix(n: nat, rest: string)
    requires n < 0x10000
    ensures ParseHex4(Hex4(n) + rest) == Some(n)
    ensures (Hex4(n) + rest)[4..] == rest
  {
    var s := Hex4(n) + rest;
    HexDigitValue(n / 4096);
    HexDigitValue(n / 256 % 16);
    HexDigitValue(n / 16 % 16);
    HexDigitValue(n % 16);
    Hex4Sum(n);
    assert s[..4] == Hex4(n);
  }

  /** `\uXXXX` for a character of the Basic Multilingual Plane. */
  lemma BmpEscape(c: char, rest: string)
    requires (c as int) < 0x10000
    ensures ParseEscape("u" + Hex4(c as int) + rest) == Some((c, rest))
  {
    var s := "u" + Hex4(c as int) + rest;
    Hex4Prefix(c as int, rest);
    assert s[1..] == Hex4(c as int) + rest;
  }

  /** Two escapes `\uD8xx\uDCxx` read back as the one character they
      encode. */
  lemma SurrogatePair(hi: nat, lo: nat, rest: string)
    requires 0xD800 <= hi < 0xDC00 && 0xDC00 <= lo < 0xE000
    ensures ParseEscape("u" + Hex4(hi) + "\\u" + Hex4(lo) + rest)
      == Some((((hi - 0xD800) * 1024 + (lo - 0xDC00) + 0x10000) as char, rest))
  {
    var u := Hex4(hi) + "\\u" + Hex4(lo) + rest;
    var s := "u" + Hex4(hi) + "\\u" + Hex4(lo) + rest;
    assert s[1..] == u;
    Hex4Prefix(hi, "\\u" + Hex4(lo) + rest);
    assert u == Hex4(hi) + ("\\u" + Hex4(lo) + rest);
    Hex4Prefix(lo, rest);
    assert u[6..] == Hex4(lo) + rest;
    assert u[10..] == rest;
  }

  /** A surrogate pair `\uD8xx\uDCxx` for a character above U+FFFF. */
  lemma SurrogateEscape(c: char, rest: string)
    requires (c as int) >= 0x10000
    ensures var m := c as int - 0x10000;
      ParseEscape("u" + Hex4(0xD800 + m / 1024) + "\\u" + Hex4(0xDC00 + m % 1024) + rest) == Some((c, rest))
  {
    var m := c as int - 0x10000;
    SurrogatePair(0xD800 + m / 1024, 0xDC00 + m % 1024, rest);
    assert (m / 1024) * 1024 + m % 1024 == m;
  }

  /** Every escape `EscapeChar` writes is an escape `ParseEscape` reads
      back as the same character. */
  lemma EscapeParses(c: char, asciiOnly: bool, rest: string)
    requires EscapeChar(c, asciiOnly) != [c]
    ensures var s := EscapeChar(c, asciiOnly) + rest;
      s[0] == '\\' && ParseEscape(s[1..]) == Some((c, rest))
  {
    var e := EscapeChar(c, asciiOnly);
    var s := e + rest;
    var n := c as int;
    if c == '"' || c == '\\' || c == '\n' || c == '\r' || c == '\t' || n == 8 || n == 12 {
      assert s[1..] == [e[1]] + rest;
    } else if n < 32 || n < 0x10000 {
      assert e == "\\u" + Hex4(n);
      assert s[1..] == "u" + Hex4(n) + rest;
      BmpEscape(c, rest);
    } else {
      var m := n - 0x10000;
      assert e == "\\u" + Hex4(0xD800 + m / 1024) + "\\u" + Hex4(0xDC00 + m % 1024);
      assert s[1..] == "u" + Hex4(0xD800 + m / 1024) + "\\u" + Hex4(0xDC00 + m % 1024) + rest;
      SurrogateEscape(c, rest);
    }
  }

  /** Reading back one escaped character. */
  lemma EscapeCharRoundTrip(c: char, asciiOnly: bool, rest: string)
    ensures ParseStringBody(EscapeChar(c, asciiOnly) + rest) == Prepend(c, ParseStringBody(rest))
  {
    var s := EscapeChar(c, asciiOnly) + rest;
    if EscapeChar(c, asciiOnly) == [c] {
      assert s[0] == c && s[1..] == rest;
    } else {
      EscapeParses(c, asciiOnly, rest);
    }
  }

  lemma {:induction false} EscapeStringRoundTrip(t: string, asciiOnly: bool, rest: string)
    ensures ParseStringBody(EscapeString(t, asciiOnly) + "\"" + rest) == Some((t, rest))
    decreases |t|
  {
    if t == [] {
      assert EscapeString(t, asciiOnly) + "\"" + rest == "\"" + rest;
    } else {
      var tail := EscapeString(t[1..], asciiOnly) + "\"" + rest;
      assert EscapeString(t, asciiOnly) + "\"" + rest == EscapeChar(t[0], asciiOnly) + tail;
      EscapeCharRoundTrip(t[0], asciiOnly, tail);
      EscapeStringRoundTrip(t[1..], asciiOnly, rest);
      assert [t[0]] + t[1..] == t;
    }
  }

  lemma StringRoundTrip(t: string, asciiOnly: bool, rest: string)
    ensures ParseString(DumpString(t, asciiOnly) + rest) == Some((t, rest))
  {
    var s := DumpString(t, asciiOnly) + rest;
    assert s[1..] == EscapeString(t, asciiOnly) + "\"" + rest;
    EscapeStringRoundTrip(t, asciiOnly, rest);
  }

  lemma {:induction false} NatLeadingDigit(n: nat)
    ensures n >= 10 ==> NatToString(n)[0] != '0'
    ensures n < 10 ==> NatToString(n) == [DigitChar(n)]
    decreases n
  {
    if n >= 10 {
      NatLeadingDigit(n / 10);
    }
  }

  lemma {:induction false} DigitRunOf(digits: string, rest: string)
    requires forall i :: 0 <= i < |digits| ==> IsDigit(digits[i])
    requires rest == [] || !IsDigit(rest[0])
    ensures DigitRun(digits + rest) == |digits|
    decreases |digits|
  {
    if digits == [] {
      assert digits + rest == rest;
    } else {
      assert (digits + rest)[1..] == digits[1..] + rest;
      DigitRunOf(digits[1..], rest);
    }
  }

  predicate EndsNumber(rest: string) {
    rest == [] || !(IsDigit(rest[0]) || rest[0] == '.' || rest[0] == 'e' || rest[0] == 'E')
  }

  lemma MagnitudeRoundTrip(n: nat, rest: string)
    requires EndsNumber(rest)
    ensures ParseMagnitude(NatToString(n) + rest) == Some((n, rest))
  {
    var d := NatToString(n);
    var t := d + rest;
    DigitsOfNat(n);
    NatLeadingDigit(n);
    if n == 0 {
      assert t[..1] == d;
    } else {
      DigitRunOf(d, rest);
      assert t[..|d|] == d;
    }
    assert t[|d|..] == rest;
  }

  lemma NegativeRoundTrip(n: nat, rest: string)
    requires EndsNumber(rest)
    ensures ParseNumber("-" + (NatToString(n) + rest)) == Some((-(n as int), rest))
  {
    MagnitudeRoundTrip(n, rest);
    NegativeNumber(NatToString(n) + rest, n, rest);
  }

  /** A minus sign before a magnitude negates it. */
  lemma NegativeNumber(t: string, m: nat, rest: string)
    requires ParseMagnitude(t) == Some((m, rest))
    ensures ParseNumber("-" + t) == Some((-(m as int), rest))
  {
    assert ("-" + t)[1..] == t;
  }

  lemma NonNegativeRoundTrip(n: nat, rest: string)
    requires EndsNumber(rest)
    ensures ParseNumber(NatToString(n) + rest) == Some((n, rest))
  {
    MagnitudeRoundTrip(n, rest);
    assert IsDigit(NatToString(n)[0]);
  }

  lemma MinusText(i: int, rest: string)
    requires i < 0
    ensures IntToString(i) + rest == "-" + (NatToString(-i) + rest)
  {
    var digits := NatToString(-i);
    assert IntToString(i) == "-" + digits;
    assert ("-" + digits) + rest == "-" + (digits + rest);
  }

  lemma NumberRoundTrip(i: int, rest: string)
    requires EndsNumber(rest)
    ensures ParseNumber(IntToString(i) + rest) == Some((i, rest))
  {
    if i < 0 {
      NegativeRoundTrip(-i, rest);
      MinusText(i, rest);
    } else {
      NonNegativeRoundTrip(i, rest);
    }
  }

  /** What may follow a value inside a document, or end it. */
  predicate Follows(rest: string) {
    rest == [] || rest[0] == ',' || rest[0] == '}' || rest[0] == ']'
  }

  /** A written value never starts with white space. */
  lemma ValueStart(v: Value, asciiOnly: bool)
    ensures DumpValue(v, asciiOnly) != []
    ensures !IsWs(DumpValue(v, asciiOnly)[0]) && DumpValue(v, asciiOnly)[0] != ']'
  {
    match v
    case Int(i) =>
      if i >= 0 {
        assert IsDigit(NatToString(i)[0]);
      }
    case _ =>
  }

  lemma IntValueRoundTrip(i: int, rest: string)
    requires Follows(rest)
    ensures ParseValue(IntToString(i) + rest) == Some((Int(i), rest))
  {
    var s := IntToString(i) + rest;
    NumberRoundTrip(i, rest);
    if i >= 0 {
      NatLeadingDigit(i);
      assert IsDigit(s[0]);
    } else {
      assert s[0] == '-';
    }
  }

  lemma ScalarRoundTrip(v: Value, asciiOnly: bool, rest: string)
    requires !v.Arr? && !v.Obj? && Follows(rest)
    ensures ParseValue(DumpValue(v, asciiOnly) + rest) == Some((v, rest))
  {
    var s := DumpValue(v, asciiOnly) + rest;
    match v
    case Null => assert s[..4] == "null";
    case Bool(b) =>
      if b { assert s[..4] == "true"; } else { assert s[..5] == "false"; }
    case Int(i) => IntValueRoundTrip(i, rest);
    case Str(t) =>
      StringRoundTrip(t, asciiOnly, rest);
  }

  lemma ObjectStep(body: string, ms: seq<Member>, rest: string)
    requires body != [] && body[0] == '"'
    requires ParseMembers(body) == Some((ms, rest))
    ensures ParseValue("{" + body) == Some((Obj(Update([], ms)), rest))
  {
    assert ("{" + body)[1..] == body;
    assert SkipWs(body) == body;
  }

  /** `json.loads` of an object text whose members are written as `ms`:
      an object whose keys come once each, in the order of their first
      occurrence in the text, each holding the value of its last
      occurrence. */
  lemma ParseObjectText(body: string, ms: seq<Member>, rest: string)
    requires body != [] && body[0] == '"'
    requires ParseMembers(body) == Some((ms, rest)) && SkipWs(rest) == []
    ensures Parse("{" + body).Some? && Parse("{" + body).value.Obj?
    ensures var o := Parse("{" + body).value.members;
      KeySeq(o) == FirstKeys(ms) && forall k :: Get(o, k) == LastValue(ms, k)
  {
    ObjectStep(body, ms, rest);
    assert SkipWs("{" + body) == "{" + body;
    ReadMembers(ms);
  }

  lemma ArrayStep(body: string, items: seq<Value>, rest: string)
    requires body != [] && !IsWs(body[0]) && body[0] != ']'
    requires ParseElements(body) == Some((items, rest))
    ensures ParseValue("[" + body) == Some((Arr(items), rest))
  {
    assert ("[" + body)[1..] == body;
    assert SkipWs(body) == body;
  }

  /** `json.loads(json.dumps(v)) == v`, inside a document: the text written
      for a value reads back as the value, leaving what follows it. */
  lemma {:induction false} ValueRoundTrip(v: Value, asciiOnly: bool, rest: string)
    requires WellFormed(v) && Follows(rest)
    ensures ParseValue(DumpValue(v, asciiOnly) + rest) == Some((v, rest))
    decreases v, 1
  {
    match v
    case Arr(items) => ArrayRoundTrip(items, asciiOnly, rest);
    case Obj(ms) => ObjectRoundTrip(ms, asciiOnly, rest);
    case _ => ScalarRoundTrip(v, asciiOnly, rest);
  }

  lemma EmptyArray(asciiOnly: bool, rest: string)
    ensures ParseValue(DumpValue(Arr([]), asciiOnly) + rest) == Some((Arr([]), rest))
  {
    var s := DumpValue(Arr([]), asciiOnly) + rest;
    assert DumpItems([], asciiOnly) == [];
    assert s[1..] == "]" + rest;
    assert SkipWs(s[1..]) == s[1..];
  }

  lemma {:induction false} ArrayRoundTrip(items: seq<Value>, asciiOnly: bool, rest: string)
    requires WellFormed(Arr(items)) && Follows(rest)
    ensures ParseValue(DumpValue(Arr(items), asciiOnly) + rest) == Some((Arr(items), rest))
    decreases items, 2
  {
    if items == [] {
      EmptyArray(asciiOnly, rest);
    } else {
      var body := DumpItems(items, asciiOnly) + "]" + rest;
      assert DumpValue(Arr(items), asciiOnly) + rest == "[" + body;
      ElementsRoundTrip(items, asciiOnly, rest);
      ArrayOfElements(items, asciiOnly, rest);
    }
  }

  lemma ArrayOfElements(items: seq<Value>, asciiOnly: bool, rest: string)
    requires items != []
    requires ParseElements(DumpItems(items, asciiOnly) + "]" + rest) == Some((items, rest))
    ensures ParseValue("[" + (DumpItems(items, asciiOnly) + "]" + rest)) == Some((Arr(items), rest))
  {
    var d := DumpItems(items, asciiOnly);
    var body := d + ("]" + rest);
    assert d + "]" + rest == body;
    ItemsStart(items, asciiOnly, "]" + rest);
    ArrayStep(body, items, rest);
  }

  lemma EmptyObject(asciiOnly: bool, rest: string)
    ensures ParseValue(DumpValue(Obj([]), asciiOnly) + rest) == Some((Obj([]), rest))
  {
    var s := DumpValue(Obj([]), asciiOnly) + rest;
    assert DumpMembers([], asciiOnly) == [];
    assert s[1..] == "}" + rest;
    assert SkipWs(s[1..]) == s[1..];
  }

  lemma {:induction false} ObjectRoundTrip(ms: seq<Member>, asciiOnly: bool, rest: string)
    requires WellFormed(Obj(ms)) && Follows(rest)
    ensures ParseValue(DumpValue(Obj(ms), asciiOnly) + rest) == Some((Obj(ms), rest))
    decreases ms, 2
  {
    if ms == [] {
      EmptyObject(asciiOnly, rest);
    } else {
      var body := DumpMembers(ms, asciiOnly) + "}" + rest;
      assert DumpValue(Obj(ms), asciiOnly) + rest == "{" + body;
      MembersRoundTrip(ms, asciiOnly, rest);
      ObjectOfMembers(ms, asciiOnly, rest);
    }
  }

  /** Members read back with distinct keys make the same object. */
  lemma ObjectOfMembers(ms: seq<Member>, asciiOnly: bool, rest: string)
    requires ms != [] && DistinctKeys(ms)
    requires ParseMembers(DumpMembers(ms, asciiOnly) + "}" + rest) == Some((ms, rest))
    ensures ParseValue("{" + (DumpMembers(ms, asciiOnly) + "}" + rest)) == Some((Obj(ms), rest))
  {
    var body := DumpMembers(ms, asciiOnly) + "}" + rest;
    MembersStart(ms, asciiOnly, rest);
    ObjectStep(body, ms, rest);
    UpdateFresh(ms);
  }

  /** Members with distinct keys, stored one by one into an empty
      dictionary, are the dictionary. */
  lemma UpdateFresh(ms: seq<Member>)
    requires DistinctKeys(ms)
    ensures Update([], ms) == ms
  {
    assert [] + ms == ms;
    UpdateDistinct([], ms);
  }

  lemma MemberStep(s: string, m: Member, v: string, more: string)
    requires ParseString(s) == Some((m.key, ": " + (v + more)))
    requires v != [] && !IsWs(v[0])
    requires ParseValue(v + more) == Some((m.value, more))
    ensures ParseMember(s) == Some((m, more))
  {
    var x := v + more;
    var s1 := ": " + x;
    assert x[0] == v[0];
    assert SkipWs(s1) == s1;
    assert s1[1..] == " " + x && (" " + x)[1..] == x;
    assert SkipWs(x) == x;
  }

  /** The text of a member is its key's text followed by `": "` and its
      value's text. */
  lemma MemberText(m: Member, asciiOnly: bool, more: string)
    ensures DumpMember(m, asciiOnly) + more
      == DumpString(m.key, asciiOnly) + (": " + (DumpValue(m.value, asciiOnly) + more))
  {
  }

  lemma {:induction false} MemberRoundTrip(m: Member, asciiOnly: bool, more: string)
    requires WellFormed(m.value) && Follows(more)
    ensures ParseMember(DumpMember(m, asciiOnly) + more) == Some((m, more))
    decreases m
  {
    var dv := DumpValue(m.value, asciiOnly);
    MemberText(m, asciiOnly, more);
    StringRoundTrip(m.key, asciiOnly, ": " + (dv + more));
    ValueStart(m.value, asciiOnly);
    ValueRoundTrip(m.value, asciiOnly, more);
    MemberStep(DumpMember(m, asciiOnly) + more, m, dv, more);
  }

  lemma LastMember(s: string, m: Member, rest: string)
    requires ParseMember(s) == Some((m, "}" + rest))
    ensures ParseMembers(s) == Some(([m], rest))
  {
    var more := "}" + rest;
    assert SkipWs(more) == more;
    assert more[1..] == rest;
  }

  lemma NextMember(s: string, m: Member, next: string, ms: seq<Member>, rest: string)
    requires ParseMember(s) == Some((m, ", " + next))
    requires next != [] && !IsWs(next[0])
    requires ParseMembers(next) == Some((ms, rest))
    ensures ParseMembers(s) == Some(([m] + ms, rest))
  {
    var more := ", " + next;
    assert SkipWs(more) == more;
    assert more[1..] == " " + next;
    assert SkipWs(next) == next;
  }

  lemma {:induction false} MembersRoundTrip(o: Object, asciiOnly: bool, rest: string)
    requires o != [] && Follows(rest)
    requires forall i :: 0 <= i < |o| ==> WellFormed(o[i].value)
    ensures ParseMembers(DumpMembers(o, asciiOnly) + "}" + rest) == Some((o, rest))
    decreases o, 1
  {
    var s := DumpMembers(o, asciiOnly) + "}" + rest;
    if |o| == 1 {
      var more := "}" + rest;
      assert s == DumpMember(o[0], asciiOnly) + more;
      MemberRoundTrip(o[0], asciiOnly, more);
      LastMember(s, o[0], rest);
      assert [o[0]] == o;
    } else {
      MoreMembers(o, asciiOnly, rest);
    }
  }

  lemma MembersTail(o: Object)
    requires o != []
    requires forall i :: 0 <= i < |o| ==> WellFormed(o[i].value)
    ensures forall i :: 0 <= i < |o[1..]| ==> WellFormed(o[1..][i].value)
  {
    forall i | 0 <= i < |o[1..]| ensures WellFormed(o[1..][i].value) {
      assert o[1..][i] == o[i + 1];
    }
  }

  /** The text of two or more members: the first, a comma, the others. */
  lemma MembersText(o: Object, asciiOnly: bool, rest: string)
    requires |o| > 1
    ensures DumpMembers(o, asciiOnly) + "}" + rest ==
            DumpMember(o[0], asciiOnly) + (", " + (DumpMembers(o[1..], asciiOnly) + "}" + rest))
  {
  }

  /** The text of one or more members, with the closing brace and what
      follows, starts with a quote. */
  lemma MembersStart(o: Object, asciiOnly: bool, rest: string)
    requires o != []
    ensures var s := DumpMembers(o, asciiOnly) + "}" + rest; s != [] && s[0] == '"'
  {
    var d := DumpMember(o[0], asciiOnly);
    var t := if |o| == 1 then [] else ", " + DumpMembers(o[1..], asciiOnly);
    assert DumpMembers(o, asciiOnly) == d + t;
    MemberStart(o[0], asciiOnly);
    assert (d + t + "}" + rest)[0] == d[0];
  }

  lemma MemberStart(m: Member, asciiOnly: bool)
    ensures DumpMember(m, asciiOnly) != [] && DumpMember(m, asciiOnly)[0] == '"'
  {
    var k := DumpString(m.key, asciiOnly);
    assert k[0] == '"';
    assert DumpMember(m, asciiOnly) == k + (": " + DumpValue(m.value, asciiOnly));
  }

  lemma {:induction false} MoreMembers(o: Object, asciiOnly: bool, rest: string)
    requires |o| > 1 && Follows(rest)
    requires forall i :: 0 <= i < |o| ==> WellFormed(o[i].value)
    ensures ParseMembers(DumpMembers(o, asciiOnly) + "}" + rest) == Some((o, rest))
    decreases o, 0
  {
    var s := DumpMembers(o, asciiOnly) + "}" + rest;
    var next := DumpMembers(o[1..], asciiOnly) + "}" + rest;
    MembersText(o, asciiOnly, rest);
    MemberRoundTrip(o[0], asciiOnly, ", " + next);
    MembersStart(o[1..], asciiOnly, rest);
    MembersTail(o);
    MembersRoundTrip(o[1..], asciiOnly, rest);
    NextMember(s, o[0], next, o[1..], rest);
    assert [o[0]] + o[1..] == o;
  }

  lemma LastElement(s: string, v: Value, rest: string)
    requires ParseValue(s) == Some((v, "]" + rest))
    ensures ParseElements(s) == Some(([v], rest))
  {
    var more := "]" + rest;
    assert SkipWs(more) == more;
    assert more[1..] == rest;
  }

  lemma NextElement(s: string, v: Value, next: string, items: seq<Value>, rest: string)
    requires ParseValue(s) == Some((v, ", " + next))
    requires next != [] && !IsWs(next[0])
    requires ParseElements(next) == Some((items, rest))
    ensures ParseElements(s) == Some(([v] + items, rest))
  {
    var more := ", " + next;
    assert SkipWs(more) == more;
    assert more[1..] == " " + next;
    assert SkipWs(next) == next;
  }

  lemma {:induction false} ElementsRoundTrip(items: seq<Value>, asciiOnly: bool, rest: string)
    requires items != [] && Follows(rest)
    requires forall i :: 0 <= i < |items| ==> WellFormed(items[i])
    ensures ParseElements(DumpItems(items, asciiOnly) + "]" + rest) == Some((items, rest))
    decreases items, 1
  {
    if |items| == 1 {
      var s := DumpItems(items, asciiOnly) + "]" + rest;
      var more := "]" + rest;
      assert s == DumpValue(items[0], asciiOnly) + more;
      ValueRoundTrip(items[0], asciiOnly, more);
      LastElement(s, items[0], rest);
      assert [items[0]] == items;
    } else {
      MoreElements(items, asciiOnly, rest);
    }
  }

  lemma ElementsTail(items: seq<Value>)
    requires items != []
    requires forall i :: 0 <= i < |items| ==> WellFormed(items[i])
    ensures forall i :: 0 <= i < |items[1..]| ==> WellFormed(items[1..][i])
  {
    forall i | 0 <= i < |items[1..]| ensures WellFormed(items[1..][i]) {
      assert items[1..][i] == items[i + 1];
    }
  }

  /** The text of two or more elements: the first, a comma, the others. */
  lemma ItemsText(items: seq<Value>, asciiOnly: bool, rest: string)
    requires |items| > 1
    ensures DumpItems(items, asciiOnly) + "]" + rest ==
            DumpValue(items[0], asciiOnly) + (", " + (DumpItems(items[1..], asciiOnly) + "]" + rest))
  {
  }

  /** The text of one or more elements starts as its first element does. */
  lemma ItemsStart(items: seq<Value>, asciiOnly: bool, rest: string)
    requires items != []
    ensures DumpItems(items, asciiOnly) + rest != []
    ensures !IsWs((DumpItems(items, asciiOnly) + rest)[0]) && (DumpItems(items, asciiOnly) + rest)[0] != ']'
  {
    ValueStart(items[0], asciiOnly);
    assert DumpItems(items, asciiOnly)[0] == DumpValue(items[0], asciiOnly)[0];
  }

  lemma {:induction false} MoreElements(items: seq<Value>, asciiOnly: bool, rest: string)
    requires |items| > 1 && Follows(rest)
    requires forall i :: 0 <= i < |items| ==> WellFormed(items[i])
    ensures ParseElements(DumpItems(items, asciiOnly) + "]" + rest) == Some((items, rest))
    decreases items, 0
  {
    var s := DumpItems(items, asciiOnly) + "]" + rest;
    var next := DumpItems(items[1..], asciiOnly) + "]" + rest;
    ItemsText(items, asciiOnly, rest);
    ValueRoundTrip(items[0], asciiOnly, ", " + next);
    ItemsStart(items[1..], asciiOnly, "]" + rest);
    ElementsTail(items);
    ElementsRoundTrip(items[1..], asciiOnly, rest);
    NextElement(s, items[0], next, items[1..], rest);
    assert [items[0]] + items[1..] == items;
  }

  /** `json.loads(json.dumps(v)) == v` for every value a Python program can
      build: what `json.dumps` writes reads back as the same value, objects
      keeping their members in the same order. */
  lemma DumpParse(v: Value, asciiOnly: bool)
    requires WellFormed(v)
    ensures Parse(DumpValue(v, asciiOnly)) == Some(v)
  {
    var s := DumpValue(v, asciiOnly);
    ValueStart(v, asciiOnly);
    assert SkipWs(s) == s;
    assert s + [] == s;
    ValueRoundTrip(v, asciiOnly, []);
  }
}

=== FILE: logger.dfy ===
/** The central logging manager: level names, the configuration record,
    the loggers of Python's `logging` module that the manager configures,
    and the registry that hands out one manager per name and environment.

    `logging.getLogger` keeps one logger object per name for the whole
    process; it is modelled by `LoggingTree`. Handlers and filters are
    described by values (`HandlerSpec`, `FilterSpec`) rather than built as
    objects, except the database sink, which is the handler object of
    module `Handlers`. */
module Logging {

  import opened Wrappers
  import opened Text
  import opened Filters
  import opened Formatters
  import opened Handlers

  // ---------------------------------------------------------------- levels

  const Debug: int := 10
  const Info: int := 20
  const Warning: int := 30
  const Error: int := 40
  const Critical: int := 50

  /** `LogLevel.from_string`: the value of the level named, in any case,
      by `level`, and `INFO` for any other text. */
  function FromString(level: string): (r: int)
    ensures forall i :: 0 <= i < |LevelNames| && Upper(level) == LevelNames[i] ==> r == 10 * (i + 1)
    ensures Upper(level) !in LevelNames ==> r == Info
  {
    var u := Upper(level);
    if u == "DEBUG" then Debug
    else if u == "INFO" then Info
    else if u == "WARNING" then Warning
    else if u == "ERROR" then Error
    else if u == "CRITICAL" then Critical
    else Info
  }

  lemma UpperOfLower(s: string)
    ensures Upper(Lower(s)) == Upper(s)
  {
    assert forall i :: 0 <= i < |s| ==> Upper(Lower(s))[i] == Upper(s)[i];
  }

  lemma UpperOfUpper(s: string)
    ensures Upper(Upper(s)) == Upper(s)
  {
    assert forall i :: 0 <= i < |s| ==> Upper(Upper(s))[i] == Upper(s)[i];
  }

  /** The level a text names does not depend on its case. */
  lemma FromStringIgnoresCase(s: string)
    ensures FromString(Lower(s)) == FromString(s)
    ensures FromString(Upper(s)) == FromString(s)
  {
    UpperOfLower(s);
    UpperOfUpper(s);
  }

  lemma UpperOfCapitals(s: string)
    requires forall i :: 0 <= i < |s| ==> 'A' <= s[i] <= 'Z'
    ensures Upper(s) == s
  {
    assert forall i :: 0 <= i < |s| ==> Upper(s)[i] == s[i];
  }

  /** Each of the five level names, written in capitals or in lower case,
      reads back as its level. */
  lemma FromStringNames(i: nat)
    requires i < |LevelNames|
    ensures FromString(LevelNames[i]) == 10 * (i + 1)
    ensures FromString(Lower(LevelNames[i])) == 10 * (i + 1)
  {
    var n := LevelNames[i];
    assert forall k :: 0 <= k < |n| ==> 'A' <= n[k] <= 'Z';
    UpperOfCapitals(n);
    FromStringIgnoresCase(n);
  }

  const Development: string := "development"
  const Staging: string := "staging"
  const Production: string := "production"

  // --------------------------------------------------------- configuration

  /** A level as a caller passes it: a number, or a name `from_string`
      converts. */
  datatype LevelArg = Numeric(value: int) | Named(text: string)

  function LevelValue(l: LevelArg): int {
    match l
    case Numeric(v) => v
    case Named(s) => FromString(s)
  }

  /** A handler passed in through `extra_handlers`: the database sink,
      with the level set on it, or any other handler. */
  datatype ExtraHandler = PostgresSink(handler: PostgreSQLHandler, level: int) | CustomHandler(description: string)

  /** `LogConfig`; `logDir` is a path, absent when not given. */
  datatype LogConfig = LogConfig(
    name: string, level: LevelArg, environment: string, logDir: Option<string>,
    consoleOutput: bool, fileOutput: bool, rotateLogs: bool,
    maxBytes: int, backupCount: int, jsonFormat: bool, maskSensitive: bool,
    extraHandlers: seq<ExtraHandler>)

  function DefaultConfig(): (c: LogConfig)
    ensures c.name == "app" && c.level == Numeric(Info) && c.environment == Development
    ensures c.logDir == None && c.consoleOutput && c.fileOutput && c.rotateLogs
    ensures c.maxBytes == 10 * 1024 * 1024 && c.backupCount == 5
    ensures !c.jsonFormat && c.maskSensitive && c.extraHandlers == []
  {
    LogConfig("app", Numeric(Info), Development, None, true, true, true,
              10 * 1024 * 1024, 5, false, true, [])
  }

  /** `__post_init__`: a level given by name becomes its number; nothing
      else changes. */
  function PostInit(c: LogConfig): (r: LogConfig)
    ensures r.level.Numeric? && LevelValue(r.level) == LevelValue(c.level)
    ensures c.level.Named? ==> r.level.value == FromString(c.level.text)
    ensures r.(level := c.level) == c
  {
    c.(level := Numeric(LevelValue(c.level)))
  }

  // ------------------------------------------------------------ formatters

  /** The formatter a handler is given. */
  datatype FormatterSpec = ColoredFmt(fmt: Template) | JsonFmt | PlainFmt(fmt: Template)

  /** `%(levelname)s | %(asctime)s | %(name)s | %(module)s.%(funcName)s:%(lineno)d | %(message)s` */
  const ColoredTemplate: Template := [
    Attr("levelname"), Lit(" | "), Attr("asctime"), Lit(" | "), Attr("name"), Lit(" | "),
    Attr("module"), Lit("."), Attr("funcName"), Lit(":"), Attr("lineno"), Lit(" | "),
    Attr("message")]

  /** `%(levelname)s | %(asctime)s | %(environment)s | %(name)s | %(message)s` */
  const ConsoleTemplate: Template := [
    Attr("levelname"), Lit(" | "), Attr("asctime"), Lit(" | "), Attr("environment"), Lit(" | "),
    Attr("name"), Lit(" | "), Attr("message")]

  /** `%(asctime)s | %(levelname)s | %(environment)s | %(name)s | %(module)s.%(funcName)s:%(lineno)d | %(message)s` */
  const FileTemplate: Template := [
    Attr("asctime"), Lit(" | "), Attr("levelname"), Lit(" | "), Attr("environment"), Lit(" | "),
    Attr("name"), Lit(" | "), Attr("module"), Lit("."), Attr("funcName"), Lit(":"),
    Attr("lineno"), Lit(" | "), Attr("message")]

  /** The console formatter: coloured in development unless JSON is asked
      for, JSON whenever it is asked for, plain text otherwise. */
  function ConsoleFormatter(c: LogConfig): (f: FormatterSpec)
    ensures f.ColoredFmt? <==> c.environment == Development && !c.jsonFormat
    ensures f.JsonFmt? <==> c.jsonFormat
    ensures f.PlainFmt? <==> c.environment != Development && !c.jsonFormat
    ensures f.ColoredFmt? ==> f.fmt == ColoredTemplate
    ensures f.PlainFmt? ==> f.fmt == ConsoleTemplate
  {
    if c.environment == Development && !c.jsonFormat then ColoredFmt(ColoredTemplate)
    else if c.jsonFormat then JsonFmt
    else PlainFmt(ConsoleTemplate)
  }

  /** The file formatter: JSON when asked for, plain text otherwise. */
  function FileFormatter(c: LogConfig): (f: FormatterSpec)
    ensures f.JsonFmt? <==> c.jsonFormat
    ensures !f.ColoredFmt?
    ensures f.PlainFmt? ==> f.fmt == FileTemplate
  {
    if c.jsonFormat then JsonFmt else PlainFmt(FileTemplate)
  }

  /** The coloured template names only attributes every record has. */
  lemma ColoredTemplateRenders(f: Records.Fields)
    ensures Renders(ColoredTemplate, f)
  {
    forall i | 0 <= i < |ColoredTemplate| && ColoredTemplate[i].Attr?
      ensures AttrText(f, ColoredTemplate[i].name).Some?
    {
    }
  }

  /** The plain console format can be rendered exactly when the record was
      tagged with an environment. */
  lemma ConsoleTemplateNeedsEnvironment(f: Records.Fields)
    ensures Renders(ConsoleTemplate, f) <==> f.environment.Some?
  {
    assert ConsoleTemplate[4] == Attr("environment");
    if f.environment.Some? {
      forall i | 0 <= i < |ConsoleTemplate| && ConsoleTemplate[i].Attr?
        ensures AttrText(f, ConsoleTemplate[i].name).Some?
      {
      }
    }
  }

  /** The file format can be rendered exactly when the record was tagged
      with an environment. */
  lemma FileTemplateNeedsEnvironment(f: Records.Fields)
    ensures Renders(FileTemplate, f) <==> f.environment.Some?
  {
    assert FileTemplate[4] == Attr("environment");
    if f.environment.Some? {
      forall i | 0 <= i < |FileTemplate| && FileTemplate[i].Attr?
        ensures AttrText(f, FileTemplate[i].name).Some?
      {
      }
    }
  }

  // -------------------------------------------------- handlers and filters

  /** A handler attached to the manager's logger. */
  datatype HandlerSpec =
    | Console(level: int, formatter: FormatterSpec)
    | LogFile(dir: string, fileName: string, rotating: bool, maxBytes: int, backupCount: int,
              level: int, formatter: FormatterSpec)
    | Extra(extra: ExtraHandler)

  /** A filter attached to the manager's logger: a sensitive-data filter
      with its patterns, or an environment filter with its label. */
  datatype FilterSpec = Masking(patterns: seq<string>) | Tagging(environment: string)

  /** The configuration after setup: building the file handler sets the
      log directory to `logs` when none was given. */
  function SetupConfig(c: LogConfig): (r: LogConfig)
    ensures r.fileOutput ==> r.logDir.Some?
    ensures r.(logDir := c.logDir) == c
    ensures c.logDir.Some? ==> r == c
  {
    if c.fileOutput && c.logDir.None? then c.(logDir := Some("logs")) else c
  }

  /** The handlers setup attaches, in order: console, file, then the extra
      handlers as given. */
  function RootHandlers(c: LogConfig): (hs: seq<HandlerSpec>)
    ensures |hs| == (if c.consoleOutput then 1 else 0) + (if c.fileOutput then 1 else 0) + |c.extraHandlers|
    ensures c.consoleOutput ==> hs[0] == Console(LevelValue(c.level), ConsoleFormatter(c))
    ensures c.fileOutput ==>
      hs[if c.consoleOutput then 1 else 0]
      == LogFile(c.logDir.GetOr("logs"), c.name + ".log", c.rotateLogs, c.maxBytes, c.backupCount,
                 LevelValue(c.level), FileFormatter(c))
    ensures forall i :: 0 <= i < |c.extraHandlers| ==>
      hs[|hs| - |c.extraHandlers| + i] == Extra(c.extraHandlers[i])
    ensures forall i :: 0 <= i < |hs| - |c.extraHandlers| ==> !hs[i].Extra?
  {
    var level := LevelValue(c.level);
    var console := if c.consoleOutput then [Console(level, ConsoleFormatter(c))] else [];
    var file := if c.fileOutput
      then [LogFile(c.logDir.GetOr("logs"), c.name + ".log", c.rotateLogs, c.maxBytes, c.backupCount,
                    level, FileFormatter(c))]
      else [];
    var extra := seq(|c.extraHandlers|, i requires 0 <= i < |c.extraHandlers| => Extra(c.extraHandlers[i]));
    console + file + extra
  }

  /** The filters setup attaches: the sensitive-data filter with the
      default patterns exactly when masking is on, then always the
      environment filter. */
  function AttachedFilters(c: LogConfig): (fs: seq<FilterSpec>)
    ensures |fs| >= 1 && fs[|fs| - 1] == Tagging(c.environment)
    ensures Masking(DefaultPatterns) in fs <==> c.maskSensitive
    ensures forall i :: 0 <= i < |fs| - 1 ==> fs[i] == Masking(DefaultPatterns)
  {
    (if c.maskSensitive then [Masking(DefaultPatterns)] else []) + [Tagging(c.environment)]
  }

  // --------------------------------------------------------------- loggers

  /** A `logging.Logger`: a new one has level NOTSET (0), no handlers, no
      filters, and propagates. */
  class LoggerObj {
    const name: string
    var level: int
    var handlers: seq<HandlerSpec>
    var filters: seq<FilterSpec>
    var propagate: bool

    constructor (name: string)
      ensures this.name == name && level == 0 && handlers == [] && filters == [] && propagate
    {
      this.name := name;
      level := 0;
      handlers := [];
      filters := [];
      propagate := true;
    }
  }

  /** The process-wide table behind `logging.getLogger`. */
  class LoggingTree {
    var loggers: map<string, LoggerObj>

    ghost predicate Valid()
      reads this
    {
      forall n :: n in loggers ==> loggers[n].name == n
    }

    constructor ()
      ensures Valid() && loggers == map[]
    {
      loggers := map[];
    }

    /** `logging.getLogger(name)`: the logger already made for the name, or
        a new one, remembered from then on. */
    method GetLogger(name: string) returns (l: LoggerObj)
      requires Valid()
      modifies this`loggers
      ensures Valid()
      ensures l.name == name && name in loggers && loggers[name] == l
      ensures name in old(loggers) ==> l == old(loggers[name]) && loggers == old(loggers)
      ensures name !in old(loggers) ==>
        fresh(l) && loggers == old(loggers)[name := l]
        && l.level == 0 && l.handlers == [] && l.filters == [] && l.propagate
    {
      if name in loggers {
        l := loggers[name];
      } else {
        l := new LoggerObj(name);
        loggers := loggers[name := l];
      }
    }
  }

  /** The name `get_logger` uses: the manager's name, dot, the given name
      when it is non-empty, and the manager's name alone otherwise. */
  function ChildName(base: string, name: Option<string>): (r: string)
    ensures name.None? || name.value == [] ==> r == base
    ensures name.Some? && name.value != [] ==>
      |r| > |base| + 1 && r[..|base| + 1] == base + "." && r[|base| + 1..] == name.value
  {
    if name.Some? && name.value != [] then base + "." + name.value else base
  }

  /** Different non-empty names give different child loggers, none of them
      the manager's own. */
  lemma ChildNamesDistinct(base: string, a: string, b: string)
    requires a != [] && b != [] && a != b
    ensures ChildName(base, Some(a)) != ChildName(base, Some(b))
    ensures ChildName(base, Some(a)) != base
  {
  }

  /** The state setup leaves the manager's logger in: the configured
      level, exactly the configured handlers, the new filters after any it
      already had, and no propagation. */
  ghost predicate Configured(root: LoggerObj, c: LogConfig, priorFilters: seq<FilterSpec>)
    reads root
  {
    root.level == LevelValue(c.level)
    && root.handlers == RootHandlers(SetupConfig(c))
    && root.filters == priorFilters + AttachedFilters(c)
    && !root.propagate
  }

  ghost function PriorFilters(loggers: map<string, LoggerObj>, name: string): seq<FilterSpec>
    reads if name in loggers then {loggers[name]} else {}
  {
    if name in loggers then loggers[name].filters else []
  }

  class LoggerManager {
    var config: LogConfig
    /** The loggers `get_logger` has handed out, by full name. */
    var loggers: map<string, LoggerObj>
    const tree: LoggingTree

    ghost predicate Valid()
      reads this
    {
      forall n :: n in loggers ==> loggers[n].name == n
    }

    /** `__init__` on a new instance: `_setup_logging` configures the
        logger named after the configuration, which every manager of that
        name shares: its handlers are replaced, its filters added to. */
    constructor (config: LogConfig, tree: LoggingTree)
      requires tree.Valid()
      modifies tree`loggers, if config.name in tree.loggers then {tree.loggers[config.name]} else {}
      ensures Valid() && tree.Valid()
      ensures this.config == SetupConfig(config) && loggers == map[] && this.tree == tree
      ensures config.name in tree.loggers
      ensures tree.loggers == old(tree.loggers)[config.name := tree.loggers[config.name]]
      ensures config.name in old(tree.loggers) ==> tree.loggers[config.name] == old(tree.loggers[config.name])
      ensures config.name !in old(tree.loggers) ==> fresh(tree.loggers[config.name])
      ensures Configured(tree.loggers[config.name], config, old(PriorFilters(tree.loggers, config.name)))
    {
      this.config := SetupConfig(config);
      loggers := map[];
      this.tree := tree;
      new;
      var root := tree.GetLogger(config.name);
      root.level := LevelValue(config.level);
      root.handlers := RootHandlers(SetupConfig(config));
      root.filters := root.filters + AttachedFilters(config);
      root.propagate := false;
    }

    /** `get_logger(name)`: the cached logger for the full name, or the
        process-wide logger of that name, cached from then on. */
    method GetLogger(name: Option<string>) returns (l: LoggerObj)
      requires Valid() && tree.Valid()
      modifies this`loggers, tree`loggers
      ensures Valid() && tree.Valid()
      ensures var n := ChildName(config.name, name);
        l.name == n && n in loggers && loggers[n] == l
        && (n in old(loggers) ==>
              l == old(loggers[n]) && loggers == old(loggers) && tree.loggers == old(tree.loggers))
        && (n !in old(loggers) ==>
              loggers == old(loggers)[n := l]
              && (n in old(tree.loggers) ==> l == old(tree.loggers[n]))
              && (n !in old(tree.loggers) ==> fresh(l)))
    {
      var n := ChildName(config.name, name);
      if n in loggers {
        l := loggers[n];
      } else {
        l := tree.GetLogger(n);
        loggers := loggers[n := l];
      }
    }
  }

  // -------------------------------------------------------------- registry

  /** The registry key of a configuration. */
  function Key(name: string, environment: string): string {
    name + "_" + environment
  }

  /** The key is ambiguous: different name and environment pairs can share
      it, and then share one manager. */
  lemma KeysCollide()
    ensures ("a_b", "c") != ("a", "b_c")
    ensures Key("a_b", "c") == Key("a", "b_c")
  {
  }

  /** The key determines the pair when the names hold no underscore. */
  lemma KeyInjective(n1: string, e1: string, n2: string, e2: string)
    requires '_' !in n1 && '_' !in n2
    requires Key(n1, e1) == Key(n2, e2)
    ensures n1 == n2 && e1 == e2
  {
    SplitAfterPiece(n1, '_', e1);
    SplitAfterPiece(n2, '_', e2);
    assert n1 + "_" + e1 == n1 + ['_'] + e1;
    assert n2 + "_" + e2 == n2 + ['_'] + e2;
    var s1 := Split(e1, '_');
    var s2 := Split(e2, '_');
    assert [n1] + s1 == [n2] + s2;
    assert s1 == ([n1] + s1)[1..];
    assert s2 == ([n2] + s2)[1..];
    JoinSplit(e1, '_');
    JoinSplit(e2, '_');
  }

  /** `LoggerManager._instances`, with the process-wide logger table all
      managers configure. */
  class ManagerRegistry {
    var instances: map<string, LoggerManager>
    const tree: LoggingTree

    ghost predicate Valid()
      reads this, tree, instances.Values
    {
      tree.Valid() && forall k :: k in instances ==> instances[k].tree == tree && instances[k].Valid()
    }

    constructor (tree: LoggingTree)
      requires tree.Valid()
      ensures Valid() && instances == map[] && this.tree == tree
    {
      instances := map[];
      this.tree := tree;
    }

    /** `LoggerManager(config)`: `__new__` returns the instance registered
        under the key, if any, and `__init__` then does nothing, so that
        instance keeps its first configuration; otherwise a new instance is
        registered and set up. */
    method Create(config: LogConfig) returns (m: LoggerManager)
      requires Valid()
      modifies this`instances, tree`loggers
      modifies if config.name in tree.loggers then {tree.loggers[config.name]} else {}
      ensures Valid()
      ensures var k := Key(config.name, config.environment);
        k in instances && m == instances[k] && m.tree == tree && m.Valid()
        && (k in old(instances) ==>
              m == old(instances[k]) && instances == old(instances) && unchanged(tree)
              && (config.name in old(tree.loggers) ==> unchanged(old(tree.loggers[config.name]))))
        && (k !in old(instances) ==>
              fresh(m) && instances == old(instances)[k := m]
              && m.config == SetupConfig(config) && m.loggers == map[]
              && config.name in tree.loggers
              && tree.loggers == old(tree.loggers)[config.name := tree.loggers[config.name]]
              && (config.name !in old(tree.loggers) ==> fresh(tree.loggers[config.name]))
              && Configured(tree.loggers[config.name], config, old(PriorFilters(tree.loggers, config.name))))
    {
      var k := Key(config.name, config.environment);
      if k in instances {
        m := instances[k];
      } else {
        m := new LoggerManager(config, tree);
        instances := instances[k := m];
      }
    }

    /** `reset_instances()`: forget every instance. */
    method ResetInstances()
      requires Valid()
      modifies this`instances
      ensures Valid() && instances == map[]
    {
      instances := map[];
    }
  }

  /** Two configurations whose keys collide get one manager, which keeps
      the first one's environment. */
  method CollidingKeysShareManager() returns (first: LoggerManager, second: LoggerManager)
    ensures first == second
    ensures first.config.environment == "c" && first.config.name == "a_b"
  {
    var tree := new LoggingTree();
    var registry := new ManagerRegistry(tree);
    KeysCollide();
    first := registry.Create(DefaultConfig().(name := "a_b", environment := "c"));
    second := registry.Create(DefaultConfig().(name := "a", environment := "b_c"));
  }

  /** Managers with the same name and different environments have
      different keys (`KeyInjective`), so the registry makes two instances,
      but both configure the one logger of that name: the second replaces
      the first one's handlers and adds its filters after the first one's,
      so the logger ends up tagging every record with the second
      environment. */
  method SharedNameStacksFilters() returns (root: LoggerObj)
    ensures root.name == "app"
    ensures root.filters == [Masking(DefaultPatterns), Tagging(Development),
                             Masking(DefaultPatterns), Tagging(Production)]
  {
    var tree := new LoggingTree();
    var dev := new LoggerManager(DefaultConfig(), tree);
    var prod := new LoggerManager(DefaultConfig().(environment := Production), tree);
    root := tree.loggers["app"];
  }
}

=== FILE: masking_examples.dfy ===
/** The texts the masker is usually illustrated with, and the facts about
    their characters that decide which keys occur in them. */
module MaskingTexts {

  import opened Text

  /** A login message with a password in it, and the same message with the
      password masked. */
  const Login: string := "User login with password=secret123"
  const LoginMasked: string := "User login with password=***MASKED***"

  /** A line with a password and a token, the line once the password is
      masked, and the line with both masked. */
  const Pairs: string := "password=secret and token=abc123"
  const PairsHalf: string := "password=***MASKED*** and token=abc123"
  const PairsMasked: string := "password=***MASKED*** and token=***MASKED***"

  /** The words the two-secret line follows in the filter's own example. */
  const LoginWith: string := "Login with"

  /** A call message with a token in it, and its token pair before and
      after masking. */
  const ApiCall: string := "API call with"
  const TokenLine: string := "token=abc123xyz"
  const TokenMasked: string := "token=***MASKED***"

  /** Every character of `s` is one of `alphabet`. */
  predicate DrawnFrom(s: string, alphabet: set<char>) {
    forall i :: 0 <= i < |s| ==> s[i] in alphabet
  }

  /** A key with a character (not an upper-case letter) that the text's
      alphabet has in neither case does not occur in the lower-cased
      text. */
  lemma MissingLower(key: string, s: string, alphabet: set<char>, c: char)
    requires DrawnFrom(s, alphabet)
    requires c in key && !('A' <= c <= 'Z') && c !in alphabet && ToUpperChar(c) !in alphabet
    ensures !Occurs(Lower(key), Lower(s))
  {
    NotInLower(s, c);
    var i :| 0 <= i < |key| && key[i] == c;
    assert Lower(key)[i] == c;
    MissingChar(Lower(key), Lower(s), c);
  }

  /** A key that lacks the character `c` (in both cases) and occurs in
      neither side of it does not occur in the lower-cased whole; each
      side is told apart from the key by a character its alphabet
      lacks. */
  lemma SplitMissing(key: string, a: string, c: char, b: string,
                     alphaA: set<char>, ca: char, alphaB: set<char>, cb: char)
    requires !('A' <= c <= 'Z') && c !in key && ToUpperChar(c) !in key
    requires DrawnFrom(a, alphaA) && ca in key && !('A' <= ca <= 'Z') && ca !in alphaA && ToUpperChar(ca) !in alphaA
    requires DrawnFrom(b, alphaB) && cb in key && !('A' <= cb <= 'Z') && cb !in alphaB && ToUpperChar(cb) !in alphaB
    ensures !Occurs(Lower(key), Lower(a + [c] + b))
  {
    MissingLower(key, a, alphaA, ca);
    MissingLower(key, b, alphaB, cb);
    NotInLower(key, c);
    LowerAppend(a + [c], b);
    LowerAppend(a, [c]);
    assert Lower([c]) == [c];
    OccursAcross(Lower(key), Lower(a), c, Lower(b));
  }

  /** The same, with the text split at its `i`-th character. */
  lemma SplitAt(key: string, s: string, i: nat, alphaA: set<char>, ca: char, alphaB: set<char>, cb: char)
    requires i < |s| && !('A' <= s[i] <= 'Z') && s[i] !in key && ToUpperChar(s[i]) !in key
    requires (forall j :: 0 <= j < i ==> s[j] in alphaA)
    requires ca in key && !('A' <= ca <= 'Z') && ca !in alphaA && ToUpperChar(ca) !in alphaA
    requires (forall j :: i < j < |s| ==> s[j] in alphaB)
    requires cb in key && !('A' <= cb <= 'Z') && cb !in alphaB && ToUpperChar(cb) !in alphaB
    ensures !Occurs(Lower(key), Lower(s))
  {
    var a, b := s[..i], s[i + 1..];
    assert s == a + [s[i]] + b;
    assert DrawnFrom(b, alphaB) by {
      forall j | 0 <= j < |b| ensures b[j] in alphaB {
        assert b[j] == s[i + 1 + j];
      }
    }
    SplitMissing(key, a, s[i], b, alphaA, ca, alphaB, cb);
  }

  // ------------------------------------------------------- the login message

  lemma LoginShape()
    ensures Login == "User login with " + ("password" + "=" + "secret123")
    ensures LoginMasked == "User login with " + ("password" + "=" + "***MASKED***")
  {
  }

  /** No match of `password` starts before the key in the login message. */
  lemma LoginBeforeKey()
    ensures !Occurs(Lower("password"), Lower("User login with " + "password"[..7]))
  {
    var a := "User login with " + "password"[..7];
    assert a == "User login with passwor";
    assert DrawnFrom(a, {'U', 's', 'e', 'r', ' ', 'l', 'o', 'g', 'i', 'n', 'w', 't', 'h', 'p', 'a'});
    MissingLower("password", a, {'U', 's', 'e', 'r', ' ', 'l', 'o', 'g', 'i', 'n', 'w', 't', 'h', 'p', 'a'}, 'd');
  }

  lemma LoginDrawn()
    ensures DrawnFrom(LoginMasked, {'U', 's', 'e', 'r', ' ', 'l', 'o', 'g', 'i', 'n', 'w', 't', 'h', 'p', 'a', 'd',
                                    '=', '*', 'M', 'A', 'S', 'K', 'E', 'D'})
  {
  }

  /** Keys with a character the masked login message lacks. */
  lemma LoginLacks()
    ensures var m := LoginMasked;
      !Occurs(Lower("secret"), Lower(m)) && !Occurs(Lower("api_key"), Lower(m))
      && !Occurs(Lower("apikey"), Lower(m)) && !Occurs(Lower("access_key"), Lower(m))
  {
    var alpha := {'U', 's', 'e', 'r', ' ', 'l', 'o', 'g', 'i', 'n', 'w', 't', 'h', 'p', 'a', 'd',
                  '=', '*', 'M', 'A', 'S', 'K', 'E', 'D'};
    LoginDrawn();
    MissingLower("secret", LoginMasked, alpha, 'c');
    MissingLower("api_key", LoginMasked, alpha, '_');
    MissingLower("apikey", LoginMasked, alpha, 'y');
    MissingLower("access_key", LoginMasked, alpha, 'c');
  }

  lemma LoginLacksMore()
    ensures !Occurs(Lower("private_key"), Lower(LoginMasked)) && !Occurs(Lower("credential"), Lower(LoginMasked))
  {
    var alpha := {'U', 's', 'e', 'r', ' ', 'l', 'o', 'g', 'i', 'n', 'w', 't', 'h', 'p', 'a', 'd',
                  '=', '*', 'M', 'A', 'S', 'K', 'E', 'D'};
    LoginDrawn();
    MissingLower("private_key", LoginMasked, alpha, 'v');
    MissingLower("credential", LoginMasked, alpha, 'c');
  }

  lemma LoginLacksLast()
    ensures !Occurs(Lower("bearer"), Lower(LoginMasked)) && !Occurs(Lower("authorization"), Lower(LoginMasked))
  {
    var alpha := {'U', 's', 'e', 'r', ' ', 'l', 'o', 'g', 'i', 'n', 'w', 't', 'h', 'p', 'a', 'd',
                  '=', '*', 'M', 'A', 'S', 'K', 'E', 'D'};
    LoginDrawn();
    MissingLower("bearer", LoginMasked, alpha, 'b');
    MissingLower("authorization", LoginMasked, alpha, 'z');
  }

  /** `passwd` would need a `d` before the `o` of `password` and a `p`
      after it. */
  lemma LoginNoPasswd()
    ensures !Occurs(Lower("passwd"), Lower(LoginMasked))
  {
    SplitAt("passwd", LoginMasked, 21, {'U', 's', 'e', 'r', ' ', 'l', 'o', 'g', 'i', 'n', 'w', 't', 'h', 'p', 'a'}, 'd',
            {'r', 'd', '=', '*', 'M', 'A', 'S', 'K', 'E', 'D'}, 'p');
  }

  lemma LoginNoPwd()
    ensures !Occurs(Lower("pwd"), Lower(LoginMasked))
  {
    SplitAt("pwd", LoginMasked, 17, {'U', 's', 'e', 'r', ' ', 'l', 'o', 'g', 'i', 'n', 'w', 't', 'h', 'p', 'a'}, 'd',
            {'s', 'w', 'o', 'r', 'd', '=', '*', 'M', 'A', 'S', 'K', 'E', 'D'}, 'p');
  }

  lemma LoginNoToken()
    ensures !Occurs(Lower("token"), Lower(LoginMasked))
  {
    SplitAt("token", LoginMasked, 24, {'U', 's', 'e', 'r', ' ', 'l', 'o', 'g', 'i', 'n', 'w', 't', 'h', 'p', 'a', 'd'}, 'k',
            {'*', 'M', 'A', 'S', 'K', 'E', 'D'}, 't');
  }

  lemma LoginNoAuth()
    ensures !Occurs(Lower("auth"), Lower(LoginMasked))
  {
    SplitAt("auth", LoginMasked, 3, {'U', 's', 'e'}, 'a',
            {' ', 'l', 'o', 'g', 'i', 'n', 'w', 't', 'h', 'p', 'a', 's', 'r', 'd', '=', '*', 'M', 'A', 'S', 'K', 'E', 'D'}, 'u');
  }

  // ----------------------------------------------------- the two-secret line

  lemma PairsShape()
    ensures Pairs == "password" + "=" + "secret" + " and token=abc123"
  {
  }

  lemma HalfFirstShape()
    ensures PairsHalf == "password" + "=" + "***MASKED***" + " and token=abc123"
  {
  }

  /** `password` does not occur again after the first pair. */
  lemma PairsRest()
    ensures !Occurs(Lower("password"), Lower(" and token=abc123"))
  {
    var alpha := {' ', 'a', 'n', 'd', 't', 'o', 'k', 'e', '=', 'b', 'c', '1', '2', '3'};
    assert DrawnFrom(" and token=abc123", alpha);
    MissingLower("password", " and token=abc123", alpha, 'p');
  }

  lemma HalfNoPasswd()
    ensures !Occurs(Lower("passwd"), Lower(PairsHalf))
  {
    SplitAt("passwd", PairsHalf, 5, {'p', 'a', 's', 'w'}, 'd',
            {'r', 'd', '=', '*', 'M', 'A', 'S', 'K', 'E', 'D', ' ', 'a', 'n', 't', 'o', 'k', 'e', 'b', 'c', '1', '2', '3'}, 'p');
  }

  lemma HalfNoPwd()
    ensures !Occurs(Lower("pwd"), Lower(PairsHalf))
  {
    SplitAt("pwd", PairsHalf, 1, {'p'}, 'd',
            {'s', 'w', 'o', 'r', 'd', '=', '*', 'M', 'A', 'S', 'K', 'E', 'D', ' ', 'a', 'n', 't', 'k', 'e', 'b', 'c', '1', '2', '3'}, 'p');
  }

  lemma HalfShape()
    ensures PairsHalf == "password=***MASKED*** and " + ("token" + "=" + "abc123")
    ensures PairsMasked == "password=***MASKED*** and " + ("token" + "=" + "***MASKED***")
  {
  }

  /** No match of `token` starts before the key in the half-masked line. */
  lemma HalfBeforeToken()
    ensures !Occurs(Lower("token"), Lower("password=***MASKED*** and " + "token"[..4]))
  {
    var s := "password=***MASKED*** and " + "token"[..4];
    assert s == "password=***MASKED*** and toke";
    SplitAt("token", s, 24, {'p', 'a', 's', 'w', 'o', 'r', 'd', '=', '*', 'M', 'A', 'S', 'K', 'E', 'D', ' ', 'n'}, 't',
            {' ', 't', 'o', 'k', 'e'}, 'n');
  }

  lemma PairsDrawn()
    ensures DrawnFrom(PairsMasked, {'p', 'a', 's', 'w', 'o', 'r', 'd', '=', '*', 'M', 'A', 'S', 'K', 'E', 'D', ' ', 'n', 't', 'k', 'e'})
  {
  }

  /** The keys after `token` each have a character the masked line
      lacks. */
  lemma PairsLacks()
    ensures var m := PairsMasked;
      !Occurs(Lower("secret"), Lower(m)) && !Occurs(Lower("api_key"), Lower(m))
      && !Occurs(Lower("apikey"), Lower(m)) && !Occurs(Lower("access_key"), Lower(m))
  {
    var alpha := {'p', 'a', 's', 'w', 'o', 'r', 'd', '=', '*', 'M', 'A', 'S', 'K', 'E', 'D', ' ', 'n', 't', 'k', 'e'};
    PairsDrawn();
    MissingLower("secret", PairsMasked, alpha, 'c');
    MissingLower("api_key", PairsMasked, alpha, '_');
    MissingLower("apikey", PairsMasked, alpha, 'i');
    MissingLower("access_key", PairsMasked, alpha, 'c');
  }

  lemma PairsLacksMore()
    ensures !Occurs(Lower("private_key"), Lower(PairsMasked)) && !Occurs(Lower("credential"), Lower(PairsMasked))
  {
    var alpha := {'p', 'a', 's', 'w', 'o', 'r', 'd', '=', '*', 'M', 'A', 'S', 'K', 'E', 'D', ' ', 'n', 't', 'k', 'e'};
    PairsDrawn();
    MissingLower("private_key", PairsMasked, alpha, 'i');
    MissingLower("credential", PairsMasked, alpha, 'c');
  }

  lemma PairsLacksLast()
    ensures !Occurs(Lower("auth"), Lower(PairsMasked)) && !Occurs(Lower("bearer"), Lower(PairsMasked))
    ensures !Occurs(Lower("authorization"), Lower(PairsMasked))
  {
    var alpha := {'p', 'a', 's', 'w', 'o', 'r', 'd', '=', '*', 'M', 'A', 'S', 'K', 'E', 'D', ' ', 'n', 't', 'k', 'e'};
    PairsDrawn();
    MissingLower("auth", PairsMasked, alpha, 'u');
    MissingLower("bearer", PairsMasked, alpha, 'b');
    MissingLower("authorization", PairsMasked, alpha, 'u');
  }

  // ------------------------------------------- words before the secrets

  lemma LoginWithDrawn()
    ensures DrawnFrom(LoginWith, {'L', 'o', 'g', 'i', 'n', ' ', 'w', 't', 'h'})
  {
  }

  /** Each default key has a character `Login with` lacks. */
  lemma LoginWithLacks()
    ensures var w := LoginWith;
      !Occurs(Lower("password"), Lower(w)) && !Occurs(Lower("passwd"), Lower(w))
      && !Occurs(Lower("pwd"), Lower(w)) && !Occurs(Lower("token"), Lower(w))
  {
    var alpha := {'L', 'o', 'g', 'i', 'n', ' ', 'w', 't', 'h'};
    LoginWithDrawn();
    MissingLower("password", LoginWith, alpha, 'p');
    MissingLower("passwd", LoginWith, alpha, 'p');
    MissingLower("pwd", LoginWith, alpha, 'p');
    MissingLower("token", LoginWith, alpha, 'k');
  }

  lemma LoginWithLacksMore()
    ensures var w := LoginWith;
      !Occurs(Lower("secret"), Lower(w)) && !Occurs(Lower("api_key"), Lower(w))
      && !Occurs(Lower("apikey"), Lower(w)) && !Occurs(Lower("access_key"), Lower(w))
  {
    var alpha := {'L', 'o', 'g', 'i', 'n', ' ', 'w', 't', 'h'};
    LoginWithDrawn();
    MissingLower("secret", LoginWith, alpha, 's');
    MissingLower("api_key", LoginWith, alpha, 'a');
    MissingLower("apikey", LoginWith, alpha, 'a');
    MissingLower("access_key", LoginWith, alpha, 'a');
  }

  lemma LoginWithLacksLast()
    ensures var w := LoginWith;
      !Occurs(Lower("private_key"), Lower(w)) && !Occurs(Lower("credential"), Lower(w))
      && !Occurs(Lower("auth"), Lower(w)) && !Occurs(Lower("bearer"), Lower(w))
      && !Occurs(Lower("authorization"), Lower(w))
  {
    var alpha := {'L', 'o', 'g', 'i', 'n', ' ', 'w', 't', 'h'};
    LoginWithDrawn();
    MissingLower("private_key", LoginWith, alpha, 'p');
    MissingLower("credential", LoginWith, alpha, 'c');
    MissingLower("auth", LoginWith, alpha, 'a');
    MissingLower("bearer", LoginWith, alpha, 'b');
    MissingLower("authorization", LoginWith, alpha, 'a');
  }

  lemma ApiCallDrawn()
    ensures DrawnFrom(ApiCall, {'A', 'P', 'I', ' ', 'c', 'a', 'l', 'w', 'i', 't', 'h'})
  {
  }

  /** Each default key has a character `API call with` lacks. */
  lemma ApiCallLacks()
    ensures var w := ApiCall;
      !Occurs(Lower("password"), Lower(w)) && !Occurs(Lower("passwd"), Lower(w))
      && !Occurs(Lower("pwd"), Lower(w)) && !Occurs(Lower("token"), Lower(w))
  {
    var alpha := {'A', 'P', 'I', ' ', 'c', 'a', 'l', 'w', 'i', 't', 'h'};
    ApiCallDrawn();
    MissingLower("password", ApiCall, alpha, 's');
    MissingLower("passwd", ApiCall, alpha, 's');
    MissingLower("pwd", ApiCall, alpha, 'd');
    MissingLower("token", ApiCall, alpha, 'o');
  }

  lemma ApiCallLacksMore()
    ensures var w := ApiCall;
      !Occurs(Lower("secret"), Lower(w)) && !Occurs(Lower("api_key"), Lower(w))
      && !Occurs(Lower("apikey"), Lower(w)) && !Occurs(Lower("access_key"), Lower(w))
  {
    var alpha := {'A', 'P', 'I', ' ', 'c', 'a', 'l', 'w', 'i', 't', 'h'};
    ApiCallDrawn();
    MissingLower("secret", ApiCall, alpha, 's');
    MissingLower("api_key", ApiCall, alpha, '_');
    MissingLower("apikey", ApiCall, alpha, 'k');
    MissingLower("access_key", ApiCall, alpha, 's');
  }

  lemma ApiCallLacksLast()
    ensures var w := ApiCall;
      !Occurs(Lower("private_key"), Lower(w)) && !Occurs(Lower("credential"), Lower(w))
      && !Occurs(Lower("auth"), Lower(w)) && !Occurs(Lower("bearer"), Lower(w))
      && !Occurs(Lower("authorization"), Lower(w))
  {
    var alpha := {'A', 'P', 'I', ' ', 'c', 'a', 'l', 'w', 'i', 't', 'h'};
    ApiCallDrawn();
    MissingLower("private_key", ApiCall, alpha, 'r');
    MissingLower("credential", ApiCall, alpha, 'r');
    MissingLower("auth", ApiCall, alpha, 'u');
    MissingLower("bearer", ApiCall, alpha, 'b');
    MissingLower("authorization", ApiCall, alpha, 'u');
  }

  // ------------------------------------------------------- the token pair

  /** The keys before `token` each have a `p`, which the pair lacks. */
  lemma TokenLineLacks()
    ensures !Occurs(Lower("password"), Lower(TokenLine)) && !Occurs(Lower("passwd"), Lower(TokenLine))
    ensures !Occurs(Lower("pwd"), Lower(TokenLine))
  {
    var alpha := {'t', 'o', 'k', 'e', 'n', '=', 'a', 'b', 'c', '1', '2', '3', 'x', 'y', 'z'};
    assert DrawnFrom(TokenLine, alpha);
    MissingLower("password", TokenLine, alpha, 'p');
    MissingLower("passwd", TokenLine, alpha, 'p');
    MissingLower("pwd", TokenLine, alpha, 'p');
  }

  lemma TokenMaskedDrawn()
    ensures DrawnFrom(TokenMasked, {'t', 'o', 'k', 'e', 'n', '=', '*', 'M', 'A', 'S', 'K', 'E', 'D'})
  {
  }

  /** The keys after `token` each have a character the masked pair
      lacks. */
  lemma TokenMaskedLacks()
    ensures var m := TokenMasked;
      !Occurs(Lower("secret"), Lower(m)) && !Occurs(Lower("api_key"), Lower(m))
      && !Occurs(Lower("apikey"), Lower(m)) && !Occurs(Lower("access_key"), Lower(m))
  {
    var alpha := {'t', 'o', 'k', 'e', 'n', '=', '*', 'M', 'A', 'S', 'K', 'E', 'D'};
    TokenMaskedDrawn();
    MissingLower("secret", TokenMasked, alpha, 'c');
    MissingLower("api_key", TokenMasked, alpha, 'p');
    MissingLower("apikey", TokenMasked, alpha, 'p');
    MissingLower("access_key", TokenMasked, alpha, 'c');
  }

  lemma TokenMaskedLacksMore()
    ensures !Occurs(Lower("private_key"), Lower(TokenMasked)) && !Occurs(Lower("credential"), Lower(TokenMasked))
  {
    var alpha := {'t', 'o', 'k', 'e', 'n', '=', '*', 'M', 'A', 'S', 'K', 'E', 'D'};
    TokenMaskedDrawn();
    MissingLower("private_key", TokenMasked, alpha, 'p');
    MissingLower("credential", TokenMasked, alpha, 'c');
  }

  lemma TokenMaskedLacksLast()
    ensures !Occurs(Lower("auth"), Lower(TokenMasked)) && !Occurs(Lower("bearer"), Lower(TokenMasked))
    ensures !Occurs(Lower("authorization"), Lower(TokenMasked))
  {
    var alpha := {'t', 'o', 'k', 'e', 'n', '=', '*', 'M', 'A', 'S', 'K', 'E', 'D'};
    TokenMaskedDrawn();
    MissingLower("auth", TokenMasked, alpha, 'u');
    MissingLower("bearer", TokenMasked, alpha, 'b');
    MissingLower("authorization", TokenMasked, alpha, 'u');
  }
  // ------------------------------------------------- keys inside keys

  /** A key longer than a text does not occur in it. */
  lemma LongerAbsent(key: string, s: string)
    requires |key| > |s|
    ensures !Occurs(Lower(key), Lower(s))
  {
  }

  lemma PasswordDrawn()
    ensures DrawnFrom("password", {'p', 'a', 's', 'w', 'o', 'r', 'd'})
  {
  }

  /** No other default key occurs in `password`. */
  lemma InPassword1()
    ensures !Occurs(Lower("passwd"), Lower("password"))
    ensures !Occurs(Lower("pwd"), Lower("password"))
    ensures !Occurs(Lower("token"), Lower("password"))
    ensures !Occurs(Lower("secret"), Lower("password"))
  {
    PasswordDrawn();
    SplitAt("passwd", "password", 5, {'p', 'a', 's', 'w'}, 'd', {'r', 'd'}, 'p');
    SplitAt("pwd", "password", 5, {'p', 'a', 's', 'w'}, 'd', {'r', 'd'}, 'p');
    MissingLower("token", "password", {'p', 'a', 's', 'w', 'o', 'r', 'd'}, 't');
    MissingLower("secret", "password", {'p', 'a', 's', 'w', 'o', 'r', 'd'}, 'e');
  }

  lemma InPassword2()
    ensures !Occurs(Lower("api_key"), Lower("password"))
    ensures !Occurs(Lower("apikey"), Lower("password"))
    ensures !Occurs(Lower("access_key"), Lower("password"))
    ensures !Occurs(Lower("private_key"), Lower("password"))
  {
    PasswordDrawn();
    MissingLower("api_key", "password", {'p', 'a', 's', 'w', 'o', 'r', 'd'}, 'i');
    MissingLower("apikey", "password", {'p', 'a', 's', 'w', 'o', 'r', 'd'}, 'i');
    LongerAbsent("access_key", "password");
    LongerAbsent("private_key", "password");
  }

  lemma InPassword3()
    ensures !Occurs(Lower("credential"), Lower("password"))
    ensures !Occurs(Lower("auth"), Lower("password"))
    ensures !Occurs(Lower("bearer"), Lower("password"))
    ensures !Occurs(Lower("authorization"), Lower("password"))
  {
    PasswordDrawn();
    LongerAbsent("credential", "password");
    MissingLower("auth", "password", {'p', 'a', 's', 'w', 'o', 'r', 'd'}, 'u');
    MissingLower("bearer", "password", {'p', 'a', 's', 'w', 'o', 'r', 'd'}, 'b');
    LongerAbsent("authorization", "password");
  }

  lemma PasswdDrawn()
    ensures DrawnFrom("passwd", {'p', 'a', 's', 'w', 'd'})
  {
  }

  /** No other default key occurs in `passwd`. */
  lemma InPasswd1()
    ensures !Occurs(Lower("password"), Lower("passwd"))
    ensures !Occurs(Lower("pwd"), Lower("passwd"))
    ensures !Occurs(Lower("token"), Lower("passwd"))
    ensures !Occurs(Lower("secret"), Lower("passwd"))
  {
    PasswdDrawn();
    LongerAbsent("password", "passwd");
    SplitAt("pwd", "passwd", 1, {'p'}, 'w', {'s', 'w', 'd'}, 'p');
    MissingLower("token", "passwd", {'p', 'a', 's', 'w', 'd'}, 't');
    MissingLower("secret", "passwd", {'p', 'a', 's', 'w', 'd'}, 'e');
  }

  lemma InPasswd2()
    ensures !Occurs(Lower("api_key"), Lower("passwd"))
    ensures !Occurs(Lower("apikey"), Lower("passwd"))
    ensures !Occurs(Lower("access_key"), Lower("passwd"))
    ensures !Occurs(Lower("private_key"), Lower("passwd"))
  {
    PasswdDrawn();
    LongerAbsent("api_key", "passwd");
    MissingLower("apikey", "passwd", {'p', 'a', 's', 'w', 'd'}, 'i');
    LongerAbsent("access_key", "passwd");
    LongerAbsent("private_key", "passwd");
  }

  lemma InPasswd3()
    ensures !Occurs(Lower("credential"), Lower("passwd"))
    ensures !Occurs(Lower("auth"), Lower("passwd"))
    ensures !Occurs(Lower("bearer"), Lower("passwd"))
    ensures !Occurs(Lower("authorization"), Lower("passwd"))
  {
    PasswdDrawn();
    LongerAbsent("credential", "passwd");
    MissingLower("auth", "passwd", {'p', 'a', 's', 'w', 'd'}, 'u');
    MissingLower("bearer", "passwd", {'p', 'a', 's', 'w', 'd'}, 'b');
    LongerAbsent("authorization", "passwd");
  }

  lemma PwdDrawn()
    ensures DrawnFrom("pwd", {'p', 'w', 'd'})
  {
  }

  /** No other default key occurs in `pwd`. */
  lemma InPwd1()
    ensures !Occurs(Lower("password"), Lower("pwd"))
    ensures !Occurs(Lower("passwd"), Lower("pwd"))
    ensures !Occurs(Lower("token"), Lower("pwd"))
    ensures !Occurs(Lower("secret"), Lower("pwd"))
  {
    LongerAbsent("password", "pwd");
    LongerAbsent("passwd", "pwd");
    LongerAbsent("token", "pwd");
    LongerAbsent("secret", "pwd");
  }

  lemma InPwd2()
    ensures !Occurs(Lower("api_key"), Lower("pwd"))
    ensures !Occurs(Lower("apikey"), Lower("pwd"))
    ensures !Occurs(Lower("access_key"), Lower("pwd"))
    ensures !Occurs(Lower("private_key"), Lower("pwd"))
  {
    LongerAbsent("api_key", "pwd");
    LongerAbsent("apikey", "pwd");
    LongerAbsent("access_key", "pwd");
    LongerAbsent("private_key", "pwd");
  }

  lemma InPwd3()
    ensures !Occurs(Lower("credential"), Lower("pwd"))
    ensures !Occurs(Lower("auth"), Lower("pwd"))
    ensures !Occurs(Lower("bearer"), Lower("pwd"))
    ensures !Occurs(Lower("authorization"), Lower("pwd"))
  {
    LongerAbsent("credential", "pwd");
    LongerAbsent("auth", "pwd");
    LongerAbsent("bearer", "pwd");
    LongerAbsent("authorization", "pwd");
  }

  lemma TokenDrawn()
    ensures DrawnFrom("token", {'t', 'o', 'k', 'e', 'n'})
  {
  }

  /** No other default key occurs in `token`. */
  lemma InToken1()
    ensures !Occurs(Lower("password"), Lower("token"))
    ensures !Occurs(Lower("passwd"), Lower("token"))
    ensures !Occurs(Lower("pwd"), Lower("token"))
    ensures !Occurs(Lower("secret"), Lower("token"))
  {
    TokenDrawn();
    LongerAbsent("password", "token");
    LongerAbsent("passwd", "token");
    MissingLower("pwd", "token", {'t', 'o', 'k', 'e', 'n'}, 'p');
    LongerAbsent("secret", "token");
  }

  lemma InToken2()
    ensures !Occurs(Lower("api_key"), Lower("token"))
    ensures !Occurs(Lower("apikey"), Lower("token"))
    ensures !Occurs(Lower("access_key"), Lower("token"))
    ensures !Occurs(Lower("private_key"), Lower("token"))
  {
    LongerAbsent("api_key", "token");
    LongerAbsent("apikey", "token");
    LongerAbsent("access_key", "token");
    LongerAbsent("private_key", "token");
  }

  lemma InToken3()
    ensures !Occurs(Lower("credential"), Lower("token"))
    ensures !Occurs(Lower("auth"), Lower("token"))
    ensures !Occurs(Lower("bearer"), Lower("token"))
    ensures !Occurs(Lower("authorization"), Lower("token"))
  {
    TokenDrawn();
    LongerAbsent("credential", "token");
    MissingLower("auth", "token", {'t', 'o', 'k', 'e', 'n'}, 'a');
    LongerAbsent("bearer", "token");
    LongerAbsent("authorization", "token");
  }

  lemma SecretDrawn()
    ensures DrawnFrom("secret", {'s', 'e', 'c', 'r', 't'})
  {
  }

  /** No other default key occurs in `secret`. */
  lemma InSecret1()
    ensures !Occurs(Lower("password"), Lower("secret"))
    ensures !Occurs(Lower("passwd"), Lower("secret"))
    ensures !Occurs(Lower("pwd"), Lower("secret"))
    ensures !Occurs(Lower("token"), Lower("secret"))
  {
    SecretDrawn();
    LongerAbsent("password", "secret");
    MissingLower("passwd", "secret", {'s', 'e', 'c', 'r', 't'}, 'p');
    MissingLower("pwd", "secret", {'s', 'e', 'c', 'r', 't'}, 'p');
    MissingLower("token", "secret", {'s', 'e', 'c', 'r', 't'}, 'o');
  }

  lemma InSecret2()
    ensures !Occurs(Lower("api_key"), Lower("secret"))
    ensures !Occurs(Lower("apikey"), Lower("secret"))
    ensures !Occurs(Lower("access_key"), Lower("secret"))
    ensures !Occurs(Lower("private_key"), Lower("secret"))
  {
    SecretDrawn();
    LongerAbsent("api_key", "secret");
    MissingLower("apikey", "secret", {'s', 'e', 'c', 'r', 't'}, 'a');
    LongerAbsent("access_key", "secret");
    LongerAbsent("private_key", "secret");
  }

  lemma InSecret3()
    ensures !Occurs(Lower("credential"), Lower("secret"))
    ensures !Occurs(Lower("auth"), Lower("secret"))
    ensures !Occurs(Lower("bearer"), Lower("secret"))
    ensures !Occurs(Lower("authorization"), Lower("secret"))
  {
    SecretDrawn();
    LongerAbsent("credential", "secret");
    MissingLower("auth", "secret", {'s', 'e', 'c', 'r', 't'}, 'a');
    MissingLower("bearer", "secret", {'s', 'e', 'c', 'r', 't'}, 'b');
    LongerAbsent("authorization", "secret");
  }

  lemma ApiKeyDrawn()
    ensures DrawnFrom("api_key", {'a', 'p', 'i', '_', 'k', 'e', 'y'})
  {
  }

  /** No other default key occurs in `api_key`. */
  lemma InApiKey1()
    ensures !Occurs(Lower("password"), Lower("api_key"))
    ensures !Occurs(Lower("passwd"), Lower("api_key"))
    ensures !Occurs(Lower("pwd"), Lower("api_key"))
    ensures !Occurs(Lower("token"), Lower("api_key"))
  {
    ApiKeyDrawn();
    LongerAbsent("password", "api_key");
    MissingLower("passwd", "api_key", {'a', 'p', 'i', '_', 'k', 'e', 'y'}, 's');
    MissingLower("pwd", "api_key", {'a', 'p', 'i', '_', 'k', 'e', 'y'}, 'w');
    MissingLower("token", "api_key", {'a', 'p', 'i', '_', 'k', 'e', 'y'}, 't');
  }

  lemma InApiKey2()
    ensures !Occurs(Lower("secret"), Lower("api_key"))
    ensures !Occurs(Lower("apikey"), Lower("api_key"))
    ensures !Occurs(Lower("access_key"), Lower("api_key"))
    ensures !Occurs(Lower("private_key"), Lower("api_key"))
  {
    ApiKeyDrawn();
    MissingLower("secret", "api_key", {'a', 'p', 'i', '_', 'k', 'e', 'y'}, 's');
    SplitAt("apikey", "api_key", 3, {'a', 'p', 'i'}, 'k', {'k', 'e', 'y'}, 'a');
    LongerAbsent("access_key", "api_key");
    LongerAbsent("private_key", "api_key");
  }

  lemma InApiKey3()
    ensures !Occurs(Lower("credential"), Lower("api_key"))
    ensures !Occurs(Lower("auth"), Lower("api_key"))
    ensures !Occurs(Lower("bearer"), Lower("api_key"))
    ensures !Occurs(Lower("authorization"), Lower("api_key"))
  {
    ApiKeyDrawn();
    LongerAbsent("credential", "api_key");
    MissingLower("auth", "api_key", {'a', 'p', 'i', '_', 'k', 'e', 'y'}, 'u');
    MissingLower("bearer", "api_key", {'a', 'p', 'i', '_', 'k', 'e', 'y'}, 'b');
    LongerAbsent("authorization", "api_key");
  }

  lemma ApiKeyJoinedDrawn()
    ensures DrawnFrom("apikey", {'a', 'p', 'i', 'k', 'e', 'y'})
  {
  }

  /** No other default key occurs in `apikey`. */
  lemma InApiKeyJoined1()
    ensures !Occurs(Lower("password"), Lower("apikey"))
    ensures !Occurs(Lower("passwd"), Lower("apikey"))
    ensures !Occurs(Lower("pwd"), Lower("apikey"))
    ensures !Occurs(Lower("token"), Lower("apikey"))
  {
    ApiKeyJoinedDrawn();
    LongerAbsent("password", "apikey");
    MissingLower("passwd", "apikey", {'a', 'p', 'i', 'k', 'e', 'y'}, 's');
    MissingLower("pwd", "apikey", {'a', 'p', 'i', 'k', 'e', 'y'}, 'w');
    MissingLower("token", "apikey", {'a', 'p', 'i', 'k', 'e', 'y'}, 't');
  }

  lemma InApiKeyJoined2()
    ensures !Occurs(Lower("secret"), Lower("apikey"))
    ensures !Occurs(Lower("api_key"), Lower("apikey"))
    ensures !Occurs(Lower("access_key"), Lower("apikey"))
    ensures !Occurs(Lower("private_key"), Lower("apikey"))
  {
    ApiKeyJoinedDrawn();
    MissingLower("secret", "apikey", {'a', 'p', 'i', 'k', 'e', 'y'}, 's');
    LongerAbsent("api_key", "apikey");
    LongerAbsent("access_key", "apikey");
    LongerAbsent("private_key", "apikey");
  }

  lemma InApiKeyJoined3()
    ensures !Occurs(Lower("credential"), Lower("apikey"))
    ensures !Occurs(Lower("auth"), Lower("apikey"))
    ensures !Occurs(Lower("bearer"), Lower("apikey"))
    ensures !Occurs(Lower("authorization"), Lower("apikey"))
  {
    ApiKeyJoinedDrawn();
    LongerAbsent("credential", "apikey");
    MissingLower("auth", "apikey", {'a', 'p', 'i', 'k', 'e', 'y'}, 'u');
    MissingLower("bearer", "apikey", {'a', 'p', 'i', 'k', 'e', 'y'}, 'b');
    LongerAbsent("authorization", "apikey");
  }

  lemma AccessKeyDrawn()
    ensures DrawnFrom("access_key", {'a', 'c', 'e', 's', '_', 'k', 'y'})
  {
  }

  /** No other default key occurs in `access_key`. */
  lemma InAccessKey1()
    ensures !Occurs(Lower("password"), Lower("access_key"))
    ensures !Occurs(Lower("passwd"), Lower("access_key"))
    ensures !Occurs(Lower("pwd"), Lower("access_key"))
    ensures !Occurs(Lower("token"), Lower("access_key"))
  {
    AccessKeyDrawn();
    MissingLower("password", "access_key", {'a', 'c', 'e', 's', '_', 'k', 'y'}, 'p');
    MissingLower("passwd", "access_key", {'a', 'c', 'e', 's', '_', 'k', 'y'}, 'p');
    MissingLower("pwd", "access_key", {'a', 'c', 'e', 's', '_', 'k', 'y'}, 'p');
    MissingLower("token", "access_key", {'a', 'c', 'e', 's', '_', 'k', 'y'}, 't');
  }

  lemma InAccessKey2()
    ensures !Occurs(Lower("secret"), Lower("access_key"))
    ensures !Occurs(Lower("api_key"), Lower("access_key"))
    ensures !Occurs(Lower("apikey"), Lower("access_key"))
    ensures !Occurs(Lower("private_key"), Lower("access_key"))
  {
    AccessKeyDrawn();
    MissingLower("secret", "access_key", {'a', 'c', 'e', 's', '_', 'k', 'y'}, 'r');
    MissingLower("api_key", "access_key", {'a', 'c', 'e', 's', '_', 'k', 'y'}, 'p');
    MissingLower("apikey", "access_key", {'a', 'c', 'e', 's', '_', 'k', 'y'}, 'p');
    LongerAbsent("private_key", "access_key");
  }

  lemma InAccessKey3()
    ensures !Occurs(Lower("credential"), Lower("access_key"))
    ensures !Occurs(Lower("auth"), Lower("access_key"))
    ensures !Occurs(Lower("bearer"), Lower("access_key"))
    ensures !Occurs(Lower("authorization"), Lower("access_key"))
  {
    AccessKeyDrawn();
    MissingLower("credential", "access_key", {'a', 'c', 'e', 's', '_', 'k', 'y'}, 'r');
    MissingLower("auth", "access_key", {'a', 'c', 'e', 's', '_', 'k', 'y'}, 'u');
    MissingLower("bearer", "access_key", {'a', 'c', 'e', 's', '_', 'k', 'y'}, 'b');
    LongerAbsent("authorization", "access_key");
  }

  lemma PrivateKeyDrawn()
    ensures DrawnFrom("private_key", {'p', 'r', 'i', 'v', 'a', 't', 'e', '_', 'k', 'y'})
  {
  }

  /** No other default key occurs in `private_key`. */
  lemma InPrivateKey1()
    ensures !Occurs(Lower("password"), Lower("private_key"))
    ensures !Occurs(Lower("passwd"), Lower("private_key"))
    ensures !Occurs(Lower("pwd"), Lower("private_key"))
    ensures !Occurs(Lower("token"), Lower("private_key"))
  {
    PrivateKeyDrawn();
    MissingLower("password", "private_key", {'p', 'r', 'i', 'v', 'a', 't', 'e', '_', 'k', 'y'}, 's');
    MissingLower("passwd", "private_key", {'p', 'r', 'i', 'v', 'a', 't', 'e', '_', 'k', 'y'}, 's');
    MissingLower("pwd", "private_key", {'p', 'r', 'i', 'v', 'a', 't', 'e', '_', 'k', 'y'}, 'w');
    MissingLower("token", "private_key", {'p', 'r', 'i', 'v', 'a', 't', 'e', '_', 'k', 'y'}, 'o');
  }

  lemma InPrivateKey2()
    ensures !Occurs(Lower("secret"), Lower("private_key"))
    ensures !Occurs(Lower("api_key"), Lower("private_key"))
    ensures !Occurs(Lower("access_key"), Lower("private_key"))
  {
    PrivateKeyDrawn();
    MissingLower("secret", "private_key", {'p', 'r', 'i', 'v', 'a', 't', 'e', '_', 'k', 'y'}, 's');
    SplitAt("api_key", "private_key", 3, {'p', 'r', 'i'}, 'a', {'a', 't', 'e', '_', 'k', 'y'}, 'p');
    MissingLower("access_key", "private_key", {'p', 'r', 'i', 'v', 'a', 't', 'e', '_', 'k', 'y'}, 'c');
  }

  lemma InPrivateKey4()
    ensures !Occurs(Lower("apikey"), Lower("private_key"))
  {
    SplitAt("apikey", "private_key", 7, {'p', 'r', 'i', 'v', 'a', 't', 'e'}, 'k', {'k', 'e', 'y'}, 'a');
  }

  lemma InPrivateKey3()
    ensures !Occurs(Lower("credential"), Lower("private_key"))
    ensures !Occurs(Lower("auth"), Lower("private_key"))
    ensures !Occurs(Lower("bearer"), Lower("private_key"))
    ensures !Occurs(Lower("authorization"), Lower("private_key"))
  {
    PrivateKeyDrawn();
    MissingLower("credential", "private_key", {'p', 'r', 'i', 'v', 'a', 't', 'e', '_', 'k', 'y'}, 'c');
    MissingLower("auth", "private_key", {'p', 'r', 'i', 'v', 'a', 't', 'e', '_', 'k', 'y'}, 'u');
    MissingLower("bearer", "private_key", {'p', 'r', 'i', 'v', 'a', 't', 'e', '_', 'k', 'y'}, 'b');
    LongerAbsent("authorization", "private_key");
  }

  lemma CredentialDrawn()
    ensures DrawnFrom("credential", {'c', 'r', 'e', 'd', 'n', 't', 'i', 'a', 'l'})
  {
  }

  /** No other default key occurs in `credential`. */
  lemma InCredential1()
    ensures !Occurs(Lower("password"), Lower("credential"))
    ensures !Occurs(Lower("passwd"), Lower("credential"))
    ensures !Occurs(Lower("pwd"), Lower("credential"))
    ensures !Occurs(Lower("token"), Lower("credential"))
  {
    CredentialDrawn();
    MissingLower("password", "credential", {'c', 'r', 'e', 'd', 'n', 't', 'i', 'a', 'l'}, 'p');
    MissingLower("passwd", "credential", {'c', 'r', 'e', 'd', 'n', 't', 'i', 'a', 'l'}, 'p');
    MissingLower("pwd", "credential", {'c', 'r', 'e', 'd', 'n', 't', 'i', 'a', 'l'}, 'p');
    MissingLower("token", "credential", {'c', 'r', 'e', 'd', 'n', 't', 'i', 'a', 'l'}, 'o');
  }

  lemma InCredential2()
    ensures !Occurs(Lower("secret"), Lower("credential"))
    ensures !Occurs(Lower("api_key"), Lower("credential"))
    ensures !Occurs(Lower("apikey"), Lower("credential"))
    ensures !Occurs(Lower("access_key"), Lower("credential"))
  {
    CredentialDrawn();
    MissingLower("secret", "credential", {'c', 'r', 'e', 'd', 'n', 't', 'i', 'a', 'l'}, 's');
    MissingLower("api_key", "credential", {'c', 'r', 'e', 'd', 'n', 't', 'i', 'a', 'l'}, 'p');
    MissingLower("apikey", "credential", {'c', 'r', 'e', 'd', 'n', 't', 'i', 'a', 'l'}, 'p');
    MissingLower("access_key", "credential", {'c', 'r', 'e', 'd', 'n', 't', 'i', 'a', 'l'}, 's');
  }

  lemma InCredential3()
    ensures !Occurs(Lower("private_key"), Lower("credential"))
    ensures !Occurs(Lower("auth"), Lower("credential"))
    ensures !Occurs(Lower("bearer"), Lower("credential"))
    ensures !Occurs(Lower("authorization"), Lower("credential"))
  {
    CredentialDrawn();
    LongerAbsent("private_key", "credential");
    MissingLower("auth", "credential", {'c', 'r', 'e', 'd', 'n', 't', 'i', 'a', 'l'}, 'u');
    MissingLower("bearer", "credential", {'c', 'r', 'e', 'd', 'n', 't', 'i', 'a', 'l'}, 'b');
    LongerAbsent("authorization", "credential");
  }

  lemma AuthDrawn()
    ensures DrawnFrom("auth", {'a', 'u', 't', 'h'})
  {
  }

  /** No other default key occurs in `auth`. */
  lemma InAuth1()
    ensures !Occurs(Lower("password"), Lower("auth"))
    ensures !Occurs(Lower("passwd"), Lower("auth"))
    ensures !Occurs(Lower("pwd"), Lower("auth"))
    ensures !Occurs(Lower("token"), Lower("auth"))
  {
    AuthDrawn();
    LongerAbsent("password", "auth");
    LongerAbsent("passwd", "auth");
    MissingLower("pwd", "auth", {'a', 'u', 't', 'h'}, 'p');
    LongerAbsent("token", "auth");
  }

  lemma InAuth2()
    ensures !Occurs(Lower("secret"), Lower("auth"))
    ensures !Occurs(Lower("api_key"), Lower("auth"))
    ensures !Occurs(Lower("apikey"), Lower("auth"))
    ensures !Occurs(Lower("access_key"), Lower("auth"))
  {
    LongerAbsent("secret", "auth");
    LongerAbsent("api_key", "auth");
    LongerAbsent("apikey", "auth");
    LongerAbsent("access_key", "auth");
  }

  lemma InAuth3()
    ensures !Occurs(Lower("private_key"), Lower("auth"))
    ensures !Occurs(Lower("credential"), Lower("auth"))
    ensures !Occurs(Lower("bearer"), Lower("auth"))
    ensures !Occurs(Lower("authorization"), Lower("auth"))
  {
    LongerAbsent("private_key", "auth");
    LongerAbsent("credential", "auth");
    LongerAbsent("bearer", "auth");
    LongerAbsent("authorization", "auth");
  }

  lemma BearerDrawn()
    ensures DrawnFrom("bearer", {'b', 'e', 'a', 'r'})
  {
  }

  /** No other default key occurs in `bearer`. */
  lemma InBearer1()
    ensures !Occurs(Lower("password"), Lower("bearer"))
    ensures !Occurs(Lower("passwd"), Lower("bearer"))
    ensures !Occurs(Lower("pwd"), Lower("bearer"))
    ensures !Occurs(Lower("token"), Lower("bearer"))
  {
    BearerDrawn();
    LongerAbsent("password", "bearer");
    MissingLower("passwd", "bearer", {'b', 'e', 'a', 'r'}, 'p');
    MissingLower("pwd", "bearer", {'b', 'e', 'a', 'r'}, 'p');
    MissingLower("token", "bearer", {'b', 'e', 'a', 'r'}, 't');
  }

  lemma InBearer2()
    ensures !Occurs(Lower("secret"), Lower("bearer"))
    ensures !Occurs(Lower("api_key"), Lower("bearer"))
    ensures !Occurs(Lower("apikey"), Lower("bearer"))
    ensures !Occurs(Lower("access_key"), Lower("bearer"))
  {
    BearerDrawn();
    MissingLower("secret", "bearer", {'b', 'e', 'a', 'r'}, 's');
    LongerAbsent("api_key", "bearer");
    MissingLower("apikey", "bearer", {'b', 'e', 'a', 'r'}, 'p');
    LongerAbsent("access_key", "bearer");
  }

  lemma InBearer3()
    ensures !Occurs(Lower("private_key"), Lower("bearer"))
    ensures !Occurs(Lower("credential"), Lower("bearer"))
    ensures !Occurs(Lower("auth"), Lower("bearer"))
    ensures !Occurs(Lower("authorization"), Lower("bearer"))
  {
    BearerDrawn();
    LongerAbsent("private_key", "bearer");
    LongerAbsent("credential", "bearer");
    MissingLower("auth", "bearer", {'b', 'e', 'a', 'r'}, 'u');
    LongerAbsent("authorization", "bearer");
  }

  lemma AuthorizationDrawn()
    ensures DrawnFrom("authorization", {'a', 'u', 't', 'h', 'o', 'r', 'i', 'z', 'n'})
  {
  }

  /** No other default key occurs in `authorization` but `auth`. */
  lemma InAuthorization1()
    ensures !Occurs(Lower("password"), Lower("authorization"))
    ensures !Occurs(Lower("passwd"), Lower("authorization"))
    ensures !Occurs(Lower("pwd"), Lower("authorization"))
    ensures !Occurs(Lower("token"), Lower("authorization"))
  {
    AuthorizationDrawn();
    MissingLower("password", "authorization", {'a', 'u', 't', 'h', 'o', 'r', 'i', 'z', 'n'}, 'p');
    MissingLower("passwd", "authorization", {'a', 'u', 't', 'h', 'o', 'r', 'i', 'z', 'n'}, 'p');
    MissingLower("pwd", "authorization", {'a', 'u', 't', 'h', 'o', 'r', 'i', 'z', 'n'}, 'p');
    MissingLower("token", "authorization", {'a', 'u', 't', 'h', 'o', 'r', 'i', 'z', 'n'}, 'k');
  }

  lemma InAuthorization2()
    ensures !Occurs(Lower("secret"), Lower("authorization"))
    ensures !Occurs(Lower("api_key"), Lower("authorization"))
    ensures !Occurs(Lower("apikey"), Lower("authorization"))
    ensures !Occurs(Lower("access_key"), Lower("authorization"))
  {
    AuthorizationDrawn();
    MissingLower("secret", "authorization", {'a', 'u', 't', 'h', 'o', 'r', 'i', 'z', 'n'}, 's');
    MissingLower("api_key", "authorization", {'a', 'u', 't', 'h', 'o', 'r', 'i', 'z', 'n'}, 'p');
    MissingLower("apikey", "authorization", {'a', 'u', 't', 'h', 'o', 'r', 'i', 'z', 'n'}, 'p');
    MissingLower("access_key", "authorization", {'a', 'u', 't', 'h', 'o', 'r', 'i', 'z', 'n'}, 'c');
  }

  lemma InAuthorization3()
    ensures !Occurs(Lower("private_key"), Lower("authorization"))
    ensures !Occurs(Lower("credential"), Lower("authorization"))
    ensures !Occurs(Lower("bearer"), Lower("authorization"))
  {
    AuthorizationDrawn();
    MissingLower("private_key", "authorization", {'a', 'u', 't', 'h', 'o', 'r', 'i', 'z', 'n'}, 'p');
    MissingLower("credential", "authorization", {'a', 'u', 't', 'h', 'o', 'r', 'i', 'z', 'n'}, 'c');
    MissingLower("bearer", "authorization", {'a', 'u', 't', 'h', 'o', 'r', 'i', 'z', 'n'}, 'b');
  }

  lemma MaskTextDrawn()
    ensures DrawnFrom("***MASKED***", {'*', 'M', 'A', 'S', 'K', 'E', 'D'})
  {
  }

  /** No default key occurs in the mask text. */
  lemma KeysNotInMask1()
    ensures !Occurs(Lower("password"), Lower("***MASKED***"))
    ensures !Occurs(Lower("passwd"), Lower("***MASKED***"))
    ensures !Occurs(Lower("pwd"), Lower("***MASKED***"))
    ensures !Occurs(Lower("token"), Lower("***MASKED***"))
  {
    MaskTextDrawn();
    MissingLower("password", "***MASKED***", {'*', 'M', 'A', 'S', 'K', 'E', 'D'}, 'p');
    MissingLower("passwd", "***MASKED***", {'*', 'M', 'A', 'S', 'K', 'E', 'D'}, 'p');
    MissingLower("pwd", "***MASKED***", {'*', 'M', 'A', 'S', 'K', 'E', 'D'}, 'p');
    MissingLower("token", "***MASKED***", {'*', 'M', 'A', 'S', 'K', 'E', 'D'}, 't');
  }

  lemma KeysNotInMask2()
    ensures !Occurs(Lower("secret"), Lower("***MASKED***"))
    ensures !Occurs(Lower("api_key"), Lower("***MASKED***"))
    ensures !Occurs(Lower("apikey"), Lower("***MASKED***"))
    ensures !Occurs(Lower("access_key"), Lower("***MASKED***"))
  {
    MaskTextDrawn();
    MissingLower("secret", "***MASKED***", {'*', 'M', 'A', 'S', 'K', 'E', 'D'}, 'c');
    MissingLower("api_key", "***MASKED***", {'*', 'M', 'A', 'S', 'K', 'E', 'D'}, 'p');
    MissingLower("apikey", "***MASKED***", {'*', 'M', 'A', 'S', 'K', 'E', 'D'}, 'p');
    MissingLower("access_key", "***MASKED***", {'*', 'M', 'A', 'S', 'K', 'E', 'D'}, 'c');
  }

  lemma KeysNotInMask3()
    ensures !Occurs(Lower("private_key"), Lower("***MASKED***"))
    ensures !Occurs(Lower("credential"), Lower("***MASKED***"))
    ensures !Occurs(Lower("auth"), Lower("***MASKED***"))
    ensures !Occurs(Lower("bearer"), Lower("***MASKED***"))
  {
    MaskTextDrawn();
    MissingLower("private_key", "***MASKED***", {'*', 'M', 'A', 'S', 'K', 'E', 'D'}, 'p');
    MissingLower("credential", "***MASKED***", {'*', 'M', 'A', 'S', 'K', 'E', 'D'}, 'c');
    MissingLower("auth", "***MASKED***", {'*', 'M', 'A', 'S', 'K', 'E', 'D'}, 'u');
    MissingLower("bearer", "***MASKED***", {'*', 'M', 'A', 'S', 'K', 'E', 'D'}, 'b');
  }

  lemma KeysNotInMask4()
    ensures !Occurs(Lower("authorization"), Lower("***MASKED***"))
  {
    MaskTextDrawn();
    MissingLower("authorization", "***MASKED***", {'*', 'M', 'A', 'S', 'K', 'E', 'D'}, 'u');
  }

  /** `authorization` begins with `auth`, followed by `o`. */
  lemma AuthorizationShape()
    ensures "authorization"[..4] == "auth" && "authorization"[4] == 'o'
    ensures "authorization"[1..] == "uthorization"
  {
  }

  /** `auth` does not occur in what follows the first letter of
      `authorization`. */
  lemma AuthNotInTail()
    ensures !Occurs(Lower("auth"), Lower("uthorization"))
  {
    SplitAt("auth", "uthorization", 6, {'u', 't', 'h', 'o', 'r', 'i'}, 'a', {'a', 't', 'i', 'o', 'n'}, 'u');
  }
}

/** The sensitive-data filter's masking, followed key by key on the
    messages of `MaskingTexts`. */
module MaskingExamples {

  import opened Text
  import opened Filters
  import opened MaskingTexts

  /** Keys none of which occurs leave the text as it is. */
  lemma NoKeyIn(s: string, ks: seq<string>)
    requires forall k :: k in ks ==> !Occurs(Lower(k), Lower(s))
    ensures MaskAll(s, ks) == s
  {
    assert forall i :: 0 <= i < |ks| ==> ks[i] in ks;
  }

  /** `key=value` followed by a character that ends the value: the key and
      `=` are kept, the value masked, and the rest masked on its own. */
  lemma PairThen(k: string, v: string, rest: string)
    requires v != [] && AllValueChars(v)
    requires rest == [] || !IsValueChar(rest[0])
    ensures Masked(k + "=" + v + rest, k) == k + "=" + MaskText + Masked(rest, k)
  {
    var pre := k + "=";
    assert pre == k + ([] + ([] + (['='] + ([] + []))));
    assert pre + (v + rest) == k + "=" + v + rest;
    MaskPair(k, k, [], [], '=', [], [], v, rest);
  }

  /** `key=value` after a prefix in which no match can start is masked and
      the prefix kept. */
  lemma PairAfter(pre: string, k: string, v: string)
    requires k != [] && v != [] && AllValueChars(v)
    requires !Occurs(Lower(k), Lower(pre + k[..|k| - 1]))
    ensures Masked(pre + (k + "=" + v), k) == pre + (k + "=" + MaskText)
  {
    var s := k + "=" + v;
    assert Take(s, |k| - 1) == k[..|k| - 1];
    MaskedPrefix(pre, s, k);
    PlainPair(k, v);
  }

  // ------------------------------------------------------- the login message

  /** The first key masks the password and keeps the words before it. */
  lemma LoginPassword()
    ensures Masked(Login, "password") == LoginMasked
  {
    LoginShape();
    LoginBeforeKey();
    assert AllValueChars("secret123");
    PairAfter("User login with ", "password", "secret123");
  }

  /** No key after the first occurs in the masked login message. */
  lemma LoginRestAbsent()
    ensures forall k :: k in DefaultPatterns[1..] ==> !Occurs(Lower(k), Lower(LoginMasked))
  {
    LoginNoPasswd();
    LoginNoPwd();
    LoginNoToken();
    LoginLacks();
    LoginLacksMore();
    LoginNoAuth();
    LoginLacksLast();
  }

  /** The filter turns `User login with password=secret123` into
      `User login with password=***MASKED***`. */
  lemma LoginMessageMasked()
    ensures MaskAll(Login, DefaultPatterns) == LoginMasked
  {
    LoginPassword();
    LoginRestAbsent();
    NoKeyIn(LoginMasked, DefaultPatterns[1..]);
  }

  // ----------------------------------------------------- the two-secret line

  /** `password` masks the first pair and nothing else. */
  lemma PairsPassword()
    ensures Masked(Pairs, "password") == PairsHalf
  {
    PairsShape();
    HalfFirstShape();
    assert AllValueChars("secret");
    PairThen("password", "secret", " and token=abc123");
    PairsRest();
  }

  /** `token` masks the second pair and keeps what is before it. */
  lemma PairsToken()
    ensures Masked(PairsHalf, "token") == PairsMasked
  {
    HalfShape();
    HalfBeforeToken();
    assert AllValueChars("abc123");
    PairAfter("password=***MASKED*** and ", "token", "abc123");
  }

  /** The first four default keys. */
  lemma DefaultHead()
    ensures DefaultPatterns[0] == "password"
    ensures DefaultPatterns[1..][0] == "passwd" && DefaultPatterns[1..][1] == "pwd"
    ensures DefaultPatterns[1..][2..] == DefaultPatterns[3..]
    ensures DefaultPatterns[3..][0] == "token" && DefaultPatterns[3..][1..] == DefaultPatterns[4..]
  {
  }

  /** Through the first four keys, a text whose password `password` masks,
      in which `passwd` and `pwd` then do not occur, and whose token `token`
      then masks, is masked by those two keys alone. */
  lemma FirstFourKeys(s: string, h: string, m: string)
    requires Masked(s, "password") == h
    requires !Occurs(Lower("passwd"), Lower(h)) && !Occurs(Lower("pwd"), Lower(h))
    requires Masked(h, "token") == m
    ensures MaskAll(s, DefaultPatterns) == MaskAll(m, DefaultPatterns[4..])
  {
    var rest := DefaultPatterns[1..];
    DefaultHead();
    MaskAllSkip(h, rest, 2);
  }

  /** No key after `token` occurs in the masked line. */
  lemma PairsRestAbsent()
    ensures forall k :: k in DefaultPatterns[4..] ==> !Occurs(Lower(k), Lower(PairsMasked))
  {
    PairsLacks();
    PairsLacksMore();
    PairsLacksLast();
  }

  /** The filter turns `password=secret and token=abc123` into
      `password=***MASKED*** and token=***MASKED***`. */
  lemma TwoSecretsMasked()
    ensures MaskAll(Pairs, DefaultPatterns) == PairsMasked
  {
    PairsPassword();
    HalfNoPasswd();
    HalfNoPwd();
    PairsToken();
    FirstFourKeys(Pairs, PairsHalf, PairsMasked);
    PairsRestAbsent();
    NoKeyIn(PairsMasked, DefaultPatterns[4..]);
  }

  // ------------------------------------------- messages with words in front

  /** No default key is empty or holds a space or `=`. */
  lemma DefaultKeysPlain()
    ensures forall k :: k in DefaultPatterns ==> k != [] && ' ' !in k && '=' !in k
  {
  }

  /** Words in front of a masked text, in which no default key occurs,
      are kept as they are. */
  lemma DefaultsAfterSpace(a: string, s: string, m: string)
    requires forall k :: k in DefaultPatterns ==> !Occurs(Lower(k), Lower(a))
    requires MaskAll(s, DefaultPatterns) == m
    ensures MaskAll(a + " " + s, DefaultPatterns) == a + " " + m
  {
    DefaultKeysPlain();
    MaskAllAfterSpace(a, s, DefaultPatterns);
  }

  /** No default key occurs in `Login with`. */
  lemma LoginWithAbsent()
    ensures forall k :: k in DefaultPatterns ==> !Occurs(Lower(k), Lower(LoginWith))
  {
    LoginWithLacks();
    LoginWithLacksMore();
    LoginWithLacksLast();
  }

  /** The filter turns `Login with password=secret and token=abc123` into
      `Login with password=***MASKED*** and token=***MASKED***`: the words
      in front are kept and the pairs masked as on their own. */
  lemma LoginPairsMasked()
    ensures MaskAll(LoginWith + " " + Pairs, DefaultPatterns) == LoginWith + " " + PairsMasked
  {
    LoginWithAbsent();
    TwoSecretsMasked();
    DefaultsAfterSpace(LoginWith, Pairs, PairsMasked);
  }

  /** A line that is one `key=value` pair of the `j`-th default key is
      masked by that key alone when no other key occurs in it. */
  lemma DefaultPair(j: nat, v: string, line: string, masked: string)
    requires j < |DefaultPatterns| && v != [] && AllValueChars(v)
    requires line == DefaultPatterns[j] + "=" + v && masked == DefaultPatterns[j] + "=" + MaskText
    requires forall i :: 0 <= i < j ==> !Occurs(Lower(DefaultPatterns[i]), Lower(line))
    requires forall i :: j < i < |DefaultPatterns| ==> !Occurs(Lower(DefaultPatterns[i]), Lower(masked))
    ensures MaskAll(line, DefaultPatterns) == masked
  {
    DefaultKeysPlain();
    assert DefaultPatterns[j] in DefaultPatterns;
    MaskAllPair(DefaultPatterns, j, v);
  }

  /** The keys before `token` do not occur in the token pair. */
  lemma TokenBefore()
    ensures forall i :: 0 <= i < 3 ==> !Occurs(Lower(DefaultPatterns[i]), Lower(TokenLine))
  {
    TokenLineLacks();
  }

  /** The keys after `token` do not occur in the masked token pair. */
  lemma TokenAfter()
    ensures forall i :: 3 < i < |DefaultPatterns| ==> !Occurs(Lower(DefaultPatterns[i]), Lower(TokenMasked))
  {
    TokenMaskedLacks();
    TokenMaskedLacksMore();
    TokenMaskedLacksLast();
  }

  /** `token=abc123xyz` on its own: only `token` masks it. */
  lemma TokenPairMasked()
    ensures MaskAll(TokenLine, DefaultPatterns) == TokenMasked
  {
    assert TokenLine == DefaultPatterns[3] + "=" + "abc123xyz";
    assert TokenMasked == DefaultPatterns[3] + "=" + MaskText;
    TokenBefore();
    TokenAfter();
    ValueRun("abc123xyz");
    DefaultPair(3, "abc123xyz", TokenLine, TokenMasked);
  }

  /** No default key occurs in `API call with`. */
  lemma ApiCallAbsent()
    ensures forall k :: k in DefaultPatterns ==> !Occurs(Lower(k), Lower(ApiCall))
  {
    ApiCallLacks();
    ApiCallLacksMore();
    ApiCallLacksLast();
  }

  /** The filter turns `API call with token=abc123xyz` into
      `API call with token=***MASKED***`. */
  lemma ApiTokenMasked()
    ensures MaskAll(ApiCall + " " + TokenLine, DefaultPatterns) == ApiCall + " " + TokenMasked
  {
    ApiCallAbsent();
    TokenPairMasked();
    DefaultsAfterSpace(ApiCall, TokenLine, TokenMasked);
  }
  // ------------------------------------------- one pair of each default key

  /** No other default key occurs in `password`. */
  lemma NotInKey0(i: nat)
    requires i < |DefaultPatterns| && i != 0
    ensures !Occurs(Lower(DefaultPatterns[i]), Lower(DefaultPatterns[0]))
  {
    InPassword1();
    InPassword2();
    InPassword3();
    if i == 1 {
    } else if i == 2 {
    } else if i == 3 {
    } else if i == 4 {
    } else if i == 5 {
    } else if i == 6 {
    } else if i == 7 {
    } else if i == 8 {
    } else if i == 9 {
    } else if i == 10 {
    } else if i == 11 {
    } else if i == 12 {
    }
  }

  /** No other default key occurs in `passwd`. */
  lemma NotInKey1(i: nat)
    requires i < |DefaultPatterns| && i != 1
    ensures !Occurs(Lower(DefaultPatterns[i]), Lower(DefaultPatterns[1]))
  {
    InPasswd1();
    InPasswd2();
    InPasswd3();
    if i == 0 {
    } else if i == 2 {
    } else if i == 3 {
    } else if i == 4 {
    } else if i == 5 {
    } else if i == 6 {
    } else if i == 7 {
    } else if i == 8 {
    } else if i == 9 {
    } else if i == 10 {
    } else if i == 11 {
    } else if i == 12 {
    }
  }

  /** No other default key occurs in `pwd`. */
  lemma NotInKey2(i: nat)
    requires i < |DefaultPatterns| && i != 2
    ensures !Occurs(Lower(DefaultPatterns[i]), Lower(DefaultPatterns[2]))
  {
    InPwd1();
    InPwd2();
    InPwd3();
    if i == 0 {
    } else if i == 1 {
    } else if i == 3 {
    } else if i == 4 {
    } else if i == 5 {
    } else if i == 6 {
    } else if i == 7 {
    } else if i == 8 {
    } else if i == 9 {
    } else if i == 10 {
    } else if i == 11 {
    } else if i == 12 {
    }
  }

  /** No other default key occurs in `token`. */
  lemma NotInKey3(i: nat)
    requires i < |DefaultPatterns| && i != 3
    ensures !Occurs(Lower(DefaultPatterns[i]), Lower(DefaultPatterns[3]))
  {
    InToken1();
    InToken2();
    InToken3();
    if i == 0 {
    } else if i == 1 {
    } else if i == 2 {
    } else if i == 4 {
    } else if i == 5 {
    } else if i == 6 {
    } else if i == 7 {
    } else if i == 8 {
    } else if i == 9 {
    } else if i == 10 {
    } else if i == 11 {
    } else if i == 12 {
    }
  }

  /** No other default key occurs in `secret`. */
  lemma NotInKey4(i: nat)
    requires i < |DefaultPatterns| && i != 4
    ensures !Occurs(Lower(DefaultPatterns[i]), Lower(DefaultPatterns[4]))
  {
    InSecret1();
    InSecret2();
    InSecret3();
    if i == 0 {
    } else if i == 1 {
    } else if i == 2 {
    } else if i == 3 {
    } else if i == 5 {
    } else if i == 6 {
    } else if i == 7 {
    } else if i == 8 {
    } else if i == 9 {
    } else if i == 10 {
    } else if i == 11 {
    } else if i == 12 {
    }
  }

  /** No other default key occurs in `api_key`. */
  lemma NotInKey5(i: nat)
    requires i < |DefaultPatterns| && i != 5
    ensures !Occurs(Lower(DefaultPatterns[i]), Lower(DefaultPatterns[5]))
  {
    InApiKey1();
    InApiKey2();
    InApiKey3();
    if i == 0 {
    } else if i == 1 {
    } else if i == 2 {
    } else if i == 3 {
    } else if i == 4 {
    } else if i == 6 {
    } else if i == 7 {
    } else if i == 8 {
    } else if i == 9 {
    } else if i == 10 {
    } else if i == 11 {
    } else if i == 12 {
    }
  }

  /** No other default key occurs in `apikey`. */
  lemma NotInKey6(i: nat)
    requires i < |DefaultPatterns| && i != 6
    ensures !Occurs(Lower(DefaultPatterns[i]), Lower(DefaultPatterns[6]))
  {
    InApiKeyJoined1();
    InApiKeyJoined2();
    InApiKeyJoined3();
    if i == 0 {
    } else if i == 1 {
    } else if i == 2 {
    } else if i == 3 {
    } else if i == 4 {
    } else if i == 5 {
    } else if i == 7 {
    } else if i == 8 {
    } else if i == 9 {
    } else if i == 10 {
    } else if i == 11 {
    } else if i == 12 {
    }
  }

  /** No other default key occurs in `access_key`. */
  lemma NotInKey7(i: nat)
    requires i < |DefaultPatterns| && i != 7
    ensures !Occurs(Lower(DefaultPatterns[i]), Lower(DefaultPatterns[7]))
  {
    InAccessKey1();
    InAccessKey2();
    InAccessKey3();
    if i == 0 {
    } else if i == 1 {
    } else if i == 2 {
    } else if i == 3 {
    } else if i == 4 {
    } else if i == 5 {
    } else if i == 6 {
    } else if i == 8 {
    } else if i == 9 {
    } else if i == 10 {
    } else if i == 11 {
    } else if i == 12 {
    }
  }

  /** No other default key occurs in `private_key`. */
  lemma NotInKey8(i: nat)
    requires i < |DefaultPatterns| && i != 8
    ensures !Occurs(Lower(DefaultPatterns[i]), Lower(DefaultPatterns[8]))
  {
    InPrivateKey1();
    InPrivateKey2();
    InPrivateKey3();
    InPrivateKey4();
    if i == 0 {
    } else if i == 1 {
    } else if i == 2 {
    } else if i == 3 {
    } else if i == 4 {
    } else if i == 5 {
    } else if i == 6 {
    } else if i == 7 {
    } else if i == 9 {
    } else if i == 10 {
    } else if i == 11 {
    } else if i == 12 {
    }
  }

  /** No other default key occurs in `credential`. */
  lemma NotInKey9(i: nat)
    requires i < |DefaultPatterns| && i != 9
    ensures !Occurs(Lower(DefaultPatterns[i]), Lower(DefaultPatterns[9]))
  {
    InCredential1();
    InCredential2();
    InCredential3();
    if i == 0 {
    } else if i == 1 {
    } else if i == 2 {
    } else if i == 3 {
    } else if i == 4 {
    } else if i == 5 {
    } else if i == 6 {
    } else if i == 7 {
    } else if i == 8 {
    } else if i == 10 {
    } else if i == 11 {
    } else if i == 12 {
    }
  }

  /** No other default key occurs in `auth`. */
  lemma NotInKey10(i: nat)
    requires i < |DefaultPatterns| && i != 10
    ensures !Occurs(Lower(DefaultPatterns[i]), Lower(DefaultPatterns[10]))
  {
    InAuth1();
    InAuth2();
    InAuth3();
    if i == 0 {
    } else if i == 1 {
    } else if i == 2 {
    } else if i == 3 {
    } else if i == 4 {
    } else if i == 5 {
    } else if i == 6 {
    } else if i == 7 {
    } else if i == 8 {
    } else if i == 9 {
    } else if i == 11 {
    } else if i == 12 {
    }
  }

  /** No other default key occurs in `bearer`. */
  lemma NotInKey11(i: nat)
    requires i < |DefaultPatterns| && i != 11
    ensures !Occurs(Lower(DefaultPatterns[i]), Lower(DefaultPatterns[11]))
  {
    InBearer1();
    InBearer2();
    InBearer3();
    if i == 0 {
    } else if i == 1 {
    } else if i == 2 {
    } else if i == 3 {
    } else if i == 4 {
    } else if i == 5 {
    } else if i == 6 {
    } else if i == 7 {
    } else if i == 8 {
    } else if i == 9 {
    } else if i == 10 {
    } else if i == 12 {
    }
  }

  /** No other default key but `auth` occurs in `authorization`. */
  lemma NotInKey12(i: nat)
    requires i < |DefaultPatterns| && i != 12 && i != 10
    ensures !Occurs(Lower(DefaultPatterns[i]), Lower(DefaultPatterns[12]))
  {
    InAuthorization1();
    InAuthorization2();
    InAuthorization3();
    if i == 0 {
    } else if i == 1 {
    } else if i == 2 {
    } else if i == 3 {
    } else if i == 4 {
    } else if i == 5 {
    } else if i == 6 {
    } else if i == 7 {
    } else if i == 8 {
    } else if i == 9 {
    } else if i == 11 {
    }
  }

  /** No default key occurs in the mask text. */
  lemma KeyNotInMask(i: nat)
    requires i < |DefaultPatterns|
    ensures !Occurs(Lower(DefaultPatterns[i]), Lower(MaskText))
  {
    KeysNotInMask1();
    KeysNotInMask2();
    KeysNotInMask3();
    KeysNotInMask4();
    assert MaskText == "***MASKED***";
    if i == 0 {
    } else if i == 1 {
    } else if i == 2 {
    } else if i == 3 {
    } else if i == 4 {
    } else if i == 5 {
    } else if i == 6 {
    } else if i == 7 {
    } else if i == 8 {
    } else if i == 9 {
    } else if i == 10 {
    } else if i == 11 {
    } else if i == 12 {
    }
  }

  /** Default keys do not occur in one another, except `auth` inside
      `authorization`. */
  lemma KeysApart(i: nat, j: nat)
    requires i < |DefaultPatterns| && j < |DefaultPatterns| && i != j && !(i == 10 && j == 12)
    ensures !Occurs(Lower(DefaultPatterns[i]), Lower(DefaultPatterns[j]))
  {
    if j == 0 {
      NotInKey0(i);
    } else if j == 1 {
      NotInKey1(i);
    } else if j == 2 {
      NotInKey2(i);
    } else if j == 3 {
      NotInKey3(i);
    } else if j == 4 {
      NotInKey4(i);
    } else if j == 5 {
      NotInKey5(i);
    } else if j == 6 {
      NotInKey6(i);
    } else if j == 7 {
      NotInKey7(i);
    } else if j == 8 {
      NotInKey8(i);
    } else if j == 9 {
      NotInKey9(i);
    } else if j == 10 {
      NotInKey10(i);
    } else if j == 11 {
      NotInKey11(i);
    } else if j == 12 {
      NotInKey12(i);
    }
  }

  /** A key without `=` that occurs on neither side of an `=` does not
      occur in the whole. */
  lemma AroundEquals(key: string, a: string, b: string)
    requires '=' !in key && !Occurs(Lower(key), Lower(a)) && !Occurs(Lower(key), Lower(b))
    ensures !Occurs(Lower(key), Lower(a + "=" + b))
  {
    NotInLower(key, '=');
    LowerAppend(a + "=", b);
    LowerAppend(a, "=");
    assert Lower("=") == ['='];
    OccursAcross(Lower(key), Lower(a), '=', Lower(b));
  }

  /** A pair of any default key but `authorization`, whose value holds no
      key: no other key occurs in it before or after masking. */
  lemma OtherKeyPair(j: nat, v: string)
    requires j < |DefaultPatterns| && j != 12
    requires v != [] && AllValueChars(v)
    requires forall k :: k in DefaultPatterns ==> !Occurs(Lower(k), Lower(v))
    ensures MaskAll(DefaultPatterns[j] + "=" + v, DefaultPatterns) == DefaultPatterns[j] + "=" + MaskText
  {
    var k := DefaultPatterns[j];
    DefaultKeysPlain();
    forall i | 0 <= i < |DefaultPatterns| && i != j
      ensures !Occurs(Lower(DefaultPatterns[i]), Lower(k + "=" + v))
      ensures !Occurs(Lower(DefaultPatterns[i]), Lower(k + "=" + MaskText))
    {
      assert DefaultPatterns[i] in DefaultPatterns;
      KeysApart(i, j);
      KeyNotInMask(i);
      AroundEquals(DefaultPatterns[i], k, v);
      AroundEquals(DefaultPatterns[i], k, MaskText);
    }
    assert k in DefaultPatterns;
    MaskAllPair(DefaultPatterns, j, v);
  }

  /** `auth` is found at the start of `authorization=…` but does not
      match there, since `o` follows it, and it is found nowhere else. */
  lemma AuthPassesAuthorization(v: string)
    requires !Occurs(Lower("auth"), Lower(v))
    ensures Masked("authorization" + "=" + v, "auth") == "authorization" + "=" + v
  {
    AuthorizationShape();
    AuthNotInTail();
    AroundEquals("auth", "uthorization", v);
    KeyInsideWord("authorization", "auth", v);
  }

  /** A pair of `authorization` whose value holds no key: `auth` leaves it
      as it is and `authorization` masks it. */
  lemma AuthorizationPair(v: string)
    requires v != [] && AllValueChars(v)
    requires forall k :: k in DefaultPatterns ==> !Occurs(Lower(k), Lower(v))
    ensures MaskAll(DefaultPatterns[12] + "=" + v, DefaultPatterns) == DefaultPatterns[12] + "=" + MaskText
  {
    var k := DefaultPatterns[12];
    DefaultKeysPlain();
    forall i | 0 <= i < 12
      ensures Masked(k + "=" + v, DefaultPatterns[i]) == k + "=" + v
    {
      assert DefaultPatterns[i] in DefaultPatterns;
      if i == 10 {
        AuthPassesAuthorization(v);
      } else {
        KeysApart(i, 12);
        AroundEquals(DefaultPatterns[i], k, v);
      }
    }
    MaskAllPair(DefaultPatterns, 12, v);
  }

  /** The masker's promise for every default key: `key=value`, with a
      value of value characters in which no key occurs, becomes
      `key=***MASKED***` under the whole default list. */
  lemma DefaultKeyPair(j: nat, v: string)
    requires j < |DefaultPatterns|
    requires v != [] && AllValueChars(v)
    requires forall k :: k in DefaultPatterns ==> !Occurs(Lower(k), Lower(v))
    ensures MaskAll(DefaultPatterns[j] + "=" + v, DefaultPatterns) == DefaultPatterns[j] + "=" + MaskText
  {
    if j == 12 {
      AuthorizationPair(v);
    } else {
      OtherKeyPair(j, v);
    }
  }
}

=== FILE: middleware.dfy ===
/** The two request middlewares: `LoggingMiddleware`, which logs every
    request and response, and `ExternalIntegrationLoggingMiddleware`, which
    logs only requests to integration endpoints (ERP, payment, webhook
    paths), with the tracing headers they carry and the error a failed
    response reports.

    A request is its path, method and `META` map; the clock is a parameter
    (`now`); a log call is returned as an `Event` rather than sent to a
    logger. */
module Middleware {

  import opened Wrappers
  import opened Text
  import Json
  import Logging
  import Formatters

  /** `request.META`: the server variables and the `HTTP_` headers. */
  type Meta = map<string, string>

  /** `meta.get(key)` seen through Python's truth test: present and not
      empty. */
  predicate Present(meta: Meta, key: string) {
    key in meta && meta[key] != ""
  }

  // ------------------------------------------------------------- client IP

  const ForwardedFor: string := "HTTP_X_FORWARDED_FOR"
  const RemoteAddr: string := "REMOTE_ADDR"

  /** `_get_client_ip`: the first hop of a non-empty `X-Forwarded-For`
      header, stripped of whitespace; otherwise `REMOTE_ADDR`, or the empty
      text when that is missing too. */
  function ClientIp(meta: Meta): (ip: string)
    ensures Present(meta, ForwardedFor) ==>
      ip == Strip(Split(meta[ForwardedFor], ',')[0]) && ',' !in ip
      && (ip == [] || (!IsSpace(ip[0]) && !IsSpace(ip[|ip| - 1])))
    ensures !Present(meta, ForwardedFor) ==>
      ip == if RemoteAddr in meta then meta[RemoteAddr] else ""
  {
    if Present(meta, ForwardedFor) then
      var first := Split(meta[ForwardedFor], ',')[0];
      var ip := Strip(first);
      StripSlice(first);
      ip
    else if RemoteAddr in meta then meta[RemoteAddr]
    else ""
  }

  /** A proxy chain `client, proxy1, proxy2` yields the client, whatever
      `REMOTE_ADDR` says: the address of the last proxy is not reported. */
  lemma ClientIpFirstHop(meta: Meta, hops: seq<string>)
    requires |hops| >= 1 && hops[0] != []
    requires forall k :: 0 <= k < |hops| ==> ',' !in hops[k]
    requires forall k :: 0 <= k < |hops[0]| ==> !IsSpace(hops[0][k])
    requires ForwardedFor in meta && meta[ForwardedFor] == Join(hops, ',')
    ensures ClientIp(meta) == hops[0]
  {
    SplitJoin(hops, ',');
    var header := Join(hops, ',');
    if |hops| > 1 {
      assert header == hops[0] + [','] + Join(hops[1..], ',');
    }
    assert header[..|hops[0]|] == hops[0];
    assert header != "";
  }

  // ----------------------------------------------------- integration paths

  const DefaultMonitoredPaths: seq<string> := [
    "/api/erp/", "/api/integrations/", "/webhook/", "/api/payment/",
    "/api/shipping/", "/api/crm/", "/api/email/", "/api/sms/",
    "/api/notification/", "/api/magento/", "/api/ecommerce/"]

  /** A mapping from path prefix to integration type, in insertion order. */
  type TypeTable = seq<(string, string)>

  const DefaultIntegrationTypes: TypeTable := [
    ("/api/erp/", "erp"), ("/api/payment/", "payment_processor"),
    ("/api/shipping/", "shipping_provider"), ("/api/crm/", "crm"),
    ("/webhook/", "webhook"), ("/api/magento/", "magento"),
    ("/api/ecommerce/", "ecommerce"), ("/api/email/", "email_service"),
    ("/api/sms/", "sms_service"), ("/api/notification/", "notification_service")]

  /** `_is_integration_endpoint`: `any(path.startswith(p) for p in
      prefixes)`. */
  function IsIntegrationEndpoint(prefixes: seq<string>, path: string): (r: bool)
    ensures r <==> exists i :: 0 <= i < |prefixes| && StartsWith(path, prefixes[i])
    decreases |prefixes|
  {
    if prefixes == [] then false
    else if StartsWith(path, prefixes[0]) then true
    else
      var r := IsIntegrationEndpoint(prefixes[1..], path);
      assert forall i :: 1 <= i < |prefixes| ==> prefixes[i] == prefixes[1..][i - 1];
      r
  }

  /** The integration type of `path`: the type of the first prefix, in
      table order, that the path starts with, or `unknown`. */
  function IntegrationType(table: TypeTable, path: string): (t: string)
    ensures forall i :: (0 <= i < |table| && StartsWith(path, table[i].0)
      && forall j :: 0 <= j < i ==> !StartsWith(path, table[j].0)) ==> t == table[i].1
    ensures (forall i :: 0 <= i < |table| ==> !StartsWith(path, table[i].0)) ==> t == "unknown"
    decreases |table|
  {
    if table == [] then "unknown"
    else if StartsWith(path, table[0].0) then table[0].1
    else
      var t := IntegrationType(table[1..], path);
      assert forall i :: 1 <= i < |table| ==> table[i] == table[1..][i - 1];
      t
  }

  /** `_get_integration_type`: the loop over the mapping that returns at
      the first prefix the path starts with. */
  method GetIntegrationType(table: TypeTable, path: string) returns (t: string)
    ensures t == IntegrationType(table, path)
  {
    for i := 0 to |table|
      invariant forall j :: 0 <= j < i ==> !StartsWith(path, table[j].0)
    {
      if StartsWith(path, table[i].0) {
        return table[i].1;
      }
    }
    return "unknown";
  }

  /** A path under `pre` does not start with a prefix that differs from
      `pre` at some column they both have. */
  lemma Diverges(path: string, pre: string, p: string, k: nat)
    requires StartsWith(path, pre) && k < |pre| && k < |p| && pre[k] != p[k]
    ensures !StartsWith(path, p)
  {
    assert path[..|pre|][k] == path[k];
    if |p| <= |path| {
      assert path[..|p|][k] == path[k];
    }
  }

  lemma Extends(path: string, pre: string, p: string)
    requires StartsWith(path, pre) && StartsWith(pre, p)
    ensures StartsWith(path, p)
  {
    assert path[..|p|] == path[..|pre|][..|p|];
  }

  /** The default table sends every path under the ERP, webhook, payment
      and shipping prefixes to its type. */
  lemma DefaultTypeErp(path: string)
    requires StartsWith(path, "/api/erp/")
    ensures IntegrationType(DefaultIntegrationTypes, path) == "erp"
  {
  }

  lemma DefaultTypeWebhook(path: string)
    requires StartsWith(path, "/webhook/")
    ensures IntegrationType(DefaultIntegrationTypes, path) == "webhook"
  {
    var pre, t := "/webhook/", DefaultIntegrationTypes;
    Diverges(path, pre, t[0].0, 1);
    Diverges(path, pre, t[1].0, 1);
    Diverges(path, pre, t[2].0, 1);
    Diverges(path, pre, t[3].0, 1);
    assert forall j :: 0 <= j < 4 ==> !StartsWith(path, t[j].0);
  }

  lemma DefaultTypePayment(path: string)
    requires StartsWith(path, "/api/payment/")
    ensures IntegrationType(DefaultIntegrationTypes, path) == "payment_processor"
  {
    var pre, t := "/api/payment/", DefaultIntegrationTypes;
    Diverges(path, pre, t[0].0, 5);
    assert forall j :: 0 <= j < 1 ==> !StartsWith(path, t[j].0);
  }

  lemma DefaultTypeShipping(path: string)
    requires StartsWith(path, "/api/shipping/")
    ensures IntegrationType(DefaultIntegrationTypes, path) == "shipping_provider"
  {
    var pre, t := "/api/shipping/", DefaultIntegrationTypes;
    Diverges(path, pre, t[0].0, 5);
    Diverges(path, pre, t[1].0, 5);
    assert forall j :: 0 <= j < 2 ==> !StartsWith(path, t[j].0);
  }

  /** Every path under `/api/integrations/` is monitored by default but has
      no type in the default table, so it is logged as `unknown`. */
  lemma DefaultIntegrationsUnknown(path: string)
    requires StartsWith(path, "/api/integrations/")
    ensures IsIntegrationEndpoint(DefaultMonitoredPaths, path)
    ensures IntegrationType(DefaultIntegrationTypes, path) == "unknown"
  {
    var pre, t := "/api/integrations/", DefaultIntegrationTypes;
    assert StartsWith(path, DefaultMonitoredPaths[1]);
    forall j | 0 <= j < |t|
      ensures !StartsWith(path, t[j].0)
    {
      Diverges(path, pre, t[j].0, if j == 4 then 1 else if j == 7 then 6 else 5);
    }
  }

  /** A path under `/app/`, such as `/app/users/`, is not an integration
      endpoint. */
  lemma DefaultNotMonitored(path: string)
    requires StartsWith(path, "/app/")
    ensures !IsIntegrationEndpoint(DefaultMonitoredPaths, path)
  {
    var pre, m := "/app/", DefaultMonitoredPaths;
    forall i | 0 <= i < |m|
      ensures !StartsWith(path, m[i])
    {
      // `/webhook/` differs at its second character, the others at `/api`
      Diverges(path, pre, m[i], if i == 2 then 1 else 3);
    }
  }

  // ----------------------------------------------------------------- levels

  /** `_get_log_level`: `info` for the informational, success and
      redirection classes, `warning` for client errors (section 15.5 of
      RFC 9110) and `error` for server errors (section 15.6 of RFC 9110). */
  function GetLogLevel(status: int): (level: string)
    ensures level == "info" <==> status < 400
    ensures level == "warning" <==> 400 <= status < 500
    ensures level == "error" <==> status >= 500
  {
    if status < 400 then "info"
    else if status < 500 then "warning"
    else "error"
  }

  /** The level `LoggingMiddleware.process_response` logs at: `info` below
      400 and `warning` for every other status, server errors included. */
  function ResponseLevel(status: int): (level: string)
    ensures level == "info" <==> status < 400
    ensures level == "warning" <==> status >= 400
  {
    if status < 400 then "info" else "warning"
  }

  /** Both middlewares name levels of the logging module. The integration
      middleware's level never decreases as the status grows; the general
      middleware agrees with it below 500 and logs server errors one level
      lower, as warnings. */
  lemma LevelsOfStatus(status: int)
    ensures Logging.FromString(GetLogLevel(status))
      == if status < 400 then Logging.Info else if status < 500 then Logging.Warning else Logging.Error
    ensures Logging.FromString(ResponseLevel(status))
      == if status < 400 then Logging.Info else Logging.Warning
    ensures status < 500 ==> ResponseLevel(status) == GetLogLevel(status)
  {
    Logging.FromStringNames(1);
    Logging.FromStringNames(2);
    Logging.FromStringNames(3);
    assert Lower(Formatters.LevelNames[1]) == "info";
    assert Lower(Formatters.LevelNames[2]) == "warning";
    assert Lower(Formatters.LevelNames[3]) == "error";
  }

  lemma LevelMonotone(a: int, b: int)
    requires a <= b
    ensures Logging.FromString(GetLogLevel(a)) <= Logging.FromString(GetLogLevel(b))
  {
    LevelsOfStatus(a);
    LevelsOfStatus(b);
  }

  // ------------------------------------------------------- request headers

  /** The headers `_extract_request_info` looks at, in its order. */
  const RelevantHeaders: seq<string> := [
    "HTTP_X_WEBHOOK_ID", "HTTP_X_REQUEST_ID", "HTTP_X_CORRELATION_ID",
    "HTTP_AUTHORIZATION", "HTTP_X_API_KEY"]

  /** The keys the tracing headers are logged under. */
  const HeaderKeys: set<string> := {"x_webhook_id", "x_request_id", "x_correlation_id", "authorization", "x_api_key"}

  /** The key a header is logged under: `header.lower().replace('http_',
      '')`. */
  function InfoKey(header: string): string {
    RemoveAll(Lower(header), "http_")
  }

  /** `'AUTHORIZATION' in header or 'API_KEY' in header`. */
  predicate Sensitive(header: string) {
    Occurs("AUTHORIZATION", header) || Occurs("API_KEY", header)
  }

  /** The value logged for a header: a mask for credentials, the value
      itself otherwise. */
  function Shown(header: string, value: string): string {
    if Sensitive(header) then "***" else value
  }

  /** A header `HTTP_<NAME>` is logged under `<name>` when the lower-case
      name does not contain `http_` (here: lacks one of its letters). */
  lemma KeyOf(h: string, key: string, c: char)
    requires |h| == 5 + |key| && h[..5] == "HTTP_"
    requires forall i :: 0 <= i < |key| ==> key[i] == ToLowerChar(h[5 + i])
    requires c in "http_" && c !in key
    ensures InfoKey(h) == key
  {
    assert Lower(h) == "http_" + key;
    RemoveLeading("http_", key);
    MissingChar("http_", key, c);
    RemoveAbsent(key, "http_");
  }

  lemma WebhookKey() ensures InfoKey(RelevantHeaders[0]) == "x_webhook_id" {
    KeyOf(RelevantHeaders[0], "x_webhook_id", 't');
  }

  lemma RequestKey() ensures InfoKey(RelevantHeaders[1]) == "x_request_id" {
    KeyOf(RelevantHeaders[1], "x_request_id", 'p');
  }

  lemma CorrelationKey() ensures InfoKey(RelevantHeaders[2]) == "x_correlation_id" {
    KeyOf(RelevantHeaders[2], "x_correlation_id", 'p');
  }

  lemma AuthorizationKey() ensures InfoKey(RelevantHeaders[3]) == "authorization" {
    KeyOf(RelevantHeaders[3], "authorization", 'p');
  }

  lemma ApiKeyKey() ensures InfoKey(RelevantHeaders[4]) == "x_api_key" {
    KeyOf(RelevantHeaders[4], "x_api_key", 't');
  }

  /** The five headers are logged as `x_webhook_id`, `x_request_id`,
      `x_correlation_id`, `authorization` and `x_api_key`. */
  lemma RelevantKeys()
    ensures InfoKey(RelevantHeaders[0]) == "x_webhook_id"
    ensures InfoKey(RelevantHeaders[1]) == "x_request_id"
    ensures InfoKey(RelevantHeaders[2]) == "x_correlation_id"
    ensures InfoKey(RelevantHeaders[3]) == "authorization"
    ensures InfoKey(RelevantHeaders[4]) == "x_api_key"
  {
    WebhookKey();
    RequestKey();
    CorrelationKey();
    AuthorizationKey();
    ApiKeyKey();
  }

  /** Five headers logged under five different keys do not collide. */
  lemma FiveKeysDistinct(headers: seq<string>, a: string, b: string, c: string, d: string, e: string)
    requires |headers| == 5
    requires InfoKey(headers[0]) == a && InfoKey(headers[1]) == b && InfoKey(headers[2]) == c
    requires InfoKey(headers[3]) == d && InfoKey(headers[4]) == e
    requires a != b && a != c && a != d && a != e && b != c && b != d && b != e
    requires c != d && c != e && d != e
    ensures forall i, j :: 0 <= i < j < |headers| ==> InfoKey(headers[i]) != InfoKey(headers[j])
  {
  }

  /** The five keys differ, so no header overwrites another. */
  lemma RelevantKeysDistinct()
    ensures forall i, j :: 0 <= i < j < |RelevantHeaders| ==>
      InfoKey(RelevantHeaders[i]) != InfoKey(RelevantHeaders[j])
  {
    RelevantKeys();
    FiveKeysDistinct(RelevantHeaders, "x_webhook_id", "x_request_id", "x_correlation_id", "authorization", "x_api_key");
  }

  /** A header that lacks a letter of `AUTHORIZATION` and a letter of
      `API_KEY` is logged as it is. */
  lemma NotSensitive(h: string, a: char, b: char)
    requires a in "AUTHORIZATION" && a !in h && b in "API_KEY" && b !in h
    ensures !Sensitive(h)
  {
    MissingChar("AUTHORIZATION", h, a);
    MissingChar("API_KEY", h, b);
  }

  lemma AuthorizationSensitive() ensures Sensitive(RelevantHeaders[3]) {
    OccursAfter("HTTP_", "AUTHORIZATION", "");
    assert RelevantHeaders[3] == "HTTP_" + "AUTHORIZATION" + "";
  }

  lemma ApiKeySensitive() ensures Sensitive(RelevantHeaders[4]) {
    OccursAfter("HTTP_X_", "API_KEY", "");
    assert RelevantHeaders[4] == "HTTP_X_" + "API_KEY" + "";
  }

  /** Only the authorization and API-key headers are masked. */
  lemma SensitiveHeaders()
    ensures !Sensitive(RelevantHeaders[0]) && !Sensitive(RelevantHeaders[1])
    ensures !Sensitive(RelevantHeaders[2])
    ensures Sensitive(RelevantHeaders[3]) && Sensitive(RelevantHeaders[4])
  {
    forall k | 0 <= k < 3
      ensures !Sensitive(RelevantHeaders[k])
    {
      NotSensitive(RelevantHeaders[k], 'Z', 'Y');
    }
    AuthorizationSensitive();
    ApiKeySensitive();
  }

  /** What `_extract_request_info` builds from `headers`, one header
      after another: `info[key] = value` for each header that is present
      and not empty. Each such header has an entry under its key, and
      there is no other entry. */
  function RequestInfo(meta: Meta, headers: seq<string>): (info: Json.Object)
    ensures Json.Keys(info) == set i | 0 <= i < |headers| && Present(meta, headers[i]) :: InfoKey(headers[i])
    decreases |headers|
  {
    if headers == [] then []
    else
      var n := |headers| - 1;
      var init, h := headers[..n], headers[n];
      var prev := RequestInfo(meta, init);
      assert forall i :: 0 <= i < n ==> init[i] == headers[i];
      var keys := set i | 0 <= i < n && Present(meta, init[i]) :: InfoKey(init[i]);
      var all := set i | 0 <= i < |headers| && Present(meta, headers[i]) :: InfoKey(headers[i]);
      if Present(meta, h) then
        var value := Json.Str(Shown(h, meta[h]));
        Json.SetKeys(prev, InfoKey(h), value);
        assert all == keys + {InfoKey(h)};
        Json.Set(prev, InfoKey(h), value)
      else
        assert all == keys;
        prev
  }

  /** When the headers' keys differ, no key is logged twice. */
  lemma {:induction false} RequestInfoShape(meta: Meta, headers: seq<string>)
    requires forall i, j :: 0 <= i < j < |headers| ==> InfoKey(headers[i]) != InfoKey(headers[j])
    ensures Json.DistinctKeys(RequestInfo(meta, headers))
    decreases |headers|
  {
    if headers != [] {
      var n := |headers| - 1;
      var init, h := headers[..n], headers[n];
      assert forall i :: 0 <= i < n ==> init[i] == headers[i];
      RequestInfoShape(meta, init);
      if Present(meta, h) {
        var info, key := RequestInfo(meta, init), InfoKey(h);
        assert key !in Json.Keys(info);
        Json.SetNew(info, key, Json.Str(Shown(h, meta[h])));
      }
    }
  }

  /** When the headers' keys differ, the entry of each header is its
      value, masked when it carries a credential, or none when the header
      is absent or empty. */
  lemma {:induction false} RequestInfoEntries(meta: Meta, headers: seq<string>)
    requires forall i, j :: 0 <= i < j < |headers| ==> InfoKey(headers[i]) != InfoKey(headers[j])
    ensures forall i :: 0 <= i < |headers| ==>
      Json.Get(RequestInfo(meta, headers), InfoKey(headers[i]))
        == if Present(meta, headers[i]) then Some(Json.Str(Shown(headers[i], meta[headers[i]]))) else None
    decreases |headers|
  {
    if headers != [] {
      var n := |headers| - 1;
      var init, h := headers[..n], headers[n];
      assert forall i :: 0 <= i < n ==> init[i] == headers[i];
      RequestInfoEntries(meta, init);
      var info := RequestInfo(meta, init);
      if Present(meta, h) {
        var key, value := InfoKey(h), Json.Str(Shown(h, meta[h]));
        assert RequestInfo(meta, headers) == Json.Set(info, key, value);
        forall i | 0 <= i < |headers|
          ensures Json.Get(Json.Set(info, key, value), InfoKey(headers[i]))
            == if Present(meta, headers[i]) then Some(Json.Str(Shown(headers[i], meta[headers[i]]))) else None
        {
          Json.SetGet(info, key, value, InfoKey(headers[i]));
        }
      } else {
        assert RequestInfo(meta, headers) == info;
        assert Json.Get(info, InfoKey(h)) == None;
      }
    }
  }

  /** The entry of a header logged as it is. */
  function Copied(meta: Meta, header: string): Option<Json.Value> {
    if Present(meta, header) then Some(Json.Str(meta[header])) else None
  }

  /** The entry of a header logged masked. */
  function Masked(meta: Meta, header: string): Option<Json.Value> {
    if Present(meta, header) then Some(Json.Str("***")) else None
  }

  /** `_extract_request_info`: each of the five headers that is present and
      not empty is logged under its key, the credentials masked as `***`
      and the tracing identifiers copied as they are; nothing else is
      logged. */
  method ExtractRequestInfo(meta: Meta) returns (info: Json.Object)
    ensures info == RequestInfo(meta, RelevantHeaders)
    ensures Json.DistinctKeys(info)
    ensures Json.Keys(info) <= HeaderKeys
    ensures Json.Get(info, "x_webhook_id") == Copied(meta, "HTTP_X_WEBHOOK_ID")
    ensures Json.Get(info, "x_request_id") == Copied(meta, "HTTP_X_REQUEST_ID")
    ensures Json.Get(info, "x_correlation_id") == Copied(meta, "HTTP_X_CORRELATION_ID")
    ensures Json.Get(info, "authorization") == Masked(meta, "HTTP_AUTHORIZATION")
    ensures Json.Get(info, "x_api_key") == Masked(meta, "HTTP_X_API_KEY")
  {
    var headers := RelevantHeaders;
    info := [];
    for i := 0 to |headers|
      invariant info == RequestInfo(meta, headers[..i])
    {
      assert headers[..i + 1][..i] == headers[..i];
      var header := headers[i];
      if header in meta && meta[header] != "" {
        if Occurs("AUTHORIZATION", header) || Occurs("API_KEY", header) {
          info := Json.Set(info, InfoKey(header), Json.Str("***"));
        } else {
          info := Json.Set(info, InfoKey(header), Json.Str(meta[header]));
        }
      }
    }
    assert headers[..|headers|] == headers;
    RelevantInfoKeys(meta);
    RelevantInfoValues(meta);
  }

  lemma RelevantInfoKeys(meta: Meta)
    ensures Json.DistinctKeys(RequestInfo(meta, RelevantHeaders))
    ensures Json.Keys(RequestInfo(meta, RelevantHeaders)) <= HeaderKeys
  {
    var h := RelevantHeaders;
    RelevantKeysDistinct();
    RequestInfoShape(meta, h);
    var info := RequestInfo(meta, h);
    forall k | k in Json.Keys(info)
      ensures k in HeaderKeys
    {
      var i :| 0 <= i < |h| && Present(meta, h[i]) && k == InfoKey(h[i]);
      RelevantKeys();
    }
  }

  lemma RelevantInfoValues(meta: Meta)
    ensures var info := RequestInfo(meta, RelevantHeaders);
      Json.Get(info, "x_webhook_id") == Copied(meta, "HTTP_X_WEBHOOK_ID")
      && Json.Get(info, "x_request_id") == Copied(meta, "HTTP_X_REQUEST_ID")
      && Json.Get(info, "x_correlation_id") == Copied(meta, "HTTP_X_CORRELATION_ID")
      && Json.Get(info, "authorization") == Masked(meta, "HTTP_AUTHORIZATION")
      && Json.Get(info, "x_api_key") == Masked(meta, "HTTP_X_API_KEY")
  {
    var h := RelevantHeaders;
    RelevantKeysDistinct();
    RequestInfoEntries(meta, h);
    SensitiveHeaders();
    RelevantKeys();
    var info := RequestInfo(meta, h);
    assert Json.Get(info, InfoKey(h[0])) == Copied(meta, h[0]);
    assert Json.Get(info, InfoKey(h[1])) == Copied(meta, h[1]);
    assert Json.Get(info, InfoKey(h[2])) == Copied(meta, h[2]);
    assert Json.Get(info, InfoKey(h[3])) == Masked(meta, h[3]);
    assert Json.Get(info, InfoKey(h[4])) == Masked(meta, h[4]);
  }

  // --------------------------------------------------------- error context

  /** The value of the first of `keys` that `o` has, if any. */
  function FirstPresent(o: Json.Object, keys: seq<string>): (r: Option<Json.Value>)
    ensures r.Some? <==> exists i :: 0 <= i < |keys| && keys[i] in Json.Keys(o)
    ensures forall i :: (0 <= i < |keys| && keys[i] in Json.Keys(o)
      && forall j :: 0 <= j < i ==> keys[j] !in Json.Keys(o)) ==> r == Json.Get(o, keys[i])
    decreases |keys|
  {
    if keys == [] then None
    else if keys[0] in Json.Keys(o) then Json.Get(o, keys[0])
    else
      var r := FirstPresent(o, keys[1..]);
      assert forall i :: 1 <= i < |keys| ==> keys[i] == keys[1..][i - 1];
      r
  }

  /** The keys an error body is searched for its message, in order. */
  const MessageKeys: seq<string> := ["error", "message", "detail"]

  /** `_extract_error_context` for a body that is absent or not UTF-8
      (`None`), or that decodes to `content`; `json.loads(content)` is
      `Json.Parse`, whose `None` stands for `JSONDecodeError`. */
  function ExtractErrorContext(content: Option<string>): (ctx: Json.Object)
    ensures content == None || content == Some("") ==> ctx == []
    ensures Json.DistinctKeys(ctx) && Json.Keys(ctx) <= {"error_message", "error_code"}
    ensures content.Some? && content.value != "" && Json.Parse(content.value).None? ==>
      Json.Keys(ctx) == {"error_message"}
      && Json.Get(ctx, "error_message") == Some(Json.Str(Take(content.value, 200)))
    ensures (content.Some? && content.value != "" && Json.Parse(content.value).Some? &&
             !Json.Parse(content.value).value.Obj?) ==> ctx == []
    ensures (content.Some? && content.value != "" && Json.Parse(content.value).Some? &&
             Json.Parse(content.value).value.Obj?) ==>
      var o := Json.Parse(content.value).value.members;
      Json.Keys(ctx) == {"error_message", "error_code"} && Json.DistinctKeys(ctx)
      && Json.Get(ctx, "error_message") == Some(FirstPresent(o, MessageKeys).GetOr(Json.Str("")))
      && Json.Get(ctx, "error_code") == Some(Json.Get(o, "code").GetOr(Json.Str("")))
  {
    match content
    case None => []
    case Some(text) =>
      if text == "" then []
      else match Json.Parse(text)
        case None => [Json.Member("error_message", Json.Str(Take(text, 200)))]
        case Some(Obj(o)) =>
          [Json.Member("error_message", FirstPresent(o, MessageKeys).GetOr(Json.Str(""))),
           Json.Member("error_code", Json.Get(o, "code").GetOr(Json.Str("")))]
        case Some(_) => []
  }

  /** An error body written by `json.dumps` of a dictionary reports that
      dictionary's message and code. */
  lemma ErrorContextOfDump(o: Json.Object)
    requires Json.WellFormed(Json.Obj(o))
    ensures var body := Json.Dump(o, true);
      var ctx := ExtractErrorContext(Some(body));
      Json.Get(ctx, "error_message") == Some(FirstPresent(o, MessageKeys).GetOr(Json.Str("")))
      && Json.Get(ctx, "error_code") == Some(Json.Get(o, "code").GetOr(Json.Str("")))
  {
    Json.DumpParse(Json.Obj(o), true);
    assert Json.Dump(o, true)[0] == '{';
  }

  /** A body `{"error": e, "code": c}`, as the test client sends it,
      reports `e` and `c`. */
  lemma ErrorAndCode(e: string, c: string)
    ensures var o := [Json.Member("error", Json.Str(e)), Json.Member("code", Json.Str(c))];
      var ctx := ExtractErrorContext(Some(Json.Dump(o, true)));
      Json.Get(ctx, "error_message") == Some(Json.Str(e))
      && Json.Get(ctx, "error_code") == Some(Json.Str(c))
  {
    var o := [Json.Member("error", Json.Str(e)), Json.Member("code", Json.Str(c))];
    assert Json.WellFormed(Json.Obj(o));
    ErrorContextOfDump(o);
    assert "error" in Json.Keys(o);
  }

  // ---------------------------------------------------- requests and events

  /** What the integration middleware records on a request: the attributes
      `_integration_start_time` and `_integration_type`. */
  datatype Tracking = Tracking(start: int, kind: string)

  /** A request. `user` is `str(request.user)` when the request has a user;
      `startTime` is the `_start_time` attribute the general middleware
      sets and `integration` the attributes the integration middleware
      sets, both absent until then. */
  class Request {
    const path: string
    const httpMethod: string
    const meta: Meta
    const user: Option<string>
    const contentType: Option<string>
    var startTime: Option<int>
    var integration: Option<Tracking>

    constructor (path: string, httpMethod: string, meta: Meta, user: Option<string>,
                 contentType: Option<string>)
      ensures this.path == path && this.httpMethod == httpMethod && this.meta == meta
      ensures this.user == user && this.contentType == contentType
      ensures startTime == None && integration == None
    {
      this.path := path;
      this.httpMethod := httpMethod;
      this.meta := meta;
      this.user := user;
      this.contentType := contentType;
      startTime := None;
      integration := None;
    }
  }

  /** A response: its status and its body decoded as UTF-8 (absent when
      the response has no content or it is not UTF-8). */
  datatype Response = Response(status: int, content: Option<string>)

  /** One logging call: the level method called, the message, and the
      `extra_fields` passed with it. */
  datatype Event = Event(level: string, message: string, extra: Json.Object)

  /** The two optional settings the integration middleware reads. */
  datatype Settings = Settings(monitoredPaths: Option<seq<string>>, integrationTypes: Option<TypeTable>)

  function UserText(req: Request): string {
    req.user.GetOr("Anonymous")
  }

  // ------------------------------------------------------ LoggingMiddleware

  /** `LoggingMiddleware.process_request`: stamps the start time and logs
      the request at `info` with its method, path, user, client address,
      user agent and content type. */
  method LogRequest(req: Request, now: int) returns (ev: Event)
    modifies req`startTime
    ensures req.startTime == Some(now)
    ensures ev.level == "info" && ev.message == "Request entrante: " + req.httpMethod + " " + req.path
    ensures ev.extra == [
      Json.Member("method", Json.Str(req.httpMethod)), Json.Member("path", Json.Str(req.path)),
      Json.Member("user", Json.Str(UserText(req))), Json.Member("ip", Json.Str(ClientIp(req.meta))),
      Json.Member("user_agent", Json.Str(if "HTTP_USER_AGENT" in req.meta then req.meta["HTTP_USER_AGENT"] else "")),
      Json.Member("content_type", if req.contentType.Some? then Json.Str(req.contentType.value) else Json.Null)]
  {
    req.startTime := Some(now);
    var agent := if "HTTP_USER_AGENT" in req.meta then req.meta["HTTP_USER_AGENT"] else "";
    var contentType := if req.contentType.Some? then Json.Str(req.contentType.value) else Json.Null;
    ev := Event("info", "Request entrante: " + req.httpMethod + " " + req.path, [
      Json.Member("method", Json.Str(req.httpMethod)), Json.Member("path", Json.Str(req.path)),
      Json.Member("user", Json.Str(UserText(req))), Json.Member("ip", Json.Str(ClientIp(req.meta))),
      Json.Member("user_agent", Json.Str(agent)), Json.Member("content_type", contentType)]);
  }

  /** The fields a response is logged with. */
  function ResponseFields(req: Request, status: int): Json.Object {
    [Json.Member("method", Json.Str(req.httpMethod)), Json.Member("path", Json.Str(req.path)),
     Json.Member("status_code", Json.Int(status)), Json.Member("user", Json.Str(UserText(req)))]
  }

  /** A logged response carries the request's method, path and user and
      the status code, each once. */
  lemma ResponseFieldsContent(req: Request, status: int)
    ensures var o := ResponseFields(req, status);
      Json.DistinctKeys(o) && Json.Keys(o) == {"method", "path", "status_code", "user"}
      && Json.Get(o, "method") == Some(Json.Str(req.httpMethod))
      && Json.Get(o, "path") == Some(Json.Str(req.path))
      && Json.Get(o, "status_code") == Some(Json.Int(status))
      && Json.Get(o, "user") == Some(Json.Str(UserText(req)))
  {
    var o := ResponseFields(req, status);
    assert o[0].key[0] == 'm' && o[1].key[0] == 'p' && o[2].key[0] == 's' && o[3].key[0] == 'u';
  }

  /** `LoggingMiddleware.process_response`: the response goes back
      unchanged; when the request was stamped, it is logged at `info`
      below 400 and at `warning` otherwise, with its status code. */
  method LogResponse(req: Request, resp: Response) returns (out: Response, ev: Option<Event>)
    ensures out == resp
    ensures ev.Some? <==> req.startTime.Some?
    ensures ev.Some? ==>
      ev.value.level == ResponseLevel(resp.status)
      && ev.value.message == "Response: " + req.httpMethod + " " + req.path + " - Status: " + IntToString(resp.status)
      && ev.value.extra == ResponseFields(req, resp.status)
  {
    out := resp;
    ev := None;
    if req.startTime.Some? {
      var level := if resp.status < 400 then "info" else "warning";
      ev := Some(Event(level,
        "Response: " + req.httpMethod + " " + req.path + " - Status: " + IntToString(resp.status),
        ResponseFields(req, resp.status)));
    }
  }

  // ---------------------------------------- ExternalIntegrationLoggingMiddleware

  /** The fields every integration request is logged with, before the
      request's headers are merged in. */
  function RequestBase(kind: string, req: Request): Json.Object {
    [Json.Member("integration_type", Json.Str(kind)), Json.Member("method", Json.Str(req.httpMethod)),
     Json.Member("path", Json.Str(req.path)), Json.Member("ip", Json.Str(ClientIp(req.meta)))]
  }

  /** The fields every integration response is logged with, before the
      error context is merged in. */
  function ResponseBase(kind: string, req: Request, status: int): Json.Object {
    [Json.Member("integration_type", Json.Str(kind)), Json.Member("method", Json.Str(req.httpMethod)),
     Json.Member("path", Json.Str(req.path)), Json.Member("status_code", Json.Int(status))]
  }

  /** The error context of a response: extracted for a client or server
      error, empty otherwise. */
  function ErrorContext(resp: Response): Json.Object {
    if resp.status >= 400 then ExtractErrorContext(resp.content) else []
  }

  /** The integration middleware. The monitored paths and the type table
      are read from the settings on first use and kept: later changes to
      the settings are not seen. */
  class IntegrationMiddleware {
    var monitored: Option<seq<string>>
    var types: Option<TypeTable>

    constructor ()
      ensures monitored == None && types == None
    {
      monitored := None;
      types := None;
    }

    /** The `monitored_paths` property. */
    method MonitoredPaths(settings: Settings) returns (paths: seq<string>)
      modifies this`monitored
      ensures paths == old(monitored).GetOr(settings.monitoredPaths.GetOr(DefaultMonitoredPaths))
      ensures monitored == Some(paths)
    {
      if monitored.None? {
        monitored := Some(settings.monitoredPaths.GetOr(DefaultMonitoredPaths));
      }
      paths := monitored.value;
    }

    /** The `integration_types` property. */
    method IntegrationTypes(settings: Settings) returns (table: TypeTable)
      modifies this`types
      ensures table == old(types).GetOr(settings.integrationTypes.GetOr(DefaultIntegrationTypes))
      ensures types == Some(table)
    {
      if types.None? {
        types := Some(settings.integrationTypes.GetOr(DefaultIntegrationTypes));
      }
      table := types.value;
    }

    /** `process_request`: a request to a path outside the monitored
        prefixes is left alone and not logged. Any other request is
        stamped with the time and its integration type and logged at
        `info` with the tracing headers merged into its fields. */
    method ProcessRequest(req: Request, settings: Settings, now: int) returns (ev: Option<Event>)
      modifies this, req`integration
      ensures monitored == Some(old(monitored).GetOr(settings.monitoredPaths.GetOr(DefaultMonitoredPaths)))
      ensures !IsIntegrationEndpoint(monitored.value, req.path) ==>
        ev.None? && req.integration == old(req.integration) && types == old(types)
      ensures IsIntegrationEndpoint(monitored.value, req.path) ==>
        var table := old(types).GetOr(settings.integrationTypes.GetOr(DefaultIntegrationTypes));
        var kind := IntegrationType(table, req.path);
        types == Some(table) && req.integration == Some(Tracking(now, kind))
        && ev == Some(Event("info", "Integration request: " + kind + " - " + req.httpMethod + " " + req.path,
                            Json.Update(RequestBase(kind, req), RequestInfo(req.meta, RelevantHeaders))))
    {
      var paths := MonitoredPaths(settings);
      if !IsIntegrationEndpoint(paths, req.path) {
        return None;
      }
      var table := IntegrationTypes(settings);
      var kind := GetIntegrationType(table, req.path);
      req.integration := Some(Tracking(now, kind));
      var info := ExtractRequestInfo(req.meta);
      ev := Some(Event("info", "Integration request: " + kind + " - " + req.httpMethod + " " + req.path,
                       Json.Update(RequestBase(kind, req), info)));
    }

    /** `process_response`: the response goes back unchanged. A request
        the middleware did not stamp is not logged; any other is logged at
        the level of its status, with the error context for a client or
        server error merged into its fields. */
    method ProcessResponse(req: Request, resp: Response) returns (out: Response, ev: Option<Event>)
      ensures out == resp
      ensures req.integration.None? ==> ev.None?
      ensures req.integration.Some? ==>
        var kind := req.integration.value.kind;
        ev == Some(Event(GetLogLevel(resp.status),
                         "Integration response: " + kind + " - Status: " + IntToString(resp.status),
                         Json.Update(ResponseBase(kind, req, resp.status), ErrorContext(resp))))
    {
      out := resp;
      if req.integration.None? {
        return resp, None;
      }
      var kind := req.integration.value.kind;
      var level := GetLogLevel(resp.status);
      var context := [];
      if resp.status >= 400 {
        context := ExtractErrorContext(resp.content);
      }
      ev := Some(Event(level, "Integration response: " + kind + " - Status: " + IntToString(resp.status),
                       Json.Update(ResponseBase(kind, req, resp.status), context)));
    }
  }

  /** An integration request is logged with its type and client address:
      the header keys never hide these fields. */
  lemma RequestEventBase(kind: string, req: Request)
    ensures var extra := Json.Update(RequestBase(kind, req), RequestInfo(req.meta, RelevantHeaders));
      Json.Get(extra, "integration_type") == Some(Json.Str(kind))
      && Json.Get(extra, "ip") == Some(Json.Str(ClientIp(req.meta)))
  {
    var base, info := RequestBase(kind, req), RequestInfo(req.meta, RelevantHeaders);
    RelevantInfoKeys(req.meta);
    assert "integration_type" !in HeaderKeys && "ip" !in HeaderKeys by {
      assert "integration_type"[0] != "x_correlation_id"[0];
    }
    Json.UpdateGet(base, info, "integration_type");
    Json.UpdateGet(base, info, "ip");
  }

  /** An integration request is logged with each tracing header it
      carries: the request identifier as it is, the API key masked. */
  lemma RequestEventHeaders(kind: string, req: Request)
    ensures var extra := Json.Update(RequestBase(kind, req), RequestInfo(req.meta, RelevantHeaders));
      Json.Get(extra, "x_request_id") == Copied(req.meta, "HTTP_X_REQUEST_ID")
      && Json.Get(extra, "x_api_key") == Masked(req.meta, "HTTP_X_API_KEY")
  {
    var base, info := RequestBase(kind, req), RequestInfo(req.meta, RelevantHeaders);
    RelevantInfoKeys(req.meta);
    RelevantInfoValues(req.meta);
    RequestBaseKeys(kind, req);
    MergedHeader(base, info, "x_request_id");
    MergedHeader(base, info, "x_api_key");
  }

  lemma RequestBaseKeys(kind: string, req: Request)
    ensures "x_request_id" !in Json.Keys(RequestBase(kind, req))
    ensures "x_api_key" !in Json.Keys(RequestBase(kind, req))
  {
    var base := RequestBase(kind, req);
    forall m | m in base
      ensures m.key != "x_request_id" && m.key != "x_api_key"
    {
    }
  }

  lemma MergedHeader(base: Json.Object, info: Json.Object, key: string)
    requires Json.DistinctKeys(info)
    requires key !in Json.Keys(base)
    ensures Json.Get(Json.Update(base, info), key) == Json.Get(info, key)
  {
    Json.UpdateGet(base, info, key);
  }

  /** An integration response is logged with its status code, which the
      error context never hides; a successful one carries no error
      fields. */
  lemma ResponseEventStatus(kind: string, req: Request, resp: Response)
    ensures var extra := Json.Update(ResponseBase(kind, req, resp.status), ErrorContext(resp));
      Json.Get(extra, "status_code") == Some(Json.Int(resp.status))
      && (resp.status < 400 ==> "error_message" !in Json.Keys(extra))
  {
    var base, ctx := ResponseBase(kind, req, resp.status), ErrorContext(resp);
    assert "status_code" !in Json.Keys(ctx) by {
      assert Json.Keys(ctx) <= {"error_message", "error_code"};
    }
    Json.UpdateGet(base, ctx, "status_code");
    if resp.status < 400 {
      Json.UpdateKeys(base, ctx);
    }
  }

  /** A failed integration response whose body is a JSON object is
      logged with that object's message and code. */
  lemma ResponseEventError(kind: string, req: Request, resp: Response)
    requires resp.status >= 400 && resp.content.Some? && resp.content.value != ""
    requires Json.Parse(resp.content.value).Some? && Json.Parse(resp.content.value).value.Obj?
    ensures var extra := Json.Update(ResponseBase(kind, req, resp.status), ErrorContext(resp));
      var o := Json.Parse(resp.content.value).value.members;
      Json.Get(extra, "error_message") == Some(FirstPresent(o, MessageKeys).GetOr(Json.Str("")))
      && Json.Get(extra, "error_code") == Some(Json.Get(o, "code").GetOr(Json.Str("")))
  {
    var base, ctx := ResponseBase(kind, req, resp.status), ErrorContext(resp);
    Json.UpdateGet(base, ctx, "error_message");
    Json.UpdateGet(base, ctx, "error_code");
  }
}

=== FILE: models.dfy ===
/** The table the database sink writes to, as the Django model
    `ApplicationLog` reads it: one row per log record, with the predicates
    and the text the admin shows. */
module Models {

  import opened Wrappers
  import opened Text
  import Json
  import opened Records
  import opened Handlers
  import opened Logging
  import opened Formatters

  /** The model's table: the application label and the model name, in
      lower case. */
  const Table: string := "advanced_logging_applicationlog"

  /** `ApplicationLog.Level`: each stored value with its label. */
  const LevelChoices: seq<(string, string)> :=
    [("DEBUG", "Debug"), ("INFO", "Info"), ("WARNING", "Warning"), ("ERROR", "Error"), ("CRITICAL", "Critical")]

  /** A value the `level` column accepts. */
  predicate IsLevel(level: string) {
    exists i :: 0 <= i < |LevelChoices| && LevelChoices[i].0 == level
  }

  /** The choices are the five standard level names, in order of
      severity. */
  lemma ChoicesAreLevelNames(i: nat)
    requires i < |LevelChoices|
    ensures i < |LevelNames| && LevelChoices[i].0 == LevelNames[i]
    ensures FromString(LevelChoices[i].0) == 10 * (i + 1)
  {
    FromStringNames(i);
  }

  /** A stored row. `timestamp`, `level`, `loggerName`, `message` and
      `createdAt` are required; every other column may be null.
      `createdAt` is the insertion time, which only the corrected insert
      (`StoredColumns`) supplies. */
  datatype ApplicationLog = ApplicationLog(
    timestamp: DateTime, level: string, loggerName: string, message: string,
    moduleName: Option<string>, funcName: Option<string>, lineNumber: Option<int>,
    threadId: Option<int>, threadName: Option<string>, processId: Option<int>,
    exception: Option<string>, extraData: Option<Json.Value>,
    environment: Option<string>, hostname: Option<string>,
    createdAt: DateTime)

  /** A nullable text column of at most `n` characters. */
  predicate FitsIn(s: Option<string>, n: nat) {
    s.None? || |s.value| <= n
  }

  /** What the column declarations admit: a level among the choices, and
      each text within its declared length. */
  predicate Valid(log: ApplicationLog) {
    IsLevel(log.level) && |log.level| <= 10 && |log.loggerName| <= 255
    && FitsIn(log.moduleName, 100) && FitsIn(log.funcName, 100) && FitsIn(log.threadName, 100)
    && FitsIn(log.environment, 50) && FitsIn(log.hostname, 255)
  }

  /** `is_error`. */
  function IsError(log: ApplicationLog): (r: bool)
    ensures r <==> log.level == "ERROR" || log.level == "CRITICAL"
  {
    log.level in ["ERROR", "CRITICAL"]
  }

  /** For a level among the choices, `is_error` holds exactly when the
      level is ERROR or above in the numeric order of `logging`. */
  lemma IsErrorAtSeverity(log: ApplicationLog)
    requires IsLevel(log.level)
    ensures IsError(log) <==> FromString(log.level) >= Error
  {
    var i :| 0 <= i < |LevelChoices| && LevelChoices[i].0 == log.level;
    ChoicesAreLevelNames(i);
  }

  /** `has_exception`: a traceback that is neither null nor empty. */
  function HasException(log: ApplicationLog): (r: bool)
    ensures r <==> log.exception.Some? && log.exception.value != []
  {
    log.exception.Some? && log.exception.value != []
  }

  /** The part of the message `__str__` shows. */
  const Shown: nat := 50

  /** `__str__`: the level in brackets, the timestamp as `str()` writes a
      naive `datetime`, and the first 50 characters of the message. */
  function ToString(log: ApplicationLog): (s: string)
    ensures s == "[" + log.level + "] " + IsoFormat(log.timestamp, ' ') + " - " + Take(log.message, Shown)
    ensures var head := "[" + log.level + "] ";
      |s| >= |head| && s[..|head|] == head
    ensures var shown := Take(log.message, Shown);
      |s| >= |shown| && s[|s| - |shown|..] == shown
  {
    "[" + log.level + "] " + IsoFormat(log.timestamp, ' ') + " - " + Take(log.message, Shown)
  }

  /** Nothing after the first 50 characters of the message changes the
      text. */
  lemma ToStringIgnoresTail(log: ApplicationLog, rest: string)
    requires |log.message| >= Shown
    ensures ToString(log.(message := log.message + rest)) == ToString(log)
  {
    assert (log.message + rest)[..Shown] == log.message[..Shown];
  }

  /** A message of at most 50 characters is shown whole, at the end. */
  lemma ToStringShowsShortMessage(log: ApplicationLog)
    requires |log.message| <= Shown
    ensures var s := ToString(log); |s| >= |log.message| && s[|s| - |log.message|..] == log.message
  {
  }

  /** The level a text starts with is read back from between the
      brackets. */
  lemma ToStringLevel(log: ApplicationLog)
    ensures var s := ToString(log); |s| > |log.level| + 1 && s[1..|log.level| + 1] == log.level
  {
    var s := ToString(log);
    var head := "[" + log.level + "] ";
    assert s[..|head|] == head;
    assert s[1..|log.level| + 1] == head[1..|log.level| + 1];
  }

  // ------------------------------------------------------ the jsonb column

  /** The number of bytes of `s` in UTF-8. */
  function Utf8Length(s: string): (n: nat)
    ensures n >= |s|
  {
    if s == [] then 0
    else
      var c := s[0] as int;
      (if c < 0x80 then 1 else if c < 0x800 then 2 else if c < 0x10000 then 3 else 4) + Utf8Length(s[1..])
  }

  /** Code-point order, which is the byte order of the UTF-8 forms. */
  predicate LexLess(a: string, b: string) {
    if a == [] then b != []
    else if b == [] then false
    else a[0] < b[0] || (a[0] == b[0] && LexLess(a[1..], b[1..]))
  }

  /** The order in which PostgreSQL's `jsonb` keeps the keys of an object:
      fewer bytes first, then byte by byte. */
  predicate KeyBefore(a: string, b: string) {
    Utf8Length(a) < Utf8Length(b) || (Utf8Length(a) == Utf8Length(b) && LexLess(a, b))
  }

  lemma {:induction false} LexAsymmetric(a: string, b: string)
    ensures !(LexLess(a, b) && LexLess(b, a))
    decreases |a|
  {
    if a != [] && b != [] && a[0] == b[0] {
      LexAsymmetric(a[1..], b[1..]);
    }
  }

  /** No two keys come before each other. */
  lemma KeyBeforeAsymmetric(a: string, b: string)
    ensures KeyBefore(a, b) ==> !KeyBefore(b, a)
  {
    LexAsymmetric(a, b);
  }

  /** Members in the `jsonb` key order. */
  predicate Ordered(s: seq<Json.Member>) {
    forall i :: 0 < i < |s| ==> !KeyBefore(s[i].key, s[i - 1].key)
  }

  /** `m` put into an ordered list before the first member whose key it
      comes before. */
  function Insert(m: Json.Member, s: seq<Json.Member>): (r: seq<Json.Member>)
    ensures multiset(r) == multiset(s) + multiset{m}
    ensures Ordered(s) ==> Ordered(r)
    ensures r != [] && (r[0] == m || (s != [] && r[0] == s[0]))
  {
    if s == [] then [m]
    else if KeyBefore(m.key, s[0].key) then
      KeyBeforeAsymmetric(m.key, s[0].key);
      [m] + s
    else
      var t := Insert(m, s[1..]);
      assert s == [s[0]] + s[1..];
      [s[0]] + t
  }

  /** The members of an object in the `jsonb` key order. */
  function SortMembers(ms: seq<Json.Member>): (r: seq<Json.Member>)
    ensures multiset(r) == multiset(ms) && Ordered(r)
  {
    if ms == [] then []
    else
      assert ms == [ms[0]] + ms[1..];
      Insert(ms[0], SortMembers(ms[1..]))
  }

  /** What a `jsonb` column keeps of a JSON value: every object, at any
      depth, with its keys in the `jsonb` order. */
  function Jsonb(v: Json.Value): Json.Value
    decreases v
  {
    match v
    case Arr(items) => Json.Arr(seq(|items|, i requires 0 <= i < |items| => Jsonb(items[i])))
    case Obj(ms) =>
      Json.Obj(SortMembers(seq(|ms|, i requires 0 <= i < |ms| => Json.Member(ms[i].key, Jsonb(ms[i].value)))))
    case _ => v
  }

  /** In a dictionary with distinct keys, a member is what its key reads. */
  lemma GetMember(o: Json.Object, m: Json.Member)
    requires Json.DistinctKeys(o) && m in o
    ensures Json.Get(o, m.key) == Some(m.value)
  {
    var r := Json.Get(o, m.key);
    assert m.key in Json.Keys(o);
    var i :| 0 <= i < |o| && o[i] == m;
    var j :| 0 <= j < |o| && o[j] == Json.Member(m.key, r.value);
    assert i == j;
  }

  /** Members with the same multiset have the same keys. */
  lemma SameKeys(a: seq<Json.Member>, b: seq<Json.Member>)
    requires multiset(a) == multiset(b)
    ensures Json.Keys(a) == Json.Keys(b)
  {
    forall m ensures m in a <==> m in b {
      assert m in a <==> m in multiset(a);
      assert m in b <==> m in multiset(b);
    }
  }

  /** Sorting keeps keys distinct. */
  lemma {:induction false} SortDistinct(ms: seq<Json.Member>)
    requires Json.DistinctKeys(ms)
    ensures Json.DistinctKeys(SortMembers(ms))
    decreases |ms|
  {
    if ms != [] {
      Json.DistinctTail(ms);
      SortDistinct(ms[1..]);
      var t := SortMembers(ms[1..]);
      SameKeys(t, ms[1..]);
      InsertDistinct(ms[0], t);
    }
  }

  lemma {:induction false} InsertDistinct(m: Json.Member, s: seq<Json.Member>)
    requires Json.DistinctKeys(s) && m.key !in Json.Keys(s)
    ensures Json.DistinctKeys(Insert(m, s))
    decreases |s|
  {
    if s != [] && !KeyBefore(m.key, s[0].key) {
      Json.DistinctTail(s);
      assert Json.Keys(s) == {s[0].key} + Json.Keys(s[1..]);
      InsertDistinct(m, s[1..]);
      var t := Insert(m, s[1..]);
      assert multiset(t) == multiset(s[1..]) + multiset{m};
      assert Json.Keys(t) == Json.Keys(s[1..]) + {m.key} by {
        forall x ensures x in t <==> x in s[1..] || x == m {
          assert x in t <==> x in multiset(t);
          assert x in s[1..] <==> x in multiset(s[1..]);
        }
      }
      ConsDistinct(s[0], t);
    } else if s != [] {
      ConsDistinct(m, s);
    }
  }

  lemma ConsDistinct(m: Json.Member, t: seq<Json.Member>)
    requires Json.DistinctKeys(t) && m.key !in Json.Keys(t)
    ensures Json.DistinctKeys([m] + t)
  {
    var r := [m] + t;
    forall i, j | 0 <= i < j < |r| ensures r[i].key != r[j].key {
      assert r[j] == t[j - 1];
      if i == 0 {
        assert t[j - 1] in t;
      } else {
        assert r[i] == t[i - 1];
      }
    }
  }

  /** A `jsonb` object keeps every key once, in the `jsonb` order, each
      with its value as the column keeps it. */
  lemma JsonbObject(ms: seq<Json.Member>)
    requires Json.DistinctKeys(ms)
    ensures Jsonb(Json.Obj(ms)).Obj?
    ensures var ns := Jsonb(Json.Obj(ms)).members;
      Ordered(ns) && Json.DistinctKeys(ns) && Json.Keys(ns) == Json.Keys(ms)
      && forall k :: Json.Get(ns, k) == if k in Json.Keys(ms) then Some(Jsonb(Json.Get(ms, k).value)) else None
  {
    var ps := seq(|ms|, i requires 0 <= i < |ms| => Json.Member(ms[i].key, Jsonb(ms[i].value)));
    var ns := SortMembers(ps);
    assert Jsonb(Json.Obj(ms)).members == ns;
    assert Json.Keys(ps) == Json.Keys(ms) by {
      forall x | x in Json.Keys(ps) ensures x in Json.Keys(ms) {
        var m :| m in ps && m.key == x;
        var i :| 0 <= i < |ps| && ps[i] == m;
        assert ms[i] in ms;
      }
      forall x | x in Json.Keys(ms) ensures x in Json.Keys(ps) {
        var m :| m in ms && m.key == x;
        var i :| 0 <= i < |ms| && ms[i] == m;
        assert ps[i] in ps;
      }
    }
    SortDistinct(ps);
    SameKeys(ns, ps);
    forall k ensures Json.Get(ns, k) == if k in Json.Keys(ms) then Some(Jsonb(Json.Get(ms, k).value)) else None {
      if k in Json.Keys(ms) {
        var v := Json.Get(ms, k).value;
        var i :| 0 <= i < |ms| && ms[i] == Json.Member(k, v);
        assert ps[i] in multiset(ps);
        GetMember(ns, ps[i]);
      }
    }
  }

  /** The column's order is not the insertion order: `{"user_id": 1,
      "ip": "x"}` comes back as `{"ip": "x", "user_id": 1}`. */
  lemma JsonbReorders()
    ensures Jsonb(Json.Obj([Json.Member("user_id", Json.Int(1)), Json.Member("ip", Json.Str("x"))]))
         == Json.Obj([Json.Member("ip", Json.Str("x")), Json.Member("user_id", Json.Int(1))])
  {
    var ms := [Json.Member("user_id", Json.Int(1)), Json.Member("ip", Json.Str("x"))];
    var ps := seq(|ms|, i requires 0 <= i < |ms| => Json.Member(ms[i].key, Jsonb(ms[i].value)));
    assert ps == ms;
    assert KeyBefore("ip", "user_id");
  }

  // the insert

  /** The columns the sink's `INSERT` names, in order. */
  const InsertColumns: seq<string> :=
    ["timestamp", "level", "logger_name", "message", "module", "function", "line_number",
     "thread_id", "thread_name", "process_id", "exception", "extra_data", "environment", "hostname"]

  /** The model table's columns that are not null and have no database
      default. `created_at` is one: `auto_now_add` is filled in by the
      ORM's `save()`, and the table gets no default for it. The `id`
      column is an identity column, so it is not listed. */
  const RequiredColumns: seq<string> := ["timestamp", "level", "logger_name", "message", "created_at"]

  /** Whether the model's table accepts an `INSERT` naming `cols`: every
      required column is named. */
  predicate Accepts(cols: seq<string>) {
    forall i :: 0 <= i < |RequiredColumns| ==> RequiredColumns[i] in cols
  }

  /** The sink's insert as written leaves `created_at` out, so the model's
      table refuses it. */
  lemma SinkInsertRejected()
    ensures "created_at" in RequiredColumns && "created_at" !in InsertColumns
    ensures !Accepts(InsertColumns)
  {
    assert RequiredColumns[4] == "created_at";
  }

  /** Hence every non-empty batch the sink writes to the model's table
      fails: the handler disconnects and counts the whole batch as
      failed, whatever the connection does. */
  lemma ModelTableBatchFails(c: Counters, n: nat, connectOk: bool)
    requires n > 0
    ensures var r := WriteOutcome(c, n, connectOk, Accepts(InsertColumns));
      !r.connected && r.written == c.written && r.failed == c.failed + n
  {
    SinkInsertRejected();
  }

  /** The insert as intended: the sink's columns, then `created_at` with
      the insertion time. This is the insert `FromRow` reads back. */
  const StoredColumns: seq<string> := InsertColumns + ["created_at"]

  /** The intended insert keeps the sink's columns in their order and is
      accepted, so a batch written over a live connection is counted as
      written. */
  lemma CorrectedInsertAccepted(c: Counters, n: nat, connectOk: bool)
    requires n > 0 && (c.connected || connectOk)
    ensures StoredColumns[..|InsertColumns|] == InsertColumns && Accepts(StoredColumns)
    ensures var r := WriteOutcome(c, n, connectOk, Accepts(StoredColumns));
      r.connected && r.written == c.written + n && r.failed == c.failed
  {
    assert StoredColumns[..|InsertColumns|] == InsertColumns;
    forall i | 0 <= i < |RequiredColumns|
      ensures RequiredColumns[i] in StoredColumns
    {
      if i < 4 {
        assert RequiredColumns[i] == StoredColumns[i];
      } else {
        assert RequiredColumns[i] == StoredColumns[|InsertColumns|];
      }
    }
  }

  /** The row the database holds for a tuple the sink inserts (the
      columns in the order of its `INSERT`), read back through the model
      at insertion time `createdAt` (the `created_at` value of the
      intended insert, `StoredColumns`): the JSON text of the extra fields
      is read back as a value. */
  function FromRow(row: Row, createdAt: DateTime): (log: ApplicationLog)
    ensures log.timestamp == row.timestamp && log.level == row.level && log.loggerName == row.loggerName
    ensures log.message == row.message && log.lineNumber == Some(row.lineNumber)
    ensures log.moduleName == Some(row.moduleName) && log.funcName == Some(row.funcName)
    ensures log.threadId == Some(row.threadId) && log.threadName == Some(row.threadName)
    ensures log.processId == Some(row.processId) && log.hostname == Some(row.hostname)
    ensures log.exception == row.exception && log.environment == Some(row.environment)
    ensures row.extraData.None? ==> log.extraData.None?
    ensures row.extraData.Some? && Json.Parse(row.extraData.value).None? ==> log.extraData.None?
    ensures row.extraData.Some? && Json.Parse(row.extraData.value).Some? ==>
      log.extraData == Some(Jsonb(Json.Parse(row.extraData.value).value))
    ensures log.createdAt == createdAt
  {
    ApplicationLog(
      row.timestamp, row.level, row.loggerName, row.message,
      Some(row.moduleName), Some(row.funcName), Some(row.lineNumber),
      Some(row.threadId), Some(row.threadName), Some(row.processId),
      row.exception,
      if row.extraData.Some? && Json.Parse(row.extraData.value).Some?
      then Some(Jsonb(Json.Parse(row.extraData.value).value)) else None,
      Some(row.environment), Some(row.hostname), createdAt)
  }

  /** What the sink stores for a record reads back as the record: its
      time, level, logger and formatted message; a traceback exactly when
      the record carried a non-empty one; the environment (`unknown` when
      no filter set one). */
  lemma StoredRecord(f: Fields, formatted: string, hasFormatter: bool, hostname: string, createdAt: DateTime)
    ensures var log := FromRow(PrepareRecord(f, formatted, hasFormatter, hostname), createdAt);
      log.timestamp == f.created && log.level == f.levelname && log.loggerName == f.name
      && log.message == formatted && log.hostname == Some(hostname)
      && log.environment == Some(f.environment.GetOr("unknown"))
      && (HasException(log) <==>
            f.excInfo.Some? && (if hasFormatter then f.excInfo.value.traceback else f.excInfo.value.repr) != [])
      && (IsError(log) <==> f.levelname == "ERROR" || f.levelname == "CRITICAL")
  {
  }

  /** The extra fields the sink writes as JSON come back as an object with
      the same keys, each reading the value it was written with (its
      objects in the column's key order), and there is no extra data
      exactly when the record had none. */
  lemma StoredExtraFields(f: Fields, formatted: string, hasFormatter: bool, hostname: string, createdAt: DateTime)
    requires f.extraFields.Some? ==> Json.WellFormed(Json.Obj(f.extraFields.value))
    ensures var log := FromRow(PrepareRecord(f, formatted, hasFormatter, hostname), createdAt);
      (log.extraData.None? <==> f.extraFields.None? || f.extraFields.value == [])
      && (log.extraData.Some? ==>
            var o := f.extraFields.value;
            log.extraData.value == Jsonb(Json.Obj(o)) && log.extraData.value.Obj?
            && Json.Keys(log.extraData.value.members) == Json.Keys(o)
            && forall k :: k in Json.Keys(o) ==>
                 Json.Get(log.extraData.value.members, k) == Some(Jsonb(Json.Get(o, k).value)))
  {
    if f.extraFields.Some? && f.extraFields.value != [] {
      Json.DumpParse(Json.Obj(f.extraFields.value), true);
      JsonbObject(f.extraFields.value);
    }
  }

  /** A record at a standard level is stored with a level the column
      accepts. */
  lemma StandardLevelStored(f: Fields, formatted: string, hasFormatter: bool, hostname: string,
                            createdAt: DateTime, i: nat)
    requires i < |LevelNames| && f.levelname == LevelNames[i]
    ensures var log := FromRow(PrepareRecord(f, formatted, hasFormatter, hostname), createdAt);
      IsLevel(log.level) && |log.level| <= 10
  {
    ChoicesAreLevelNames(i);
  }
}

=== FILE: records.dfy ===
/** The values every part of the logging pipeline passes around: the
    calendar date-time of a record and its text forms, the exception
    attached to a record, and the record itself, whose message, level name
    and environment the filters and formatters rewrite in place. */
module Records {

  import opened Wrappers
  import opened Text
  import Json

  /** A `datetime.datetime`: the calendar fields, without a time zone. */
  datatype DateTime = DateTime(year: nat, month: nat, day: nat,
                               hour: nat, minute: nat, second: nat,
                               microsecond: nat)
  {
    /** The ranges `datetime` enforces on construction. */
    predicate Valid() {
      1 <= year <= 9999 && 1 <= month <= 12 && 1 <= day <= 31
      && hour < 24 && minute < 60 && second < 60 && microsecond < 1000000
    }
  }

  function Zeros(k: nat): (z: string)
    ensures |z| == k
    ensures forall i :: 0 <= i < k ==> z[i] == '0'
  {
    if k == 0 then [] else Zeros(k - 1) + ['0']
  }

  /** `%0wd`: the decimal digits of `n`, left-padded with zeros to `w`. */
  function Pad(n: nat, w: nat): (s: string)
    ensures |s| >= w
    ensures forall i :: 0 <= i < |s| ==> IsDigit(s[i])
  {
    var d := NatToString(n);
    if |d| < w then Zeros(w - |d|) + d else d
  }

  function Pow10(k: nat): (p: nat)
    ensures p >= 1
  {
    if k == 0 then 1 else 10 * Pow10(k - 1)
  }

  /** `YYYY-MM-DD`. */
  function DatePart(d: DateTime): string {
    Pad(d.year, 4) + "-" + Pad(d.month, 2) + "-" + Pad(d.day, 2)
  }

  /** `HH:MM:SS`. */
  function TimePart(d: DateTime): string {
    Pad(d.hour, 2) + ":" + Pad(d.minute, 2) + ":" + Pad(d.second, 2)
  }

  /** `datetime.isoformat(sep)`: the date, the separator, the time, and
      `.ffffff` only when the microseconds are not zero. For a valid
      date-time every part has its fixed width: the date in the first ten
      columns, the separator at index 10, the time after it, and the
      microseconds, when present, after a dot. */
  function IsoFormat(d: DateTime, sep: char): (s: string)
    ensures d.Valid() ==>
      |s| == (if d.microsecond == 0 then 19 else 26)
      && s[..10] == DatePart(d) && s[10] == sep && s[11..19] == TimePart(d)
      && (d.microsecond != 0 ==> s[19] == '.' && AllDigits(s[20..26]) && DigitsValue(s[20..26]) == d.microsecond)
  {
    var fraction := if d.microsecond != 0 then "." + Pad(d.microsecond, 6) else "";
    PartLengths(d);
    var s := DatePart(d) + [sep] + TimePart(d) + fraction;
    assert d.Valid() && d.microsecond != 0 ==> s[20..26] == Pad(d.microsecond, 6);
    s
  }

  /** The `asctime` a formatter writes with the date format
      `%Y-%m-%d %H:%M:%S`: `isoformat` with a space and no fraction of a
      second. */
  function AscTime(d: DateTime): (s: string)
    ensures d.Valid() ==>
      |s| == 19 && s[..10] == DatePart(d) && s[10] == ' ' && s[11..] == TimePart(d)
  {
    IsoFormat(d.(microsecond := 0), ' ')
  }

  lemma {:induction false} NatDigitsBound(n: nat, k: nat)
    requires k >= 1 && n < Pow10(k)
    ensures |NatToString(n)| <= k
    decreases n
  {
    if n >= 10 {
      assert Pow10(k) == 10 * Pow10(k - 1);
      if k == 1 {
        assert false;
      }
      assert n / 10 < Pow10(k - 1);
      NatDigitsBound(n / 10, k - 1);
    }
  }

  /** A leading zero does not change the value of a run of digits. */
  lemma {:induction false} LeadingZero(t: string)
    requires forall i :: 0 <= i < |t| ==> IsDigit(t[i])
    ensures DigitsValue(['0'] + t) == DigitsValue(t)
    decreases |t|
  {
    if t != [] {
      var t' := t[..|t| - 1];
      assert (['0'] + t)[..|t|] == ['0'] + t';
      LeadingZero(t');
    }
  }

  lemma {:induction false} LeadingZeros(k: nat, t: string)
    requires forall i :: 0 <= i < |t| ==> IsDigit(t[i])
    ensures DigitsValue(Zeros(k) + t) == DigitsValue(t)
    decreases k
  {
    if k > 0 {
      var t' := ['0'] + t;
      assert forall i :: 0 <= i < |t'| ==> IsDigit(t'[i]);
      assert Zeros(k) == Zeros(k - 1) + ['0'];
      assert Zeros(k) + t == Zeros(k - 1) + t';
      LeadingZeros(k - 1, t');
      LeadingZero(t);
    } else {
      assert Zeros(k) + t == t;
    }
  }

  /** A zero-padded field has exactly its width when the number fits, and
      reads back as the number. */
  lemma PadField(n: nat, w: nat)
    requires w >= 1 && n < Pow10(w)
    ensures |Pad(n, w)| == w
    ensures DigitsValue(Pad(n, w)) == n
  {
    var d := NatToString(n);
    NatDigitsBound(n, w);
    DigitsOfNat(n);
    if |d| < w {
      LeadingZeros(w - |d|, d);
    }
  }

  /** Three fixed-width fields joined by a one-character separator read
      back from their columns. */
  lemma ThreeFields(a: nat, b: nat, c: nat, wa: nat, sep: string)
    requires wa >= 1 && a < Pow10(wa) && b < 100 && c < 100 && |sep| == 1
    ensures var s := Pad(a, wa) + sep + Pad(b, 2) + sep + Pad(c, 2);
      |s| == wa + 6 && s[wa] == sep[0] && s[wa + 3] == sep[0]
      && DigitsValue(s[..wa]) == a && DigitsValue(s[wa + 1..wa + 3]) == b
      && DigitsValue(s[wa + 4..]) == c
  {
    PadField(a, wa);
    PadField(b, 2);
    PadField(c, 2);
    var s := Pad(a, wa) + sep + Pad(b, 2) + sep + Pad(c, 2);
    assert s[..wa] == Pad(a, wa);
    assert s[wa + 1..wa + 3] == Pad(b, 2);
    assert s[wa + 4..] == Pad(c, 2);
  }

  lemma PartLengths(d: DateTime)
    ensures d.Valid() ==> |DatePart(d)| == 10 && |TimePart(d)| == 8
    ensures d.Valid() && d.microsecond != 0 ==>
      |Pad(d.microsecond, 6)| == 6 && DigitsValue(Pad(d.microsecond, 6)) == d.microsecond
  {
    if d.Valid() {
      PadField(d.year, 4);
      PadField(d.month, 2);
      PadField(d.day, 2);
      PadField(d.hour, 2);
      PadField(d.minute, 2);
      PadField(d.second, 2);
      if d.microsecond != 0 {
        PadField(d.microsecond, 6);
      }
    }
  }

  /** The date columns of `isoformat` read back as year, month and day. */
  lemma DatePartFields(d: DateTime)
    requires d.Valid()
    ensures var s := DatePart(d);
      |s| == 10 && s[4] == '-' && s[7] == '-'
      && DigitsValue(s[..4]) == d.year && DigitsValue(s[5..7]) == d.month
      && DigitsValue(s[8..]) == d.day
  {
    ThreeFields(d.year, d.month, d.day, 4, "-");
  }

  /** The time columns of `isoformat` read back as hour, minute and
      second. */
  lemma TimePartFields(d: DateTime)
    requires d.Valid()
    ensures var s := TimePart(d);
      |s| == 8 && s[2] == ':' && s[5] == ':'
      && DigitsValue(s[..2]) == d.hour && DigitsValue(s[3..5]) == d.minute
      && DigitsValue(s[6..]) == d.second
  {
    ThreeFields(d.hour, d.minute, d.second, 2, ":");
  }

  /** The default `isoformat()` is an ISO 8601 date-time with `T` between
      the date and the time. */
  lemma IsoFormatHasT(d: DateTime)
    requires d.Valid()
    ensures 'T' in IsoFormat(d, 'T')
  {
    assert IsoFormat(d, 'T')[10] == 'T';
  }

  /** What `sys.exc_info()` carries, seen through the two texts the library
      makes of it: the traceback `Formatter.formatException` writes, and
      `str()` of the tuple. */
  datatype ExcInfo = ExcInfo(traceback: string, repr: string)

  /** The attributes of a `logging.LogRecord` at one moment, as a value. */
  datatype Fields = Fields(
    name: string, levelno: int, levelname: string, msg: string,
    moduleName: string, funcName: string, lineno: int,
    thread: int, threadName: string, process: int,
    created: DateTime, excInfo: Option<ExcInfo>,
    extraFields: Option<Json.Object>, environment: Option<string>)

  /** A `logging.LogRecord`. The filters rewrite `msg` and set
      `environment`, the coloured formatter rewrites `levelname` for the
      duration of a call; everything else is fixed when the record is made.
      `extraFields` is the `extra_fields` attribute a caller passes through
      `extra=`, absent when it was not passed; `environment` is absent until
      an environment filter has run. The message has no `%` arguments, so
      `getMessage()` is `msg`. */
  class LogRecord {
    const name: string
    const levelno: int
    var levelname: string
    var msg: string
    const moduleName: string
    const funcName: string
    const lineno: int
    const thread: int
    const threadName: string
    const process: int
    const created: DateTime
    const excInfo: Option<ExcInfo>
    const extraFields: Option<Json.Object>
    var environment: Option<string>

    constructor (f: Fields)
      ensures View() == f
    {
      name := f.name;
      levelno := f.levelno;
      levelname := f.levelname;
      msg := f.msg;
      moduleName := f.moduleName;
      funcName := f.funcName;
      lineno := f.lineno;
      thread := f.thread;
      threadName := f.threadName;
      process := f.process;
      created := f.created;
      excInfo := f.excInfo;
      extraFields := f.extraFields;
      environment := f.environment;
    }

    /** The record's attributes now. */
    function View(): Fields
      reads this
    {
      Fields(name, levelno, levelname, msg, moduleName, funcName, lineno,
             thread, threadName, process, created, excInfo, extraFields, environment)
    }
  }
}

=== FILE: text.dfy ===
/** String helpers shared by the logging model: the parts of Python's `str`
    API that the library calls (`lower`, `upper`, `strip`, `split`,
    `startswith`, `in`, `str(int)` and `int(str)`), written out over
    `seq<char>`. Case mapping covers ASCII letters only. */
module Text {

  import opened Wrappers

  /** Python's `str.isspace` for one character (the code points Python
      classifies as whitespace: the ASCII separators, U+001C..U+001F, U+0085,
      U+00A0, U+1680, U+2000..U+200A, U+2028, U+2029, U+202F, U+205F, U+3000).
      `re`'s `\s`, `str.strip()` and `str.split()` all use this class. */
  predicate IsSpace(c: char) {
    var n := c as int;
    (9 <= n <= 13) || (28 <= n <= 32) || n == 0x85 || n == 0xA0 || n == 0x1680
    || (0x2000 <= n <= 0x200A) || n == 0x2028 || n == 0x2029 || n == 0x202F
    || n == 0x205F || n == 0x3000
  }

  predicate IsDigit(c: char) { '0' <= c <= '9' }

  function ToLowerChar(c: char): (r: char)
    ensures 'A' <= c <= 'Z' ==> 'a' <= r <= 'z'
    ensures !('A' <= c <= 'Z') ==> r == c
  {
    if 'A' <= c <= 'Z' then (c as int + 32) as char else c
  }

  function ToUpperChar(c: char): (r: char)
    ensures 'a' <= c <= 'z' ==> 'A' <= r <= 'Z'
    ensures !('a' <= c <= 'z') ==> r == c
  {
    if 'a' <= c <= 'z' then (c as int - 32) as char else c
  }

  /** `s.lower()` on ASCII letters. */
  function Lower(s: string): (r: string)
    ensures |r| == |s|
    ensures forall i :: 0 <= i < |s| ==> r[i] == ToLowerChar(s[i])
  {
    seq(|s|, i requires 0 <= i < |s| => ToLowerChar(s[i]))
  }

  /** `s.upper()` on ASCII letters. */
  function Upper(s: string): (r: string)
    ensures |r| == |s|
    ensures forall i :: 0 <= i < |s| ==> r[i] == ToUpperChar(s[i])
  {
    seq(|s|, i requires 0 <= i < |s| => ToUpperChar(s[i]))
  }

  lemma LowerAppend(a: string, b: string)
    ensures Lower(a + b) == Lower(a) + Lower(b)
  {
  }

  /** A character that is not an upper-case letter is missing from
      `Lower(s)` when it and its upper-case form are missing from `s`. */
  lemma NotInLower(s: string, c: char)
    requires !('A' <= c <= 'Z') && c !in s && ToUpperChar(c) !in s
    ensures c !in Lower(s)
  {
    forall i | 0 <= i < |s|
      ensures Lower(s)[i] != c
    {
      if 'A' <= s[i] <= 'Z' {
        assert ToUpperChar(ToLowerChar(s[i])) == s[i];
      }
    }
  }

  /** `s[:n]`. */
  function Take(s: string, n: nat): (r: string)
    ensures |r| == if |s| < n then |s| else n
    ensures r == s[..|r|]
  {
    if |s| < n then s else s[..n]
  }

  predicate StartsWith(s: string, prefix: string) {
    |prefix| <= |s| && s[..|prefix|] == prefix
  }

  /** Python's `sub in s`: some suffix of `s` starts with `sub`. */
  predicate Occurs(sub: string, s: string) {
    exists i :: 0 <= i <= |s| && StartsWith(s[i..], sub)
  }

  /** `sub in s` holds when `s` starts with `sub` or its tail contains
      `sub`. */
  lemma OccursStep(sub: string, s: string)
    requires s != []
    ensures Occurs(sub, s) <==> StartsWith(s, sub) || Occurs(sub, s[1..])
  {
    if Occurs(sub, s) && !StartsWith(s, sub) {
      var i :| 0 <= i <= |s| && StartsWith(s[i..], sub);
      assert s[1..][i - 1..] == s[i..];
    }
    if Occurs(sub, s[1..]) {
      var i :| 0 <= i <= |s[1..]| && StartsWith(s[1..][i..], sub);
      assert s[i + 1..] == s[1..][i..];
    }
    if StartsWith(s, sub) {
      assert s[0..] == s;
    }
  }

  /** A text that lacks some character of `sub` does not contain `sub`. */
  lemma MissingChar(sub: string, s: string, c: char)
    requires c in sub && c !in s
    ensures !Occurs(sub, s)
  {
  }

  /** `sub` occurs in any text that has it right after some prefix. */
  lemma OccursAfter(pre: string, sub: string, post: string)
    ensures Occurs(sub, pre + sub + post)
  {
    var s := pre + sub + post;
    assert s[|pre|..][..|sub|] == sub;
  }

  /** A text that occurs in `a + [c] + b` occurs in `a`, occurs in `b`
      or contains `c`. */
  lemma OccursAcross(sub: string, a: string, c: char, b: string)
    ensures Occurs(sub, a + [c] + b) ==> Occurs(sub, a) || Occurs(sub, b) || c in sub
  {
    var s := a + [c] + b;
    if Occurs(sub, s) {
      var i :| 0 <= i <= |s| && StartsWith(s[i..], sub);
      if i + |sub| <= |a| {
        assert a[i..][..|sub|] == s[i..][..|sub|];
        assert StartsWith(a[i..], sub);
      } else if i > |a| {
        assert s[i..] == b[i - |a| - 1..];
        assert StartsWith(b[i - |a| - 1..], sub);
      } else {
        assert sub[|a| - i] == s[|a|];
      }
    }
  }

  /** `s.replace(sub, '')`: every occurrence of `sub` found scanning from
      the left, without overlap, removed. An empty `sub` removes nothing. */
  function RemoveAll(s: string, sub: string): (r: string)
    ensures |r| <= |s|
    decreases |s|
  {
    if sub == [] || s == [] then s
    else if StartsWith(s, sub) then RemoveAll(s[|sub|..], sub)
    else [s[0]] + RemoveAll(s[1..], sub)
  }

  /** A text that does not contain `sub` is left as it is. */
  lemma {:induction false} RemoveAbsent(s: string, sub: string)
    requires !Occurs(sub, s)
    ensures RemoveAll(s, sub) == s
    decreases |s|
  {
    if sub != [] && s != [] {
      OccursStep(sub, s);
      RemoveAbsent(s[1..], sub);
      assert [s[0]] + s[1..] == s;
    }
  }

  /** A leading `sub` is removed, and the scan goes on after it. */
  lemma RemoveLeading(sub: string, t: string)
    requires sub != []
    ensures RemoveAll(sub + t, sub) == RemoveAll(t, sub)
  {
    assert (sub + t)[..|sub|] == sub;
    assert (sub + t)[|sub|..] == t;
  }

  function TrimLeft(s: string): (r: string)
    ensures r == [] || !IsSpace(r[0])
    ensures |r| <= |s| && r == s[|s| - |r|..]
    ensures forall i :: 0 <= i < |s| - |r| ==> IsSpace(s[i])
  {
    if s != [] && IsSpace(s[0]) then TrimLeft(s[1..]) else s
  }

  function TrimRight(s: string): (r: string)
    ensures r == [] || !IsSpace(r[|r| - 1])
    ensures |r| <= |s| && r == s[..|r|]
    ensures forall i :: |r| <= i < |s| ==> IsSpace(s[i])
  {
    if s != [] && IsSpace(s[|s| - 1]) then TrimRight(s[..|s| - 1]) else s
  }

  /** How many whitespace characters `s` starts with. */
  function LeadingSpaces(s: string): (n: nat)
    ensures n <= |s| && (n == |s| || !IsSpace(s[n]))
    ensures forall k :: 0 <= k < n ==> IsSpace(s[k])
  {
    |s| - |TrimLeft(s)|
  }

  lemma SliceOfSlice(s: string, n: nat, m: nat)
    requires n + m <= |s|
    ensures s[n..][..m] == s[n..n + m]
  {
  }

  /** A prefix of a suffix of `s` that is followed in the suffix by
      nothing but whitespace is a slice of `s` followed by nothing but
      whitespace. */
  lemma TrimmedSlice(s: string, n: nat, l: string, r: string)
    requires n <= |s| && l == s[n..] && |r| <= |l| && r == l[..|r|]
    requires forall i :: |r| <= i < |l| ==> IsSpace(l[i])
    ensures r == s[n..n + |r|]
    ensures forall k :: n + |r| <= k < |s| ==> IsSpace(s[k])
  {
    SliceOfSlice(s, n, |r|);
    forall k | n + |r| <= k < |s|
      ensures IsSpace(s[k])
    {
      assert s[k] == l[k - n];
    }
  }

  lemma PrefixStart(l: string, r: string)
    requires (l == [] || !IsSpace(l[0])) && |r| <= |l| && r == l[..|r|]
    ensures r == [] || !IsSpace(r[0])
  {
  }

  lemma TrimNoSpace(s: string)
    ensures (forall i :: 0 <= i < |s| ==> !IsSpace(s[i])) ==> TrimRight(TrimLeft(s)) == s
  {
    if forall i :: 0 <= i < |s| ==> !IsSpace(s[i]) {
      assert TrimLeft(s) == s;
    }
  }

  /** `s.strip()`: `s` without its leading and trailing whitespace. */
  function Strip(s: string): (r: string)
    ensures r == [] || (!IsSpace(r[0]) && !IsSpace(r[|r| - 1]))
    ensures (forall i :: 0 <= i < |s| ==> !IsSpace(s[i])) ==> r == s
  {
    var l := TrimLeft(s);
    var r := TrimRight(l);
    PrefixStart(l, r);
    TrimNoSpace(s);
    r
  }

  /** What `strip` keeps is the slice of `s` that starts after its leading
      whitespace and is followed by nothing but whitespace. */
  lemma StripSlice(s: string)
    ensures var r, n := Strip(s), LeadingSpaces(s);
      n + |r| <= |s| && r == s[n..n + |r|] && forall k :: n + |r| <= k < |s| ==> IsSpace(s[k])
  {
    var l := TrimLeft(s);
    TrimmedSlice(s, |s| - |l|, l, TrimRight(l));
  }

  /** `s.split(sep)` for a one-character separator: the pieces between
      separators, always at least one. */
  function Split(s: string, sep: char): (parts: seq<string>)
    ensures |parts| >= 1
    ensures forall k :: 0 <= k < |parts| ==> sep !in parts[k]
    decreases |s|
  {
    if s == [] then [""]
    else if s[0] == sep then [""] + Split(s[1..], sep)
    else
      var rest := Split(s[1..], sep);
      [[s[0]] + rest[0]] + rest[1..]
  }

  /** `sep.join(parts)`: the first piece, then a separator before each
      further piece. */
  function Join(parts: seq<string>, sep: char): (r: string)
    requires |parts| >= 1
    ensures |parts[0]| <= |r| && r[..|parts[0]|] == parts[0]
    ensures |parts| > 1 ==> |parts[0]| < |r| && r[|parts[0]|] == sep
    ensures |parts| == 1 ==> r == parts[0]
    decreases |parts|
  {
    if |parts| == 1 then parts[0] else parts[0] + [sep] + Join(parts[1..], sep)
  }

  /** Joining what `Split` cut gives back the original text. */
  lemma {:induction false} JoinSplit(s: string, sep: char)
    ensures Join(Split(s, sep), sep) == s
    decreases |s|
  {
    if s == [] {
    } else if s[0] == sep {
      JoinSplit(s[1..], sep);
      assert s == [sep] + s[1..];
    } else {
      JoinSplit(s[1..], sep);
      var rest := Split(s[1..], sep);
      if |rest| == 1 {
        assert s == [s[0]] + s[1..];
      } else {
        assert rest == [rest[0]] + rest[1..];
        assert Join(rest, sep) == rest[0] + [sep] + Join(rest[1..], sep);
        assert s == [s[0]] + s[1..];
      }
    }
  }

  /** Splitting `a + sep + b` where `a` holds no separator yields `a` first. */
  lemma {:induction false} SplitAfterPiece(a: string, sep: char, b: string)
    requires sep !in a
    ensures Split(a + [sep] + b, sep) == [a] + Split(b, sep)
    decreases |a|
  {
    if a == [] {
      assert a + [sep] + b == [sep] + b;
      assert ([sep] + b)[1..] == b;
    } else {
      SplitAfterPiece(a[1..], sep, b);
      assert (a + [sep] + b)[1..] == a[1..] + [sep] + b;
      assert [a[0]] + a[1..] == a;
    }
  }

  /** A text without the separator is a single piece. */
  lemma {:induction false} SplitNoSeparator(a: string, sep: char)
    requires sep !in a
    ensures Split(a, sep) == [a]
    decreases |a|
  {
    if a != [] {
      SplitNoSeparator(a[1..], sep);
      assert [a[0]] + a[1..] == a;
    }
  }

  /** Splitting what `Join` glued, when no piece holds the separator,
      gives back the pieces. */
  lemma {:induction false} SplitJoin(parts: seq<string>, sep: char)
    requires |parts| >= 1
    requires forall k :: 0 <= k < |parts| ==> sep !in parts[k]
    ensures Split(Join(parts, sep), sep) == parts
    decreases |parts|
  {
    if |parts| == 1 {
      SplitNoSeparator(parts[0], sep);
    } else {
      SplitJoin(parts[1..], sep);
      SplitAfterPiece(parts[0], sep, Join(parts[1..], sep));
      assert [parts[0]] + parts[1..] == parts;
    }
  }

  function DigitChar(d: nat): (c: char)
    requires d < 10
    ensures IsDigit(c)
  {
    ('0' as int + d) as char
  }

  function DigitValue(c: char): (d: nat)
    requires IsDigit(c)
    ensures d < 10
  {
    c as int - '0' as int
  }

  /** Decimal digits of a natural number, as `str(n)` writes them. */
  function NatToString(n: nat): (s: string)
    ensures |s| >= 1
    ensures forall i :: 0 <= i < |s| ==> IsDigit(s[i])
    ensures n < 10 <==> |s| == 1
    decreases n
  {
    if n < 10 then [DigitChar(n)] else NatToString(n / 10) + [DigitChar(n % 10)]
  }

  /** `str(i)` for an integer: a minus sign exactly for a negative
      number, then decimal digits only. */
  function IntToString(i: int): (s: string)
    ensures |s| >= 1
    ensures s[0] == '-' <==> i < 0
    ensures forall k :: (if i < 0 then 1 else 0) <= k < |s| ==> IsDigit(s[k])
    ensures i < 0 ==> |s| >= 2
  {
    if i < 0 then "-" + NatToString(-i) else NatToString(i)
  }

  /** The value of a non-empty run of decimal digits. */
  function DigitsValue(s: string): (n: nat)
    requires forall i :: 0 <= i < |s| ==> IsDigit(s[i])
    decreases |s|
  {
    if s == [] then 0 else DigitsValue(s[..|s| - 1]) * 10 + DigitValue(s[|s| - 1])
  }

  predicate AllDigits(s: string) {
    |s| >= 1 && forall i :: 0 <= i < |s| ==> IsDigit(s[i])
  }

  /** `int(s)` for a base-10 text: surrounding whitespace, an optional sign
      and ASCII digits; anything else is the `ValueError` Python raises. */
  function ParseInt(s: string): (r: Option<int>)
    ensures r.Some? <==> var t := Strip(s);
      AllDigits(t) || (|t| >= 2 && (t[0] == '-' || t[0] == '+') && AllDigits(t[1..]))
    ensures AllDigits(Strip(s)) ==> r == Some(DigitsValue(Strip(s)))
    ensures r.Some? && Strip(s)[0] == '-' ==> r.value == -(DigitsValue(Strip(s)[1..]) as int)
    ensures r.Some? && Strip(s)[0] == '+' ==> r.value == DigitsValue(Strip(s)[1..])
  {
    var t := Strip(s);
    if t == [] then None
    else if t[0] == '-' || t[0] == '+' then
      var body := t[1..];
      if AllDigits(body) then
        Some(if t[0] == '-' then -(DigitsValue(body) as int) else DigitsValue(body))
      else None
    else if AllDigits(t) then Some(DigitsValue(t))
    else None
  }

  lemma {:induction false} DigitsOfNat(n: nat)
    ensures DigitsValue(NatToString(n)) == n
    decreases n
  {
    if n >= 10 {
      DigitsOfNat(n / 10);
      var s := NatToString(n);
      assert s[..|s| - 1] == NatToString(n / 10);
    }
  }

  /** A text of digits and signs has nothing for `strip` to remove. */
  lemma StripDigits(s: string)
    requires forall k :: 0 <= k < |s| ==> IsDigit(s[k]) || s[k] == '-'
    ensures Strip(s) == s
  {
    assert forall k :: 0 <= k < |s| ==> !IsSpace(s[k]);
  }

  /** `int(str(i)) == i`. */
  lemma IntRoundTrip(i: int)
    ensures ParseInt(IntToString(i)) == Some(i)
  {
    var s := IntToString(i);
    var digits := NatToString(if i < 0 then -i else i);
    DigitsOfNat(if i < 0 then -i else i);
    StripDigits(s);
    if i < 0 {
      assert s[1..] == digits;
    }
  }
}

=== FILE: utils.dfy ===
/** The package-level entry points: the one global manager, set up from a
    configuration, from keyword arguments or from environment variables,
    and the accessors around it. The process environment is a map passed
    in; whether the database sink's first connection succeeds is the
    `connectOk` oracle of module `Handlers`. */
module Utils {

  import opened Wrappers
  import opened Text
  import opened Handlers
  import opened Logging

  type Env = map<string, string>

  /** `os.getenv(key, default)`. */
  function Getenv(env: Env, key: string, default: string): (r: string)
    ensures key in env ==> r == env[key]
    ensures key !in env ==> r == default
  {
    if key in env then env[key] else default
  }

  /** `int(os.getenv(key, default))` where the default text is `str(n)`:
      the variable's text read by `int()`, or `n` itself when the variable
      is unset (`EnvIntReads` shows the two readings agree). */
  function EnvInt(env: Env, key: string, n: nat): (r: Option<int>)
    ensures key !in env ==> r == Some(n)
    ensures key in env ==> r == ParseInt(env[key])
  {
    if key in env then ParseInt(env[key]) else Some(n)
  }

  /** Reading the default text with `int()` gives the default value. */
  lemma EnvIntReads(env: Env, key: string, n: nat)
    ensures EnvInt(env, key, n) == ParseInt(Getenv(env, key, NatToString(n)))
  {
    IntRoundTrip(n);
  }

  /** A boolean variable: true exactly when its lower-cased value is
      `true`. */
  predicate Flag(env: Env, key: string, default: string) {
    Lower(Getenv(env, key, default)) == "true"
  }

  /** `true` in any case turns a flag on. */
  lemma FlagIgnoresCase(env: Env, key: string, value: string)
    requires Lower(value) == "true"
    ensures Flag(env[key := value], key, "false")
  {
  }

  /** The `LogConfig` `initialize_from_env` builds, before the database
      sink. */
  function EnvConfig(env: Env): (c: LogConfig)
    ensures c.name == Getenv(env, "LOG_NAME", "app")
    ensures c.level == Numeric(FromString(Upper(Getenv(env, "LOG_LEVEL", "INFO"))))
    ensures c.environment == Getenv(env, "LOG_ENVIRONMENT", Development)
    ensures c.logDir.Some? <==> "LOG_DIR" in env && env["LOG_DIR"] != []
    ensures c.consoleOutput == Flag(env, "LOG_CONSOLE", "true")
    ensures c.fileOutput == Flag(env, "LOG_FILE", "false")
    ensures c.jsonFormat == Flag(env, "LOG_JSON", "false")
    ensures c.(name := "app", level := Numeric(Info), environment := Development, logDir := None,
               consoleOutput := true, fileOutput := true, jsonFormat := false) == DefaultConfig()
  {
    var logDir := Getenv(env, "LOG_DIR", "");
    PostInit(DefaultConfig().(
      name := Getenv(env, "LOG_NAME", "app"),
      level := Numeric(FromString(Upper(Getenv(env, "LOG_LEVEL", "INFO")))),
      environment := Getenv(env, "LOG_ENVIRONMENT", Development),
      logDir := if logDir != [] then Some(logDir) else None,
      consoleOutput := Flag(env, "LOG_CONSOLE", "true"),
      fileOutput := Flag(env, "LOG_FILE", "false"),
      jsonFormat := Flag(env, "LOG_JSON", "false")))
  }

  /** With no variables set: the logger `app` at INFO in development,
      console on, file and JSON off. */
  lemma EmptyEnvConfig()
    ensures EnvConfig(map[]) == DefaultConfig().(fileOutput := false)
  {
    assert Lower("true") == "true";
    assert Lower("false") != "true" by {
      assert Lower("false")[0] == 'f';
    }
    assert FromString(Upper("INFO")) == Info by {
      FromStringNames(1);
    }
  }

  /** The database settings `initialize_from_env` reads, or the error
      `int()` raises for a port that is not a number. */
  function EnvPgConfig(env: Env): (r: Result<PgConfig>)
    ensures r.Err? <==> EnvInt(env, "LOG_DB_PORT", 5432).None?
    ensures r.Ok? ==> r.value.port == EnvInt(env, "LOG_DB_PORT", 5432).value
    ensures r.Ok? ==>
      (r.value.host == Getenv(env, "LOG_DB_HOST", "localhost")
       && r.value.database == Getenv(env, "LOG_DB_NAME", "logs")
       && r.value.user == Getenv(env, "LOG_DB_USER", "postgres")
       && r.value.password == Getenv(env, "LOG_DB_PASSWORD", "")
       && r.value.tableName == Getenv(env, "LOG_DB_TABLE", "advanced_logging_applicationlog"))
    ensures r.Ok? ==> r.value.(host := "localhost", port := 5432, database := "logs", user := "postgres",
                               password := "", tableName := "application_logs") == DefaultPgConfig()
  {
    match EnvInt(env, "LOG_DB_PORT", 5432)
    case None => Err("invalid literal for int() with base 10")
    case Some(port) =>
      Ok(DefaultPgConfig().(
        host := Getenv(env, "LOG_DB_HOST", "localhost"),
        port := port,
        database := Getenv(env, "LOG_DB_NAME", "logs"),
        user := Getenv(env, "LOG_DB_USER", "postgres"),
        password := Getenv(env, "LOG_DB_PASSWORD", ""),
        tableName := Getenv(env, "LOG_DB_TABLE", "advanced_logging_applicationlog")))
  }

  /** Without `LOG_DB_PORT` the port is 5432. */
  lemma EnvPortDefault(env: Env)
    requires "LOG_DB_PORT" !in env
    ensures EnvPgConfig(env).Ok? && EnvPgConfig(env).value.port == 5432
  {
  }

  /** A `postgres_config` keyword that is passed: a value Python reads as
      false (`None` or an empty dictionary), or database settings. */
  datatype PgArg = Falsy | Settings(config: PgConfig)

  /** The keyword arguments `initialize_logging` accepts: a field of
      `LogConfig`, `postgres_config` and `postgres_enabled`, each absent
      when not passed. */
  datatype Kwargs = Kwargs(
    name: Option<string>, level: Option<LevelArg>, environment: Option<string>,
    logDir: Option<string>, consoleOutput: Option<bool>, fileOutput: Option<bool>,
    rotateLogs: Option<bool>, maxBytes: Option<int>, backupCount: Option<int>,
    jsonFormat: Option<bool>, maskSensitive: Option<bool>,
    extraHandlers: Option<seq<ExtraHandler>>,
    postgresConfig: Option<PgArg>, postgresEnabled: Option<bool>)

  predicate NoKwargs(k: Kwargs) {
    k == Kwargs(None, None, None, None, None, None, None, None, None, None, None, None, None, None)
  }

  /** `LogConfig(**kwargs)` after the database entries are taken out:
      each field as given, the default where not, the level a number. */
  function KwargsConfig(k: Kwargs): (c: LogConfig)
    ensures c.level.Numeric?
    ensures k.level.Some? ==> LevelValue(c.level) == LevelValue(k.level.value)
    ensures k.level.Some? && k.level.value.Named? ==> c.level == Numeric(FromString(k.level.value.text))
    ensures c.name == k.name.GetOr("app") && c.environment == k.environment.GetOr(Development)
    ensures c.extraHandlers == k.extraHandlers.GetOr([])
    ensures c.jsonFormat == k.jsonFormat.GetOr(false) && c.maskSensitive == k.maskSensitive.GetOr(true)
    ensures k.level.None? ==> c.level == Numeric(Info)
    ensures k.level.Some? && k.level.value.Numeric? ==> c.level == k.level.value
    ensures c.logDir == k.logDir && c.consoleOutput == k.consoleOutput.GetOr(true)
    ensures c.fileOutput == k.fileOutput.GetOr(true) && c.rotateLogs == k.rotateLogs.GetOr(true)
    ensures c.maxBytes == k.maxBytes.GetOr(10 * 1024 * 1024) && c.backupCount == k.backupCount.GetOr(5)
  {
    var level := match k.level
      case Some(Named(s)) => Numeric(FromString(s))
      case Some(l) => l
      case None => Numeric(Info);
    PostInit(LogConfig(
      k.name.GetOr("app"), level, k.environment.GetOr(Development), k.logDir,
      k.consoleOutput.GetOr(true), k.fileOutput.GetOr(true), k.rotateLogs.GetOr(true),
      k.maxBytes.GetOr(10 * 1024 * 1024), k.backupCount.GetOr(5), k.jsonFormat.GetOr(false),
      k.maskSensitive.GetOr(true), k.extraHandlers.GetOr([])))
  }

  /** `postgres_config` is passed and is not a false value. */
  predicate PgGiven(k: Kwargs) {
    k.postgresConfig.Some? && k.postgresConfig.value.Settings?
  }

  /** Only keyword arguments that ask for the database and give its
      settings add the sink. */
  predicate WantsSink(k: Kwargs) {
    k.postgresEnabled.GetOr(false) && PgGiven(k)
  }

  /** The settings of the sink the keyword arguments add, if any. */
  function KwargsSink(k: Kwargs): (s: Option<PgConfig>)
    ensures s.Some? <==> WantsSink(k)
    ensures s.Some? ==> k.postgresConfig == Some(Settings(s.value))
  {
    if WantsSink(k) then Some(k.postgresConfig.value.config) else None
  }

  /** `c` is the manager configuration made from `base` after setup, with
      a database sink for `sink` appended to the extra handlers when one is
      asked for. */
  ghost predicate BuiltFrom(c: LogConfig, base: LogConfig, sink: Option<PgConfig>) {
    var n := |base.extraHandlers|;
    c.(extraHandlers := base.extraHandlers) == SetupConfig(base)
    && (sink.None? ==> c.extraHandlers == base.extraHandlers)
    && (sink.Some? ==>
          |c.extraHandlers| == n + 1 && c.extraHandlers[..n] == base.extraHandlers
          && c.extraHandlers[n].PostgresSink? && c.extraHandlers[n].handler.config == sink.value
          && c.extraHandlers[n].level == LevelValue(base.level))
  }

  /** The sink to attach: the database settings when the flag is on. */
  function EnvSink(env: Env): Option<PgConfig> {
    if Flag(env, "POSTGRES_ENABLED", "false") && EnvPgConfig(env).Ok? then Some(EnvPgConfig(env).value)
    else None
  }

  /** The registry key of the configuration `initialize_logging` builds
      without a `LogConfig`: from the keyword arguments when there are any,
      otherwise from the environment variables. */
  function SettingsKey(kwargs: Kwargs, env: Env): string {
    var c := if NoKwargs(kwargs) then EnvConfig(env) else KwargsConfig(kwargs);
    Key(c.name, c.environment)
  }

  /** An environment `initialize_from_env` rejects: the database is asked
      for and its port is not a number. */
  predicate EnvFails(env: Env) {
    Flag(env, "POSTGRES_ENABLED", "false") && EnvPgConfig(env).Err?
  }

  /** The module-level `_logger_manager`, with the manager registry every
      construction goes through. */
  class LoggingState {
    var manager: Option<LoggerManager>
    const registry: ManagerRegistry

    ghost predicate Valid()
      reads this, registry, registry.tree, registry.instances.Values
      reads if manager.Some? then {manager.value} else {}
    {
      registry.Valid()
      && (manager.Some? ==> manager.value.tree == registry.tree && manager.value.Valid())
    }

    constructor (registry: ManagerRegistry)
      requires registry.Valid()
      ensures Valid() && manager.None? && this.registry == registry
    {
      manager := None;
      this.registry := registry;
    }

    /** Registers `config`, with `sink` appended when given, and stores the
        manager. */
    method Install(config: LogConfig, sink: Option<PgConfig>, connectOk: bool) returns (m: LoggerManager)
      requires Valid()
      modifies this`manager, registry`instances, registry.tree`loggers, registry.tree.loggers.Values
      ensures Valid() && manager == Some(m)
      ensures var k := Key(config.name, config.environment);
        k in registry.instances && m == registry.instances[k]
        && (k in old(registry.instances) ==> m == old(registry.instances[k]))
        && (k !in old(registry.instances) ==> fresh(m) && BuiltFrom(m.config, config, sink))
    {
      var c := config;
      if sink.Some? {
        var h := new PostgreSQLHandler(sink.value, connectOk);
        c := config.(extraHandlers := config.extraHandlers + [PostgresSink(h, LevelValue(config.level))]);
      }
      m := registry.Create(c);
      manager := Some(m);
    }

    /** `initialize_from_env()`. */
    method InitializeFromEnv(env: Env, connectOk: bool) returns (r: Result<LoggerManager>)
      requires Valid()
      modifies this`manager, registry`instances, registry.tree`loggers, registry.tree.loggers.Values
      ensures Valid()
      ensures r.Err? <==> EnvFails(env)
      ensures r.Err? ==> manager == old(manager) && registry.instances == old(registry.instances)
      ensures r.Ok? ==>
        var c := EnvConfig(env);
        var k := Key(c.name, c.environment);
        manager == Some(r.value) && k in registry.instances && r.value == registry.instances[k]
        && (k in old(registry.instances) ==> r.value == old(registry.instances[k]))
        && (k !in old(registry.instances) ==> fresh(r.value) && BuiltFrom(r.value.config, c, EnvSink(env)))
    {
      if EnvFails(env) {
        return Err(EnvPgConfig(env).error);
      }
      var m := Install(EnvConfig(env), EnvSink(env), connectOk);
      r := Ok(m);
    }

    /** `initialize_logging(config, **kwargs)`: the configuration when
        given; otherwise one built from the keyword arguments when there
        are any; otherwise `initialize_from_env()`. */
    method InitializeLogging(config: Option<LogConfig>, kwargs: Kwargs, env: Env, connectOk: bool)
      returns (r: Result<LoggerManager>)
      requires Valid()
      modifies this`manager, registry`instances, registry.tree`loggers, registry.tree.loggers.Values
      ensures Valid()
      ensures config.Some? || !NoKwargs(kwargs) ==> r.Ok?
      ensures config.None? && NoKwargs(kwargs) ==> (r.Err? <==> EnvFails(env))
      ensures r.Err? ==> manager == old(manager) && registry.instances == old(registry.instances)
      ensures r.Ok? ==> manager == Some(r.value) && (r.value in old(registry.instances.Values) || fresh(r.value))
      ensures config.Some? ==>
        var k := Key(config.value.name, config.value.environment);
        k in registry.instances && r.value == registry.instances[k]
        && (k !in old(registry.instances) ==> fresh(r.value) && BuiltFrom(r.value.config, config.value, None))
      ensures config.None? && !NoKwargs(kwargs) ==>
        var c := KwargsConfig(kwargs);
        var k := Key(c.name, c.environment);
        k in registry.instances && r.value == registry.instances[k]
        && (k !in old(registry.instances) ==>
              fresh(r.value)
              && BuiltFrom(r.value.config, c, KwargsSink(kwargs)))
      ensures config.None? && r.Ok? ==>
        SettingsKey(kwargs, env) in registry.instances && r.value == registry.instances[SettingsKey(kwargs, env)]
    {
      if config.Some? {
        var m := Install(config.value, None, connectOk);
        r := Ok(m);
      } else if !NoKwargs(kwargs) {
        var m := Install(KwargsConfig(kwargs), KwargsSink(kwargs),
                         connectOk);
        r := Ok(m);
      } else {
        r := InitializeFromEnv(env, connectOk);
      }
    }

    /** The stored manager, initialized from the environment when there is
        none. */
    method EnsureManager(env: Env, connectOk: bool) returns (r: Result<LoggerManager>)
      requires Valid()
      modifies this`manager, registry`instances, registry.tree`loggers, registry.tree.loggers.Values
      ensures Valid()
      ensures r.Err? <==> old(manager).None? && EnvFails(env)
      ensures r.Err? ==> manager == old(manager)
      ensures r.Ok? ==> manager == Some(r.value)
      ensures old(manager).Some? ==> manager == old(manager) && registry.instances == old(registry.instances)
      ensures r.Ok? ==> r.value in old(registry.instances.Values) || fresh(r.value) || Some(r.value) == old(manager)
      ensures old(manager).None? && r.Ok? ==>
        var c := EnvConfig(env);
        var k := Key(c.name, c.environment);
        k in registry.instances && r.value == registry.instances[k]
        && (k in old(registry.instances) ==> r.value == old(registry.instances[k]))
        && (k !in old(registry.instances) ==> fresh(r.value) && BuiltFrom(r.value.config, c, EnvSink(env)))
    {
      if manager.None? {
        r := InitializeFromEnv(env, connectOk);
      } else {
        r := Ok(manager.value);
      }
    }

    /** `get_logger(name)`: initializes from the environment first when no
        manager is stored, then asks the manager. */
    method GetLogger(name: Option<string>, env: Env, connectOk: bool) returns (r: Result<LoggerObj>)
      requires Valid()
      modifies this`manager, registry`instances, registry.tree`loggers, registry.tree.loggers.Values
      modifies registry.instances.Values, if manager.Some? then {manager.value} else {}
      ensures Valid()
      ensures r.Err? <==> old(manager).None? && EnvFails(env)
      ensures old(manager).Some? ==> manager == old(manager) && registry.instances == old(registry.instances)
      ensures r.Ok? ==> manager.Some? && r.value.name == ChildName(manager.value.config.name, name)
      ensures r.Ok? ==> var n := ChildName(manager.value.config.name, name);
        n in manager.value.loggers && manager.value.loggers[n] == r.value
      ensures old(manager).None? && r.Ok? ==>
        var c := EnvConfig(env);
        var k := Key(c.name, c.environment);
        k in registry.instances && manager == Some(registry.instances[k])
        && (k in old(registry.instances) ==> manager.value == old(registry.instances[k]))
        && (k !in old(registry.instances) ==>
              fresh(manager.value) && BuiltFrom(manager.value.config, c, EnvSink(env)))
    {
      var init := EnsureManager(env, connectOk);
      if init.Err? {
        return Err(init.error);
      }
      var l := StoredLogger(name);
      r := Ok(l);
    }

    /** `_logger_manager.get_logger(name)` once a manager is stored. */
    method StoredLogger(name: Option<string>) returns (l: LoggerObj)
      requires Valid() && manager.Some?
      modifies manager.value`loggers, registry.tree`loggers
      ensures Valid()
      ensures var m := manager.value; var n := ChildName(m.config.name, name);
        l.name == n && n in m.loggers && m.loggers[n] == l
    {
      l := manager.value.GetLogger(name);
    }

    /** `get_logger_manager()`: the stored manager, if any. */
    method GetLoggerManager() returns (m: Option<LoggerManager>)
      ensures m == manager
    {
      m := manager;
    }

    /** `reset_logging()`: forget the stored manager and every registered
        instance. */
    method ResetLogging()
      requires Valid()
      modifies this`manager, registry`instances
      ensures Valid() && manager.None? && registry.instances == map[]
    {
      manager := None;
      registry.ResetInstances();
    }
  }
}

=== FILE: wrappers.dfy ===
/** Optional values and results with an error text, standing in for
    Python's `None` and for exceptions that the modelled code raises. */
module Wrappers {

  datatype Option<+T> = None | Some(value: T) {
    function GetOr(default: T): T {
      if Some? then value else default
    }
  }

  datatype Result<+T> = Ok(value: T) | Err(error: string)
}
